=== FILE: README.md ===
# giashard storage and routing core, in Dafny

giashard splits a web crawl into 2^n shards. Each record goes to the shard picked by an FNV-1 64-bit hash of its domain's "slug". Inside a shard, records are written into numbered batch directories of bounded size. A batch holds one gzip-compressed, line-oriented file per column. A companion tool computes statistics for a shard and derives a health verdict from them.

This project models that core as pure functions over immutable data. It covers:

- **Line codec.** `LineWriters` and `LineReaders` model writing and reading the lines of one column file.
- **Column store.** `ColumnWriters` fans a row out to one line writer per column. `ColumnReaders` zips the columns back into rows.
- **Batches.** `Batches` covers row size, rotation, `maxbatch` and the ×3 size estimate.
- **Shards.** `Shards` covers the regex host fallback, the slug, the shard id, lazy slot opening and close aggregation.
- **Statistics and health.** `Stats` models counting; `Health` models the verdict of the statistics tool.
- **JSONL input.** `JsonlReaders` maps JSONL records to rows.

Helper modules:

- `Bytes`: byte-sequence functions (split, join, index).
- `Strconv`: `FormatInt` and `Atoi`.
- `Fnv`: FNV-1 64. `FnvVectors` holds its worked test vectors.
- `Base64`: padded standard base64, section 4 of RFC 4648.
- `Errors`: last-error aggregation.
- `FileSystem`: the abstract filesystem.
- `Wrappers`: `Option` and `Result`.

The operating system is a value, `FileSystem.Fs`. It holds:

- the directories with their entry names;
- the files, each with its decompressed payload, its compressed size, and whether every gzip member in it is whole;
- a multiset of open handles.

Failures come from a fault oracle, `FileSystem.Env`: a set of (operation, path) pairs that fail. Compressed sizes are an opaque function of the members written.

A path is a sequence of components. `ColumnWriters.ColumnPath` and `Shards.ShardDir` model `filepath.Join` as appending one component to the directory's path; `filepath.Join`'s cleaning of `.`, `..` and repeated separators is not modelled, as giashard joins only plain names.

Compression itself is not modelled. A file's payload is the concatenation of its whole decompressed gzip members, and appending a member appends its bytes. `gzip.Writer` keeps the first write error: every later write and the close report it again, and the close then writes no trailer. A close that fails that way, or fails to flush, leaves a truncated member, and the file is marked as no longer intact. `net/url.Parse` and `publicsuffix.Parse` are the two functions of a `Shards.Parsers` parameter.

Each channel-fed goroutine becomes a function over the finite sequence the channel would carry. `bufio.Reader.ReadLine` becomes the sequence of its results (`LineReaders.ReadLineLog`): 4096-byte buffer, `isPrefix` pieces, CRLF stripping.

Where the code and its tests disagree, the model follows the code. The fallback host pattern at shard.go:28 admits no `-`, so `Shards.RegexHost` stops a host at the first `-` (`Shards.RegexHostStopsAtHyphen`). The test case at shard_test.go:17 expects the slug `tulas-handy-charts` for a URL without a scheme, which only a pattern admitting `-` could produce; the model does not claim that slug.

## Model

| member | source | states |
|---|---|---|
| LineWriters.Encode | linewriter.go:40-44 | the framed payload of some lines is one byte longer per line than the lines themselves, and has exactly one more `'\n'` per line |
| LineWriters.EncodeNewlines | linewriter.go:41-42 | when no line contains `'\n'`, the payload's newline count equals the number of lines written |
| LineWriters.EncodeAppend | linewriter.go:40-44 | framing distributes over concatenation: writing a then b yields Encode(a) followed by Encode(b) |
| LineWriters.NewLineWriter | linewriter.go:14-28 | success iff the append-open and the compressor both succeed; a failed open leaves the filesystem untouched; a failed compressor closes the file again (handles unchanged); existing files are untouched and a new file starts empty |
| LineWriters.WriteLine | linewriter.go:40-44 | a write fails iff an earlier write of this writer failed or the file refuses writes, and then reports the Write error, appends nothing and leaves the writer marked failed; otherwise it appends exactly `line ++ '\n'` to the pending bytes (length grows by len(line)+1) |
| LineWriters.WriteLinesEncode | linewriter.go:40-44 | with no earlier failure and no write fault, writing a sequence of lines appends exactly their framing to the pending bytes |
| LineWriters.WriteLinesNeverFail | linewriter.go:40-44 | with no earlier failure and no write fault, the writer is still not marked failed after any number of lines |
| LineWriters.StreamError | linewriter.go:31-33 | the compressor's close reports the kept write error when a write failed, else its own flush failure, and nothing iff neither happened |
| LineWriters.CloseError | linewriter.go:30-38 | closing reports nothing iff the compressor and the file both close cleanly; the file's close error wins, and otherwise the compressor's is reported |
| LineWriters.Close | linewriter.go:30-38 | closing releases the handle and reports `CloseError`; the pending bytes are appended to the file's previous payload (or to nothing for a new file) iff the compressor closes cleanly, and the file stays intact exactly then (if it was); other files are unchanged |
| LineWriters.CloseAfterReopen | linewriter.go:30-38 | closing a writer with no failed write over a file that held `before` leaves `before`'s payload followed by the pending bytes, as intact as `before`, iff the compressor closes cleanly; otherwise `before`'s payload, not intact |
| LineWriters.FailedWriteReportedAtClose | linewriter.go:30-44 | a failed write is reported again by `Close` unless the file's close error replaces it, and the file is left with a truncated member |
| LineWriters.ReopenAppends | linewriter.go:14-15 | opening an existing column in append mode, writing lines and closing leaves the old payload followed by the new lines' framing, as intact as before, iff the compressor closes cleanly; otherwise the old payload alone, no longer intact |
| LineReaders.NewLineReaderAsWritten | linereader.go:20-33 | as written: success iff the file exists, opens, and has a non-empty compressed body; when the open succeeds the handle count grows even if the gzip reader then fails |
| LineReaders.EmptyFileLeaksHandle | linereader.go:26-29 | as written, opening an empty column file fails and leaves one more handle open on it than before |
| LineReaders.NewLineReader | linereader.go:20-33 | corrected: same success condition and the reader is fatal by default over the file's payload; every failure leaves the filesystem exactly as it was |
| LineReaders.SetFatal | linereader.go:36-38 | `Fatal(flag)` sets the flag and changes nothing else |
| LineReaders.Close | linereader.go:41-49 | closing releases the reader's handle; it reports no error iff neither the stream nor the file close fails, and the file's error when that one fails |
| LineReaders.StripCR | linereader.go:59 | ReadLine's CRLF handling drops at most one trailing `'\r'`, and drops one iff the segment ends in `'\r'` |
| LineReaders.SplitLines | linereader.go:58-90 | the reference split of a payload: no item contains `'\n'`, there are at most (newlines + 1) items, and the empty payload yields no items |
| LineReaders.ReadLineLog | linereader.go:58-63 | ReadLine on a healthy stream ends at EOF, never returns `'\n'`, and returns continuation pieces that are non-empty and at most one buffer long |
| LineReaders.Policy | linereader.go:65-83 | EOF finishes; "file already closed" is ignored; any other error aborts in fatal mode and is logged otherwise, carrying that error |
| LineReaders.LinesFrom | linereader.go:58-90 | the loop's ending follows the error policy; it emits every completed line, plus at most one final non-empty item and only at EOF; at EOF the emitted bytes are exactly the accumulated item followed by all chunk bytes |
| LineReaders.Lines | linereader.go:52-93 | from an empty item: after an error exactly the completed lines are emitted; at EOF the items concatenate to all bytes read |
| LineReaders.LinesFromHealthyStream | linereader.go:58-90 | on a healthy stream, continuing a partial item, the loop yields that item glued onto the reference split of the payload, long lines reassembled from their buffer-sized pieces |
| LineReaders.LinesOfHealthyStream | linereader.go:52-93 | the lines of a healthy gzip stream are exactly the reference split of its payload, and the stream finishes |
| LineReaders.ErrorDropsPartialItem | linereader.go:65-83 | on a read error the output is the EOF output cut to the completed lines: the partial item is dropped |
| LineReaders.SplitLinesOfEncode | linereader.go:58-90 | round trip: lines free of `'\n'` and of a trailing `'\r'` come back from the writer's framing identical and in order |
| LineReaders.TrailingCarriageReturnIsLost | linereader.go:59 | the trailing-`'\r'` condition is necessary: a written line `"\r"` reads back as the empty line |
| LineReaders.ReadAll | linereader.go:52-93 | a reader's whole output is the reference split of its payload, finishing normally |
| ColumnWriters.ColumnPathInjective | colwriter.go:19 | distinct columns map to distinct files `<dir>/<col>.gz` |
| ColumnWriters.Value | colwriter.go:46 | a configured column missing from the row is written as the empty value, a present one as its value |
| ColumnWriters.NewColumnWriter | colwriter.go:16-32 | success iff every column file can be opened; on success one fresh writer per column, in column order, each holding one new handle; on failure every writer already opened is closed again (handles unchanged), and the error names the first column that could not be opened |
| ColumnWriters.OpenFromOutcome | colwriter.go:18-29 | the open loop succeeds iff every column opens, and then yields the prior writers followed by one fresh writer per column |
| ColumnWriters.OpenFromHandles | colwriter.go:18-29 | success adds exactly one handle per column; failure closes the prior writers, releasing their handles |
| ColumnWriters.OpenFromError | colwriter.go:20-26 | a failure reports the error of the first column that cannot be opened |
| ColumnWriters.OpenFromKeepsPayloads | colwriter.go:18-29 | opening, and closing on failure, changes no existing file's payload |
| ColumnWriters.NewColumnWriterCreates | colwriter.go:16-32 | after a successful open every column file exists, and one that did not exist before is empty |
| ColumnWriters.WriteRow | colwriter.go:44-53 | success iff no column's write fails (by a fault or an earlier failure), and then every column gets exactly its value plus `'\n'`; otherwise the first failing column's error is returned, every earlier column got its line, the failing column is marked failed and later columns are untouched |
| ColumnWriters.WriteFromSucceeds | colwriter.go:45-52 | with no failing column, the fan-out appends each column's value and a newline to that column's writer and changes nothing else |
| ColumnWriters.WriteFromFails | colwriter.go:47-50 | a failure at column k returns k's error after columns before k were written, with no rollback, k marked failed and nothing written from k on |
| ColumnWriters.WriteRowIgnoresOtherKeys | colwriter.go:45-46 | row keys that are not configured columns have no effect on the write |
| ColumnWriters.WriteRowsAligned | colwriter.go:44-53 | writing rows without faults appends to each column exactly the framing of that column's values, row by row: the streams stay aligned |
| ColumnWriters.WriteRowsLineCount | colwriter.go:44-53 | alignment: after successful writes, each column holds one line per row written |
| ColumnWriters.CloseAll | colwriter.go:35-42 | closing all writers reports no error iff none fails, and otherwise the error of the last one that failed |
| ColumnWriters.CloseFilesReleases | colwriter.go:36-41 | every writer is closed, even after a failure: all their handles are released |
| ColumnWriters.CloseFilesPersists | colwriter.go:36-41 | closing writers on distinct files leaves each file's old payload followed by that writer's pending lines iff its compressor closes cleanly, and otherwise the old payload in a file that is no longer intact |
| ColumnWriters.Close | colwriter.go:35-42 | the column writer's close reports the last close error, and releases one handle per column |
| ColumnWriters.WriteThenClose | colwriter.go:16-53 | opening fresh columns, writing rows and closing leaves a column file holding exactly its values' framing, intact, iff its compressor closes cleanly, and otherwise no whole member, the model keeping none of the truncated member's payload, in a file that is not intact; closing reports an error iff some compressor or file fails to close; no handle is left open |
| ColumnWriters.CloseColumns | colwriter.go:35-42 | closing writers that hold each column's framing over empty files leaves that framing exactly where the compressor closes cleanly, and reports an error iff some compressor or file fails to close |
| ColumnReaders.NewColumnReader | colreader.go:16-32 | success iff every column file can be read; the readers follow column order, are fatal by default and read their files' payloads; on failure every reader already opened is closed (handles unchanged, given the corrected line reader) |
| ColumnReaders.OpenFromSucceeds | colreader.go:18-29 | the open loop succeeds iff every column file can be read |
| ColumnReaders.OpenFromHandles | colreader.go:18-29 | success adds one handle per column; failure releases the prior readers' handles (given the corrected line reader) |
| ColumnReaders.Close | colreader.go:35-42 | every reader is closed, all handles are released, and the last close error is returned |
| ColumnReaders.Round | colreader.go:55-61 | one assembly round completes iff every column still has a line; otherwise it stops at the first exhausted column, having pulled one line from each column before it |
| ColumnReaders.RoundKeys | colreader.go:54-61 | a completed row has exactly the configured column names as keys |
| ColumnReaders.RoundValues | colreader.go:55-61 | a completed row maps each column to that column's line of the round (the last occurrence wins for a repeated column) |
| ColumnReaders.Rows | colreader.go:44-68 | the reader emits exactly as many rows as the shortest column has lines; the k-th row is assembled from the k-th lines; each column is pulled at most one line beyond the rows emitted |
| ColumnReaders.RowsFromCount | colreader.go:53-64 | the row count is the minimum line count; the round that ends the stream stops at the first shortest column |
| ColumnReaders.RowsFromRow | colreader.go:55-61 | every emitted row holds, for each column, the line at the row's position |
| ColumnReaders.RowsDiscard | colreader.go:55-60 | a column loses one pulled line, discarded with the unfinished row, iff it and every column before it are longer than the shortest |
| ColumnReaders.Streams | colreader.go:44-50 | each column's stream is the split of its file's payload |
| ColumnReaders.RowsOfColumns | colreader.go:44-68 | zipping the columns of some rows gives back those rows restricted to the configured columns |
| ColumnReaders.ReadBack | colreader.go:16-68 | reading column files that hold the framing of some rows' values yields those rows, projected on the columns, and closing returns every handle |
| ColumnReaders.RoundTrip | colreader.go:16-68 | writing rows to fresh column files whose compressors close cleanly, closing, reopening and reading gives back exactly the rows projected on the columns, with no handle leaked |
| JsonlReaders.NewJsonlReader | jsonlreader.go:27-39 | success iff the file opens and the zstd reader can be made; the reader is fatal by default; when the decompressor fails the file stays open, as written |
| JsonlReaders.SetFatal | jsonlreader.go:42-44 | `Fatal(flag)` overrides the default and keeps the file |
| JsonlReaders.Close | jsonlreader.go:47-55 | closing releases the handle and returns the last close error |
| JsonlReaders.Records | jsonlreader.go:58-78 | no delivered record has an empty text, and only fatal mode can abort the stream |
| JsonlReaders.KeptMembers | jsonlreader.go:71-73 | a record is delivered iff some decode produced it with a non-empty text |
| JsonlReaders.KeptAppend | jsonlreader.go:62-75 | filtering commutes with concatenation, so records are delivered in decode order |
| JsonlReaders.RecordsAreKept | jsonlreader.go:62-75 | fatal mode delivers the non-empty records decoded before the first failure and aborts iff a decode failed; non-fatal mode delivers every non-empty record, the zero record after an error being dropped |
| JsonlReaders.NonFatalDropsOnlyEmpty | jsonlreader.go:64-73 | in non-fatal mode every decoded record with a non-empty text is delivered |
| JsonlReaders.RowOf | jsonlreader.go:85-100 | a row has exactly the keys "url" and "text", the URL unchanged, and the text's base64 which decodes back to the text |
| JsonlReaders.Rows | jsonlreader.go:81-104 | one row per delivered record, in order |
| JsonlReaders.RowText | jsonlreader.go:93-96 | the text value has length 4·⌈n/3⌉ and contains no `'\n'` or `'\r'` |
| JsonlReaders.RowsLineSafe | jsonlreader.go:93-99 | rows of records whose URLs have no line break satisfy the line codec's round-trip precondition |
| Base64.Encode | jsonlreader.go:94-96 | the padded standard encoding of n bytes has length 4·⌈n/3⌉ |
| Base64.EncodeAlphabet | jsonlreader.go:94-96 | every encoded character is from the base64 alphabet or padding, so it is never a line break |
| Base64.DecodeEncode | stat.go:59-65 | decoding the encoding of any bytes returns those bytes |
| Base64.DecodeSkipsLineBreak | stat.go:60-61 | the decoder ignores `'\n'` and `'\r'` wherever they occur |
| Base64.DecodeQuanta | stat.go:60-64 | input without line breaks decodes only if it is whole quanta of four characters, each quantum giving one to three bytes |
| Base64.Decode | stat.go:59-65 | once line breaks are removed, input whose length is not a multiple of 4 is rejected; what decodes fits the buffer of `DecodedLen(len(doc))` bytes that `getLines` allocates |
| Stats.NewStats | stat.go:105-118 | a new statistics record has every map empty |
| Stats.Bump | stat.go:77-78 | a Go map increment adds delta to the key's value, treating a missing key as 0, and changes no other key |
| Stats.CountFile | stat.go:29-57 | the size is -1 iff the stat fails, and otherwise the compressed size; the records count is -1 when the file cannot be read, and otherwise one less than its number of lines |
| Stats.OpenFile | stat.go:29-57 | `openfile` overwrites the file's size and record entries with the count's sentinels or values, and changes nothing else |
| Stats.GetLines | stat.go:59-69 | lines are returned iff the document is valid base64; there is always at least one, none contains `'\n'`, and joined with `'\n'` they give back the decoded text |
| Stats.GetLinesOfEncode | stat.go:59-69 | a document made by encoding lines joined with `'\n'` splits back into exactly those lines |
| Stats.Bucket | stat.go:80 | a bucket is a multiple of 5 with bucket ≤ n < bucket + 5 |
| Stats.CountLines | stat.go:71-85 | a decode error changes nothing; otherwise the file's line count grows by the number of lines, exactly one lines-per-document bucket is incremented, and the token histogram is untouched |
| Stats.CountTokens | stat.go:87-103 | a decode error changes nothing; otherwise the file's line count grows by the number of lines and the lines-per-document histogram is untouched |
| Stats.TallyAdds | stat.go:96-100 | tallying values adds each value's multiplicity to its histogram entry |
| Stats.CountTokensHistogram | stat.go:96-100 | the token histogram grows, per field count, by the number of lines with that many space-separated fields, and the increments sum to the number of lines |
| Stats.CalcCountersAreOpenAll | stat.go:148-204 | the size and record counters `Calc` leaves are those of opening its eight column files in order |
| Stats.CalcRecords | stat.go:148-204 | after `Calc` each of the eight columns has a record count equal to that file's count (-1 when unreadable), and other entries are kept |
| Stats.CalcBytes | stat.go:148-204 | after `Calc` each of the eight columns has a size entry equal to that file's size (-1 when missing), and other entries are kept |
| Stats.Calc | stat.go:148-204 | `Calc` keeps the shard directory; it records native line counts only under "sentences.gz" and "tokenised.gz", and English ones only under "sentences_en.gz" and "tokenised_en.gz", so never an English "tokenised.gz" count |
| Health.BasicFilesFound | cmd/giastat/health.go:31-38 | step one finds the basic files iff each of the five has a non-negative size entry |
| Health.BasicFilesIgnored | cmd/giastat/health.go:31-46 | the verdict does not depend on the basic-file sizes: only the entries step two reads matter |
| Health.BasicFilesMissingButHealthy | cmd/giastat/health.go:31-60 | a shard with none of the basic files found can still pass every test |
| Health.TokenisedTest | cmd/giastat/health.go:42-60 | the tokenised test passes iff the branch's tokenised file has a non-negative size |
| Health.RecordsTest | cmd/giastat/health.go:62-76 | the records test passes iff the url.gz count is present and non-negative and every positive count equals it |
| Health.MatchFromAll | cmd/giastat/health.go:70-74 | the matching loop succeeds iff no count is positive and different from the url.gz count |
| Health.MatchLoop | cmd/giastat/health.go:70-74 | the loop over the map's values, in any order, decides the all-match property |
| Health.SentenceCountTest | cmd/giastat/health.go:80-107 | the sentence-count test passes iff all the branch's looked-up line counts are present |
| Health.CountTest | cmd/giastat/health.go:89-112 | a count test passes iff the native sentence count is positive and equals the compared count |
| Health.Summarise | cmd/giastat/health.go:117-127 | the verdict's passed count is the number of passing tests and never exceeds the total, which is the number of tests |
| Health.VerdictRecords | cmd/giastat/health.go:62-76 | every verdict has the records test, passing iff url.gz is present and all positive counts match it |
| Health.VerdictEnglish | cmd/giastat/health.go:52-113 | an English shard's verdict has exactly the tests tokenised, records, sentence_count and tokenised_count, each deciding as its step says |
| Health.VerdictTranslated | cmd/giastat/health.go:42-99 | a translated shard's verdict has exactly six tests, translated always passing, each other deciding as its step says |
| Health.VerdictWith | cmd/giastat/health.go:42-113 | an English shard is given exactly the tests tokenised, records, sentence_count and tokenised_count; any other shard gets those and translated and translation_count |
| Health.HealthTests | cmd/giastat/health.go:16-128 | corrected: passed ≤ total, with total 4 for an English shard and 6 otherwise, so the denominator of Overall is at least 4; an English shard's tokenised_count compares the native sentence and tokenised counts |
| Health.HealthTestsAsWritten | cmd/giastat/health.go:16-128 | as written: the same totals, but an English shard's tokenised_count compares the native sentence count with the English "tokenised.gz" count |
| Health.EnglishCountsFailAsWritten | cmd/giastat/health.go:100-113 | as written, for the statistics `Calc` produces, an English shard always fails its sentence_count and tokenised_count tests |
| Health.EnglishCountsFailWithout | cmd/giastat/health.go:100-113 | as written, both count tests fail whenever the English line counts lack "tokenised.gz" |
| Health.NoEnglishTokenisedCount | stat.go:180-201 | `Calc` never records an English line count under "tokenised.gz" |
| Health.EnglishCountsExample | cmd/giastat/health.go:100-113 | a concrete English shard with 3 sentences and 3 tokenised lines fails both count tests as written, and passes both when corrected |
| Health.EnglishCountsCorrected | cmd/giastat/health.go:100-113 | corrected: an English shard's count tests compare the native sentence and tokenised line counts |
| Batches.BatchPath | batch.go:106-108 | the batch directory is the root directory plus the batch number as unpadded decimal |
| Batches.BatchPathInjective | batch.go:106-108 | distinct batch numbers give distinct directories |
| Batches.RowSize | batch.go:16 | a row's size is the maximum length of its values, not their sum, and 0 for the empty row |
| Batches.SizeFoldBounds | batch.go:67-73 | the size loop's result bounds every value seen and is one of them (or the start value) |
| Batches.SizeFoldIsRowSize | batch.go:67-73 | whatever order the map is iterated in, the size loop computes the maximum value length |
| Batches.MaxBatchOf | batch.go:140-158 | the result is at least the start value, bounds every numeric name, and is either the start value or one of the numeric names |
| Batches.MaxBatch | batch.go:132-161 | `maxbatch` succeeds iff the directory can be listed, and otherwise reports the listing error |
| Batches.MaxBatchNoNumbers | batch.go:150-158 | a directory without numeric names gives batch 1 |
| Strconv.FormatInt | batch.go:107 | a decimal name is non-empty, digits after the first character, and starts with '-' exactly for a negative number |
| Strconv.Atoi | batch.go:142 | an accepted name is an optional sign followed by at least one digit, and its value is within the int64 range; the empty name is refused |
| Strconv.AtoiFormatInt | batch.go:107 | a batch number's decimal name parses back to the number, which is how `maxbatch` recovers it |
| Strconv.FormatIntInjective | batch.go:107 | distinct numbers have distinct decimal names |
| Batches.BatchSize | batch.go:164-189 | a size estimate is always a multiple of 3 |
| Batches.SizeFromIsMax | batch.go:166-184 | the scan's result bounds the size of every column file found and is one of those sizes (or the start value) |
| Batches.SizeFromFails | batch.go:169-177 | the estimate fails iff some column file cannot be stat'ed after a positive size was already seen earlier in column order |
| Batches.BatchSizeEmpty | batch.go:164-189 | with no column file present the estimate is 0 |
| Batches.OpenBatch | batch.go:114-128 | the batch keeps its identity; it has a writer iff no error was reported, a fresh one over its own directory; the count becomes the directory's size estimate whenever the directory could be made and estimated, and otherwise the batch is unchanged but for losing its writer, with the error of that step |
| Batches.NewBatch | batch.go:35-57 | no batch iff `maxbatch` fails; otherwise the batch starts at the highest existing number and has a writer iff no error was reported |
| Batches.Rotate | batch.go:77-85 | rotation resets the count to 0, increments the number by exactly one and drops the writer; the old writer is closed exactly as `Batches.Close` closes it, its error ignored, releasing its column files' descriptors; without a writer the filesystem is untouched |
| Batches.Prepare | batch.go:75-94 | the number grows by one iff the row overflows the budget, so at most one rotation per call; with no overflow and an open writer nothing changes; after a rotation the count is the new directory's size estimate; a writer it had to open starts with nothing pending in any column |
| Batches.WriteRow | batch.go:66-104 | the batch keeps its identity and its invariant; its number grows by one iff count + row size exceeds the budget; success leaves a writer open (what it writes is stated by `Batches.WriteRowAfterPrepare`) |
| Batches.WriteRowAfterPrepare | batch.go:86-101 | a failed rotation or open is returned unchanged; otherwise the row goes through the prepared column writer, whose resulting writers and error become the batch's; a successful write adds the row size to the count the preparation left, which after a rotation is the new batch's size estimate |
| Batches.WriteRowCount | batch.go:96-101 | without rotation and with an open writer, a successful write adds the row size to the count and keeps the number |
| Batches.WriteRowFailedWriteKeepsCount | batch.go:97-100 | a failed column write returns a Write error and leaves the count unchanged |
| Batches.OversizedRowRotates | batch.go:77-100 | a row larger than the budget is never rejected: it forces a rotation, and on success the next batch's column writers, one on each of its column files, each hold exactly that row's value followed by a newline, still pending until the batch is closed |
| Batches.FreshWriterTakesRow | batch.go:88-101 | a column writer opened on fresh files holds, after a successful write, exactly the row's line in every column |
| Batches.CloseError | batch.go:59-64 | no writer means no error; otherwise the batch's close error is none iff every column writer closes cleanly, and else it is the close error of the last failing column writer, every later one closing cleanly |
| Batches.Close | batch.go:59-64 | closing a batch without a writer does nothing; otherwise it reports `Batches.CloseError`: no error iff no column writer's compressor or file fails to close and none had a failed write, else the last failing writer's error; directories are untouched and exactly the column files' descriptors are released |
| Batches.CloseFlushes | batch.go:59-64 | closing an open batch with distinct columns leaves each column file holding what that column writer's close puts there (a whole member of its pending lines, or a truncated one), and every other file unchanged |
| Shards.LeadingRun | shard.go:28 | the run is the longest prefix of `[A-Za-z0-9.]` characters |
| Shards.RegexHost | shard.go:28 | a regex capture is at least two characters long and starts and ends with an alphanumeric |
| Shards.RegexHostIsLongestMatch | shard.go:28 | the regex matches iff some capture is possible, and then the capture is the longest possible one |
| Shards.RegexHostStopsAtHyphen | shard.go:28 | the fallback capture of "tulas-…" is "tulas", so the expected slug "tulas-handy-charts" cannot come from this pattern |
| Shards.RegexHostTrailingDot | shard.go:28 | the fallback drops a trailing dot: "www.reddit.com." captures "www.reddit.com" |
| Shards.RegexHostSlashDot | shard.go:28 | the capture stops at '/': "www.reddit.com/." captures "www.reddit.com" |
| Shards.Host | shard.go:52-66 | the host never ends in '.'; a parsed URL host has its trailing dots trimmed; without one the regex capture is used |
| Shards.Slug | shard.go:52-77 | no host is an error; a suffix parser failure yields the host as the slug together with the parser's error; otherwise the slug is the parsed second-level domain |
| Shards.ShardId | shard.go:79-95 | the shard id exists iff the slug has no error; it is then the FNV-1 64 hash of the slug reduced mod 2^n, so it is below 2^n; otherwise the slug's error is returned |
| Fnv.Fnv64 | shard.go:80-93 | the hash is a 64-bit value, the offset basis for no input, and its low byte follows the 8-bit recurrence from 0x25 |
| Fnv.OffsetLowByte | shard.go:80-93 | from the offset basis, the hash's low byte is the 8-bit recurrence started at 0x25 |
| Fnv.XorLow | shard.go:88 | XOR with a byte changes only the low 8 bits of the 64-bit state |
| Fnv.HashFromAppend | shard.go:88 | hashing a concatenation is hashing the second part from the state the first part left |
| Fnv.MulLowByte | shard.go:88 | the low byte of the product mod 2^64 depends only on the low byte: it is (low · 0xB3) mod 256 |
| Fnv.LowByte | shard.go:88-93 | the low byte of the hash is the 8-bit recurrence h := (h·0xB3) XOR c from 0x25 |
| Shards.ShardIdLowByte | shard.go:79-95 | for n = 8 the shard id is that 8-bit recurrence over the slug |
| FnvVectors.RedditLowByte | shard_test.go:11 | the recurrence gives 249 for "reddit" |
| FnvVectors.TulasLowByte | shard_test.go:17 | the recurrence gives 179 for "tulas-handy-charts" |
| Shards.RedditShard | shard_test.go:11 | a key whose slug is "reddit" goes to shard 249 of 256 |
| Shards.TulasShard | shard_test.go:17 | a key whose slug is "tulas-handy-charts" goes to shard 179 of 256 |
| Shards.ShardDir | shard.go:129-131 | a shard directory is the root plus the shard number in unpadded decimal |
| Shards.NewShard | shard.go:34-38 | a new shard has exactly 2^n empty slots and keeps its parameters |
| Shards.OpenShard | shard.go:118-127 | success yields a valid batch over the shard's directory with its size and columns; a failing mkdir is returned with nothing changed |
| Shards.Slot | shard.go:105-111 | an occupied slot is reused unchanged; an empty one is opened; success always yields a valid batch for that slot |
| Shards.WriteToSlot | shard.go:105-113 | other slots are untouched; an occupied slot receives the batch's write; an empty slot whose opening fails stays empty and the error is returned |
| Shards.WriteRow | shard.go:97-116 | a routing error returns before any slot is touched; otherwise only the target slot can change, and once occupied it stays occupied |
| Shards.WriteToSlotOutcome | shard.go:105-113 | an open slot's batch takes the row; an empty slot is opened and the new batch takes the row; in both the batch's filesystem and error are returned and the slot holds the batch after the write; an empty slot that cannot be opened stays empty and the opening error is returned |
| Shards.WriteRowSlot | shard.go:97-113 | with a routable key, `WriteRow` is the write to the key's slot in exactly those three ways: the slot is opened lazily at most once and reused afterwards |
| Shards.CloseFrom | shard.go:41-48 | one entry per slot, each the close error of that slot's batch, and none for an empty slot |
| Shards.CloseFromReleases | shard.go:40-50 | closing every slot leaves the directories alone and releases exactly the descriptors of the open batches' column files |
| Shards.Close | shard.go:40-50 | every non-empty batch is closed, whatever the others report; the result is no error iff no batch's close fails, and otherwise the error of the last batch whose close fails, all later slots closing cleanly; directories are untouched and the open batches' descriptors are released |
| Errors.LastError | colwriter.go:35-42 | the aggregate is no error iff every step succeeded, and otherwise the last error reported |
| Bytes.SplitJoin | stat.go:67 | splitting joined parts that contain no separator gives back the parts |
| Bytes.Split | stat.go:67 | a split has one more part than separators, no part contains the separator, and joining the parts gives back the input |

## Left out

- Goroutines and channels: every channel is the finite sequence it would carry. Blocking, backpressure and interleavings are not modelled.
- gzip and zstd codecs: only decompressed payloads are modelled. A compressed size is an opaque function of the members written; the code uses it only through `os.Stat` sizes.
- `net/url.Parse` and `publicsuffix.Parse`: these are the uninterpreted functions of `Shards.Parsers`. As a result, the slug expectations at shard_test.go:11-16 are not proved, only the hash of the expected slugs.
- The encoding/json decoder: it is represented by its sequence of outcomes, one per `Decode` call. A decoder that repeats the same syntax error forever in non-fatal mode is not modelled.
- `ReadStats`, `Write` and `Marshal` in stat.go: JSON and gzip file I/O with no logic of their own.
- Logging: `log.Printf` has no effect in the model, and `log.Fatalf` is an `Aborted` outcome.
- Health: the float32 `Overall` is kept as the pair (passed, total), whose ratio it is.
- Versions of the API that shard.go does not define: `NewShardErr`, `ShardError`, `AddRulesToDefaultList` and exported `Maxbatch`/`Batchsize`. The commands that call them are not part of this model.
- Command-line plumbing: the commands' flag parsing and file copying.
- Slice aliasing from `append(line, '\n')` (linewriter.go:41), and the unsynchronised map update at stat.go:49: both depend on memory sharing, which immutable values do not have.
- ColumnReaders.Rows: requires a non-empty column list. With none, the code emits empty rows forever, which a terminating function cannot express.
- Shards.NewShard: requires n < 63. A larger n makes `1 << n` negative or zero, where the code panics or allocates no slots.
- Shards.ShardId: requires n < 64. Beyond that, `1 << n` is zero and the modulus panics.
- Batches.WriteRow: it is a ghost function, because the row size is the maximum over a Go map, whose iteration order is unspecified. Batches.SizeFoldIsRowSize shows that every order gives that maximum.
- ColumnReaders.NewColumnReader, ColumnReaders.OpenFromHandles, Stats.OpenReadClose, Stats.OpenFile: these are built on the corrected `LineReaders.NewLineReader` (see Findings). When a file opens but no gzip reader can be made on it, they release its descriptor. The code as written keeps it open (colreader.go:19 and stat.go:41 call the reader of linereader.go:26-29); `LineReaders.EmptyFileLeaksHandle` states that leak for one reader.
- Stats.CountFile, ColumnReaders.Streams: every file that opens is read as its whole members' payload, so its lines are the split of that payload. A file that is not intact holds a truncated member after them, whose flushed prefix `ReadLine` would still deliver before it fails with an unexpected end of file (linereader.go:65-83); since readers are fatal by default (linereader.go:31) giastat would exit there. The readers do not look at the flag, so `Stats.Calc` always finishes. `LineReaders.Lines` and `LineReaders.Policy` model that failure path for a single reader, driven by a read log.
- ColumnReaders.RoundTrip: requires that no column's compressor fails to close. With that failure the column file keeps a truncated member, of whose payload the model keeps nothing; `ColumnWriters.WriteThenClose` states that case.
- FileSystem.AppendTruncated: keeps none of a truncated member's payload. At `gzip.BestCompression` the compressor hands finished deflate blocks to the file during `Write`, so when the final flush or the trailer fails (linewriter.go:30-38) a prefix of the member is already on disk. `gzip.Reader` delivers that prefix before `io.ErrUnexpectedEOF`, and `ReadLine` delivers its complete lines; which prefix got out depends on the deflate block boundaries, which the model does not have. How many bytes the truncated member adds is likewise an opaque function of its data.
- Integer widths: sizes, counts and batch numbers are unbounded. int64 overflow of `count` and of the ×3 estimate is not modelled. `Strconv.Atoi` does keep Go's int64 range check.
- The `Stats.Calc` channel loops: the `Records` increment is modelled per line read, over the abstract filesystem.

## Findings

| source | as written | input that shows it | evidently intended | confidence | as-written member | corrected member |
|---|---|---|---|---|---|---|
| linereader.go:26-29 | when `gzip.NewReader` fails, `NewLineReader` returns the error without closing the file it opened | an existing but empty column file: the gzip header read fails and the descriptor stays open | close the file before returning the error, as `NewLineWriter` does at linewriter.go:19-23 | not executed | LineReaders.EmptyFileLeaksHandle | LineReaders.NewLineReader |
| cmd/giastat/health.go:102 | an English shard's tokenised line count is looked up in `English.Lines["tokenised.gz"]`, but `Calc` stores it in `Native.Lines` (stat.go:187) | any English shard, e.g. 3 native sentences and 3 native tokenised lines: sentence_count and tokenised_count both fail | look the count up in `Native.Lines["tokenised.gz"]` | not executed | Health.EnglishCountsFailAsWritten | Health.EnglishCountsCorrected |

=== FILE: base64.dfy ===
/**
 * Standard padded base64 (the alphabet and padding of section 4 of RFC 4648)
 * as Go's `base64.StdEncoding` encodes and decodes it: the decoder skips
 * '\r' and '\n' anywhere, demands whole four-character quanta, accepts
 * "=" or "==" only in the last one, and ignores the unused low bits of a
 * padded quantum.
 */
module Base64 {
  import opened Wrappers
  import opened Bytes

  const PAD: byte := 61  // '='

  /** The alphabet character of a six-bit value. */
  function EncChar(v: nat): (c: byte)
    requires v < 64
  {
    if v < 26 then 'A' as int + v
    else if v < 52 then 'a' as int + (v - 26)
    else if v < 62 then '0' as int + (v - 52)
    else if v == 62 then '+' as int
    else '/' as int
  }

  /** The six-bit value of an alphabet character; absent for any other byte, '=' included. */
  function Sextet(c: byte): (r: Option<nat>)
    ensures r.Some? ==> r.value < 64
  {
    if 'A' as int <= c <= 'Z' as int then Some(c - 'A' as int)
    else if 'a' as int <= c <= 'z' as int then Some(c - 'a' as int + 26)
    else if '0' as int <= c <= '9' as int then Some(c - '0' as int + 52)
    else if c == '+' as int then Some(62)
    else if c == '/' as int then Some(63)
    else None
  }

  lemma SextetOfEncChar(v: nat)
    requires v < 64
    ensures Sextet(EncChar(v)) == Some(v)
    ensures EncChar(v) != PAD && EncChar(v) != NL && EncChar(v) != CR
  {
  }

  /** A byte the encoder can emit. */
  predicate InAlphabet(c: byte)
  {
    Sextet(c).Some? || c == PAD
  }

  // ------------------------------------------------------------------ encode

  /** Three bytes as four characters. */
  function Quantum(a: byte, b: byte, c: byte): (q: seq<byte>)
  {
    [EncChar(a / 4), EncChar((a % 4) * 16 + b / 16), EncChar((b % 16) * 4 + c / 64), EncChar(c % 64)]
  }

  /** `StdEncoding.Encode`: whole quanta, then a padded final quantum for one or two leftover bytes. */
  function Encode(x: seq<byte>): (e: seq<byte>)
    ensures |e| == 4 * ((|x| + 2) / 3)
    decreases |x|
  {
    if |x| == 0 then []
    else if |x| >= 3 then Quantum(x[0], x[1], x[2]) + Encode(x[3..])
    else if |x| == 2 then [EncChar(x[0] / 4), EncChar((x[0] % 4) * 16 + x[1] / 16), EncChar((x[1] % 16) * 4), PAD]
    else [EncChar(x[0] / 4), EncChar((x[0] % 4) * 16), PAD, PAD]
  }

  /** Every encoded character is in the alphabet or padding, so never a line break. */
  lemma {:induction false} EncodeAlphabet(x: seq<byte>)
    ensures forall i :: 0 <= i < |Encode(x)| ==> InAlphabet(Encode(x)[i])
    ensures NL !in Encode(x) && CR !in Encode(x)
    decreases |x|
  {
    if |x| >= 3 {
      EncodeAlphabet(x[3..]);
      var q := Quantum(x[0], x[1], x[2]);
      SextetOfEncChar(x[0] / 4);
      SextetOfEncChar((x[0] % 4) * 16 + x[1] / 16);
      SextetOfEncChar((x[1] % 16) * 4 + x[2] / 64);
      SextetOfEncChar(x[2] % 64);
      assert forall i :: 0 <= i < 4 ==> InAlphabet(q[i]);
      assert forall i :: 4 <= i < |Encode(x)| ==> Encode(x)[i] == Encode(x[3..])[i - 4];
    } else if |x| == 2 {
      SextetOfEncChar(x[0] / 4);
      SextetOfEncChar((x[0] % 4) * 16 + x[1] / 16);
      SextetOfEncChar((x[1] % 16) * 4);
    } else if |x| == 1 {
      SextetOfEncChar(x[0] / 4);
      SextetOfEncChar((x[0] % 4) * 16);
    }
  }

  // ------------------------------------------------------------------ decode

  /** The input with every '\r' and '\n' removed. */
  function StripNewlines(s: seq<byte>): (t: seq<byte>)
    ensures NL !in t && CR !in t && |t| <= |s|
    decreases |s|
  {
    if |s| == 0 then []
    else if s[0] == NL || s[0] == CR then StripNewlines(s[1..])
    else [s[0]] + StripNewlines(s[1..])
  }

  lemma {:induction false} StripNewlinesAppend(a: seq<byte>, b: seq<byte>)
    ensures StripNewlines(a + b) == StripNewlines(a) + StripNewlines(b)
    decreases |a|
  {
    if |a| == 0 {
      assert a + b == b;
    } else {
      assert (a + b)[0] == a[0] && (a + b)[1..] == a[1..] + b;
      StripNewlinesAppend(a[1..], b);
      if a[0] != NL && a[0] != CR {
        assert [a[0]] + (StripNewlines(a[1..]) + StripNewlines(b)) == ([a[0]] + StripNewlines(a[1..])) + StripNewlines(b);
      }
    }
  }

  lemma {:induction false} StripNewlinesNone(s: seq<byte>)
    requires NL !in s && CR !in s
    ensures StripNewlines(s) == s
    decreases |s|
  {
    if |s| > 0 {
      assert NL !in s[1..] && CR !in s[1..] by {
        assert forall i :: 0 <= i < |s[1..]| ==> s[1..][i] == s[i + 1];
      }
      StripNewlinesNone(s[1..]);
    }
  }

  /** The bytes of the quanta of `t`, a string without line breaks. */
  function DecodeQuanta(t: seq<byte>): (r: Option<seq<byte>>)
    ensures r.Some? ==> |t| % 4 == 0 && 3 * (|t| / 4) - 2 <= |r.value| <= 3 * (|t| / 4)
    decreases |t|
  {
    if |t| == 0 then Some([])
    else if |t| < 4 then None
    else
      var s0, s1, s2, s3 := Sextet(t[0]), Sextet(t[1]), Sextet(t[2]), Sextet(t[3]);
      if s0.Some? && s1.Some? && s2.Some? && s3.Some? then
        match DecodeQuanta(t[4..])
        case None => None
        case Some(rest) =>
          Some([s0.value * 4 + s1.value / 16, (s1.value % 16) * 16 + s2.value / 4, (s2.value % 4) * 64 + s3.value] + rest)
      else if |t| == 4 && s0.Some? && s1.Some? && t[2] == PAD && t[3] == PAD then
        Some([s0.value * 4 + s1.value / 16])
      else if |t| == 4 && s0.Some? && s1.Some? && s2.Some? && t[3] == PAD then
        Some([s0.value * 4 + s1.value / 16, (s1.value % 16) * 16 + s2.value / 4])
      else None
  }

  /** `StdEncoding.Decode`: the decoded bytes, or absent on a corrupt input. */
  function Decode(s: seq<byte>): (r: Option<seq<byte>>)
    ensures r.Some? ==> |StripNewlines(s)| % 4 == 0 && |r.value| <= |s| / 4 * 3
  {
    DecodeQuanta(StripNewlines(s))
  }

  // -------------------------------------------------------------- properties

  /** Line breaks anywhere in the input are skipped. */
  lemma DecodeSkipsLineBreak(a: seq<byte>, c: byte, b: seq<byte>)
    requires c == NL || c == CR
    ensures Decode(a + [c] + b) == Decode(a + b)
  {
    StripNewlinesAppend(a + [c], b);
    StripNewlinesAppend(a, [c]);
    StripNewlinesAppend(a, b);
    assert [c][1..] == [];
    assert StripNewlines([c]) == [];
    assert StripNewlines(a + [c]) == StripNewlines(a);
  }

  lemma QuantumRoundTrip(a: byte, b: byte, c: byte)
    ensures var q := Quantum(a, b, c);
            Sextet(q[0]).Some? && Sextet(q[1]).Some? && Sextet(q[2]).Some? && Sextet(q[3]).Some?
            && Sextet(q[0]).value * 4 + Sextet(q[1]).value / 16 == a
            && (Sextet(q[1]).value % 16) * 16 + Sextet(q[2]).value / 4 == b
            && (Sextet(q[2]).value % 4) * 64 + Sextet(q[3]).value == c
  {
    SextetOfEncChar(a / 4);
    SextetOfEncChar((a % 4) * 16 + b / 16);
    SextetOfEncChar((b % 16) * 4 + c / 64);
    SextetOfEncChar(c % 64);
  }

  lemma {:induction false} DecodeQuantaOfEncode(x: seq<byte>)
    ensures DecodeQuanta(Encode(x)) == Some(x)
    decreases |x|
  {
    if |x| >= 3 {
      var q := Quantum(x[0], x[1], x[2]);
      QuantumRoundTrip(x[0], x[1], x[2]);
      DecodeQuantaOfEncode(x[3..]);
      assert (q + Encode(x[3..]))[4..] == Encode(x[3..]);
      assert x == [x[0], x[1], x[2]] + x[3..];
    } else if |x| == 2 {
      DecodeTwo(x[0], x[1]);
      assert [x[0], x[1]] == x;
    } else if |x| == 1 {
      DecodeOne(x[0]);
      assert [x[0]] == x;
    }
  }

  lemma DecodeTwo(a: byte, b: byte)
    ensures DecodeQuanta(Encode([a, b])) == Some([a, b])
  {
    SextetOfEncChar(a / 4);
    SextetOfEncChar((a % 4) * 16 + b / 16);
    SextetOfEncChar((b % 16) * 4);
    assert ((a % 4) * 16 + b / 16) / 16 == a % 4 && ((a % 4) * 16 + b / 16) % 16 == b / 16;
    assert ((b % 16) * 4) / 4 == b % 16;
  }

  lemma DecodeOne(a: byte)
    ensures DecodeQuanta(Encode([a])) == Some([a])
  {
    SextetOfEncChar(a / 4);
    SextetOfEncChar((a % 4) * 16);
  }

  /** Decoding undoes encoding. */
  lemma DecodeEncode(x: seq<byte>)
    ensures Decode(Encode(x)) == Some(x)
  {
    EncodeAlphabet(x);
    StripNewlinesNone(Encode(x));
    DecodeQuantaOfEncode(x);
  }
}

=== FILE: batch.dfy ===
/**
 * A batch is a rolling column writer: rows go to the column files of the
 * numbered sub-directory `dir/<number>` until the estimated size would pass
 * the budget, then the writer is closed and the next number is opened.
 */
module Batches {
  import opened Wrappers
  import opened Bytes
  import opened Strconv
  import opened Errors
  import opened FileSystem
  import ColumnWriters
  import LineWriters

  type Row = ColumnWriters.Row
  type ColumnWriter = ColumnWriters.ColumnWriter

  /** `number` is the current batch, `count` the running size estimate, `writer` absent until opened. */
  datatype Batch = Batch(dir: Path, number: int, size: int, count: int, cols: seq<string>, writer: Option<ColumnWriter>)

  /** `batchPath`: the batch directory, named by the unpadded decimal number. */
  function BatchPath(b: Batch): (p: Path)
    ensures |p| == |b.dir| + 1 && p[..|b.dir|] == b.dir && p[|b.dir|] == FormatInt(b.number)
  {
    b.dir + [FormatInt(b.number)]
  }

  /** Distinct batch numbers live in distinct directories. */
  lemma BatchPathInjective(a: Batch, b: Batch)
    requires a.dir == b.dir && BatchPath(a) == BatchPath(b)
    ensures a.number == b.number
  {
    FormatIntInjective(a.number, b.number);
  }

  // --------------------------------------------------------------- row size

  /** The size of a row: the length of its longest value, 0 for an empty row. */
  ghost function RowSize(row: Row): (n: nat)
    ensures forall k :: k in row ==> |row[k]| <= n
    ensures row == map[] ==> n == 0
    ensures row != map[] ==> exists k :: k in row && |row[k]| == n
    decreases |row.Keys|
  {
    if row == map[] then 0
    else
      var k :| k in row;
      var rest := RowSize(row - {k});
      assert forall k' :: k' in row && k' != k ==> k' in row - {k};
      if |row[k]| > rest then |row[k]| else rest
  }

  /** The loop of `WriteRow` that sizes a row, visiting the keys in `order`. */
  function SizeFold(row: Row, order: seq<string>, acc: nat): (n: nat)
    requires forall i :: 0 <= i < |order| ==> order[i] in row
    ensures acc <= n
  {
    if |order| == 0 then acc
    else SizeFold(row, order[1..], if |row[order[0]]| > acc then |row[order[0]]| else acc)
  }

  /** The fold never goes below its start nor above the longest value it visits. */
  lemma {:induction false} SizeFoldBounds(row: Row, order: seq<string>, acc: nat)
    requires forall i :: 0 <= i < |order| ==> order[i] in row
    ensures forall i :: 0 <= i < |order| ==> |row[order[i]]| <= SizeFold(row, order, acc)
    ensures SizeFold(row, order, acc) == acc || exists i :: 0 <= i < |order| && SizeFold(row, order, acc) == |row[order[i]]|
  {
    if |order| > 0 {
      var acc' := if |row[order[0]]| > acc then |row[order[0]]| else acc;
      SizeFoldBounds(row, order[1..], acc');
      assert forall i :: 1 <= i < |order| ==> order[i] == order[1..][i - 1];
    }
  }

  /**
   * Whatever order Go's map iteration picks, the loop finds the maximum
   * value length: the size does not depend on the order.
   */
  lemma SizeFoldIsRowSize(row: Row, order: seq<string>)
    requires forall i :: 0 <= i < |order| ==> order[i] in row
    requires forall k :: k in row ==> k in order
    ensures SizeFold(row, order, 0) == RowSize(row)
  {
    SizeFoldBounds(row, order, 0);
    var n := SizeFold(row, order, 0);
    if row != map[] {
      var k :| k in row && |row[k]| == RowSize(row);
      var i :| 0 <= i < |order| && order[i] == k;
    }
  }

  // ------------------------------------------------------------- max batch

  /** The loop of `maxbatch`: numerically named entries raise the running maximum, others are skipped. */
  function MaxBatchOf(names: seq<string>, acc: int): (n: int)
    ensures n >= acc
    ensures forall i :: 0 <= i < |names| && Atoi(names[i]).Some? ==> Atoi(names[i]).value <= n
    ensures n == acc || exists i :: 0 <= i < |names| && Atoi(names[i]) == Some(n)
  {
    if |names| == 0 then acc
    else
      var acc' := match Atoi(names[0]) case Some(v) => if v > acc then v else acc case None => acc;
      var n := MaxBatchOf(names[1..], acc');
      assert forall i :: 1 <= i < |names| ==> names[i] == names[1..][i - 1];
      n
  }

  /**
   * `maxbatch`: the greatest entry name of `dir` that `Atoi` accepts, at
   * least 1; an unreadable directory is an error.
   */
  function MaxBatch(fs: Fs, dir: Path, env: Env): (r: Result<int, Error>)
    ensures r.Ok? <==> dir in fs.dirs && (ReadDir, dir) !in env.faults
    ensures r.Err? ==> r.error == IoError(ReadDir, dir)
  {
    var names :- ListDir(fs, dir, env);
    Ok(MaxBatchOf(names, 1))
  }

  /** A directory without numeric names starts at batch 1. */
  lemma MaxBatchNoNumbers(fs: Fs, dir: Path, env: Env)
    requires dir in fs.dirs && (ReadDir, dir) !in env.faults
    requires forall i :: 0 <= i < |fs.dirs[dir]| ==> Atoi(fs.dirs[dir][i]).None?
    ensures MaxBatch(fs, dir, env) == Ok(1)
  {
  }

  // ------------------------------------------------------------ batch size

  /** `os.Stat` of column `c`'s file in `dir` succeeds. */
  predicate StatOk(fs: Fs, dir: Path, c: string, env: Env)
  {
    StatFile(fs, ColumnWriters.ColumnPath(dir, c), env).Ok?
  }

  function ColumnSize(fs: Fs, dir: Path, c: string, env: Env): nat
    requires StatOk(fs, dir, c, env)
  {
    StatFile(fs, ColumnWriters.ColumnPath(dir, c), env).value
  }

  /** Some column before `i` has a file with data in it. */
  ghost predicate SeenData(fs: Fs, dir: Path, cols: seq<string>, i: nat, env: Env)
    requires i <= |cols|
  {
    exists j :: 0 <= j < i && StatOk(fs, dir, cols[j], env) && ColumnSize(fs, dir, cols[j], env) > 0
  }

  /**
   * The loop of `batchsize` from running maximum `acc`: a failed stat is an
   * error once a positive size has been seen, and skipped before that.
   */
  function SizeFrom(fs: Fs, dir: Path, cols: seq<string>, acc: nat, env: Env): (r: Result<nat, Error>)
    ensures r.Ok? ==> r.value >= acc
  {
    if |cols| == 0 then Ok(acc)
    else
      var p := ColumnWriters.ColumnPath(dir, cols[0]);
      match StatFile(fs, p, env)
      case Err(e) => if acc > 0 then Err(e) else SizeFrom(fs, dir, cols[1..], acc, env)
      case Ok(s) => SizeFrom(fs, dir, cols[1..], if s > acc then s else acc, env)
  }

  /** `batchsize`: three times the largest compressed column file, the assumed compression factor. */
  function BatchSize(fs: Fs, dir: Path, cols: seq<string>, env: Env): (r: Result<nat, Error>)
    ensures r.Ok? ==> r.value % 3 == 0
  {
    var s :- SizeFrom(fs, dir, cols, 0, env);
    Ok(3 * s)
  }

  /** The estimate is three times the largest size among the files that could be stat'ed, 0 if none. */
  lemma {:induction false} SizeFromIsMax(fs: Fs, dir: Path, cols: seq<string>, acc: nat, env: Env)
    requires SizeFrom(fs, dir, cols, acc, env).Ok?
    ensures var n := SizeFrom(fs, dir, cols, acc, env).value;
            (forall i :: 0 <= i < |cols| && StatOk(fs, dir, cols[i], env) ==> ColumnSize(fs, dir, cols[i], env) <= n)
            && (n == acc || exists i :: 0 <= i < |cols| && StatOk(fs, dir, cols[i], env) && ColumnSize(fs, dir, cols[i], env) == n)
  {
    if |cols| > 0 {
      assert forall i :: 1 <= i < |cols| ==> cols[i] == cols[1..][i - 1];
      var p := ColumnWriters.ColumnPath(dir, cols[0]);
      match StatFile(fs, p, env)
      case Err(e) =>
        SizeFromIsMax(fs, dir, cols[1..], acc, env);
      case Ok(s) =>
        SizeFromIsMax(fs, dir, cols[1..], if s > acc then s else acc, env);
    }
  }

  /**
   * `batchsize` fails exactly when some column's stat fails after a column
   * with a positive size has been seen (or with a positive running size).
   */
  lemma {:induction false} SizeFromFails(fs: Fs, dir: Path, cols: seq<string>, acc: nat, env: Env)
    ensures SizeFrom(fs, dir, cols, acc, env).Err? <==>
              exists i :: 0 <= i < |cols| && !StatOk(fs, dir, cols[i], env) && (acc > 0 || SeenData(fs, dir, cols, i, env))
  {
    if |cols| > 0 {
      var p := ColumnWriters.ColumnPath(dir, cols[0]);
      var rest := cols[1..];
      assert forall i :: 1 <= i < |cols| ==> cols[i] == rest[i - 1];
      match StatFile(fs, p, env)
      case Err(e) =>
        SizeFromFails(fs, dir, rest, acc, env);
        if acc == 0 {
          SeenDataShift(fs, dir, cols, env);
        }
      case Ok(s) =>
        var acc' := if s > acc then s else acc;
        SizeFromFails(fs, dir, rest, acc', env);
        SeenDataShift(fs, dir, cols, env);
        if SizeFrom(fs, dir, cols, acc, env).Err? {
          var i :| 0 <= i < |rest| && !StatOk(fs, dir, rest[i], env) && (acc' > 0 || SeenData(fs, dir, rest, i, env));
          assert !StatOk(fs, dir, cols[i + 1], env);
          if acc == 0 && s > 0 {
            assert SeenData(fs, dir, cols, i + 1, env);
          }
        }
    }
  }

  /** Data seen before position `i + 1` is the first column's or data seen in the rest before `i`. */
  lemma SeenDataShift(fs: Fs, dir: Path, cols: seq<string>, env: Env)
    requires |cols| > 0
    ensures forall i :: 0 <= i < |cols| - 1 ==>
              (SeenData(fs, dir, cols, i + 1, env) <==>
                 (StatOk(fs, dir, cols[0], env) && ColumnSize(fs, dir, cols[0], env) > 0) || SeenData(fs, dir, cols[1..], i, env))
  {
    assert forall j :: 1 <= j < |cols| ==> cols[j] == cols[1..][j - 1];
    forall i | 0 <= i < |cols| - 1
      ensures SeenData(fs, dir, cols, i + 1, env) <==>
                (StatOk(fs, dir, cols[0], env) && ColumnSize(fs, dir, cols[0], env) > 0) || SeenData(fs, dir, cols[1..], i, env)
    {
      if SeenData(fs, dir, cols, i + 1, env) {
        var j :| 0 <= j < i + 1 && StatOk(fs, dir, cols[j], env) && ColumnSize(fs, dir, cols[j], env) > 0;
        if j > 0 {
          assert StatOk(fs, dir, cols[1..][j - 1], env);
        }
      }
      if SeenData(fs, dir, cols[1..], i, env) {
        var j :| 0 <= j < i && StatOk(fs, dir, cols[1..][j], env) && ColumnSize(fs, dir, cols[1..][j], env) > 0;
        assert StatOk(fs, dir, cols[j + 1], env);
      }
    }
  }

  /** A directory with no column files yet is estimated at 0. */
  lemma BatchSizeEmpty(fs: Fs, dir: Path, cols: seq<string>, env: Env)
    requires forall i :: 0 <= i < |cols| ==> ColumnWriters.ColumnPath(dir, cols[i]) !in fs.files
    ensures BatchSize(fs, dir, cols, env) == Ok(0)
  {
    SizeFromFails(fs, dir, cols, 0, env);
    SizeFromIsMax(fs, dir, cols, 0, env);
  }

  // ------------------------------------------------------------------- open

  /** The estimate `openBatch` takes of directory `bdir` once it has made it. */
  function SizeOnOpen(fs: Fs, bdir: Path, cols: seq<string>, env: Env): Result<nat, Error>
  {
    var fs1 :- MkdirAll(fs, bdir, env);
    BatchSize(fs1, bdir, cols, env)
  }

  /**
   * `openBatch`: makes the batch directory, estimates its size into `count`
   * and opens a column writer on it; a failure leaves the writer absent.
   */
  function OpenBatch(fs: Fs, b: Batch, env: Env): (out: (Fs, Batch, Option<Error>))
    ensures out.1.dir == b.dir && out.1.number == b.number && out.1.size == b.size && out.1.cols == b.cols
    ensures out.2.None? <==> out.1.writer.Some?
    ensures out.1.writer.Some? ==> out.1.writer.value.cols == b.cols && ColumnWriters.Opened(out.1.writer.value, BatchPath(b))
    ensures out.1.writer.Some? ==> forall i :: 0 <= i < |b.cols| ==> out.1.writer.value.writers[i].pending == []
    ensures SizeOnOpen(fs, BatchPath(b), b.cols, env).Ok? ==> out.1.count == SizeOnOpen(fs, BatchPath(b), b.cols, env).value
    ensures SizeOnOpen(fs, BatchPath(b), b.cols, env).Err? ==>
              out.1 == b.(writer := None) && out.2 == Some(SizeOnOpen(fs, BatchPath(b), b.cols, env).error)
    ensures out.2.None? ==> SizeOnOpen(fs, BatchPath(b), b.cols, env) == Ok(out.1.count)
  {
    var bdir := BatchPath(b);
    match MkdirAll(fs, bdir, env)
    case Err(e) => (fs, b.(writer := None), Some(e))
    case Ok(fs1) =>
      match BatchSize(fs1, bdir, b.cols, env)
      case Err(e) => (fs1, b.(writer := None), Some(e))
      case Ok(count) =>
        var (fs2, r) := ColumnWriters.NewColumnWriter(fs1, bdir, b.cols, env);
        if r.Ok? then (fs2, b.(count := count, writer := Some(r.value)), None)
        else (fs2, b.(count := count, writer := None), Some(r.error))
  }

  /**
   * `NewBatch`: resumes at the highest numbered batch of `dir` and opens it.
   * An unreadable directory yields no batch; a failed open yields the batch
   * without a writer together with the error.
   */
  function NewBatch(fs: Fs, dir: Path, size: int, cols: seq<string>, env: Env): (out: (Fs, Option<Batch>, Option<Error>))
    ensures out.1.None? <==> MaxBatch(fs, dir, env).Err?
    ensures out.1.None? ==> out.0 == fs && out.2 == Some(IoError(ReadDir, dir))
    ensures out.1.Some? ==> var b := out.1.value;
              b.dir == dir && b.size == size && b.cols == cols && b.number == MaxBatch(fs, dir, env).value
              && (out.2.None? <==> b.writer.Some?)
  {
    match MaxBatch(fs, dir, env)
    case Err(e) => (fs, None, Some(e))
    case Ok(n) =>
      var (fs1, b, e) := OpenBatch(fs, Batch(dir, n, size, 0, cols, None), env);
      (fs1, Some(b), e)
  }

  // ------------------------------------------------------------------ write

  /** What `WriteRow` keeps true of a batch: a non-negative count and a writer on the current batch's files. */
  predicate Valid(b: Batch)
  {
    && b.count >= 0
    && (b.writer.Some? ==> b.writer.value.cols == b.cols && ColumnWriters.Opened(b.writer.value, BatchPath(b)))
  }

  /**
   * Rotation: the writer is closed exactly as `Close` closes it (its error
   * ignored), the count reset, the number advanced by one.
   */
  function Rotate(fs: Fs, b: Batch, env: Env): (out: (Fs, Batch))
    ensures out.1 == b.(count := 0, number := b.number + 1, writer := None)
    ensures out.0 == Close(fs, b, env).0
    ensures b.writer.Some? ==> out.0.handles == fs.handles - ColumnWriters.Paths(b.writer.value.writers)
    ensures b.writer.None? ==> out.0 == fs
  {
    var fs1 := if b.writer.Some? then ColumnWriters.Close(fs, b.writer.value, env).0 else fs;
    (fs1, b.(count := 0, number := b.number + 1, writer := None))
  }

  /**
   * The first half of `WriteRow`: rotates if a row of `rowsize` would push
   * the estimate past the budget, then opens the batch if it has no writer.
   */
  function Prepare(fs: Fs, b: Batch, rowsize: nat, env: Env): (out: (Fs, Batch, Option<Error>))
    requires Valid(b)
    ensures Valid(out.1)
    ensures out.1.dir == b.dir && out.1.size == b.size && out.1.cols == b.cols
    ensures out.1.number == b.number + (if rowsize + b.count > b.size then 1 else 0)
    ensures out.2.None? <==> out.1.writer.Some?
    ensures rowsize + b.count <= b.size && b.writer.Some? ==> out == (fs, b, None)
    ensures rowsize + b.count > b.size && out.2.None? ==>
              var rotated := Rotate(fs, b, env);
              SizeOnOpen(rotated.0, BatchPath(rotated.1), b.cols, env) == Ok(out.1.count)
    ensures (rowsize + b.count > b.size || b.writer.None?) && out.2.None? ==>
              forall i :: 0 <= i < |b.cols| ==> out.1.writer.value.writers[i].pending == []
  {
    var (fs1, b1) := if rowsize + b.count > b.size then Rotate(fs, b, env) else (fs, b);
    if b1.writer.None? then OpenBatch(fs1, b1, env) else (fs1, b1, None)
  }

  /**
   * `WriteRow`: rotates if the row would push the estimate past the budget,
   * opens the batch if it has no writer, writes the row and adds its size
   * to the count. Errors are returned without further change.
   */
  ghost function WriteRow(fs: Fs, b: Batch, row: Row, env: Env): (out: (Fs, Batch, Option<Error>))
    requires Valid(b)
    ensures Valid(out.1)
    ensures out.1.dir == b.dir && out.1.size == b.size && out.1.cols == b.cols
    ensures out.1.number == b.number + (if RowSize(row) + b.count > b.size then 1 else 0)
    ensures out.2.None? ==> out.1.writer.Some?
  {
    var rowsize := RowSize(row);
    var (fs2, b2, e) := Prepare(fs, b, rowsize, env);
    if e.Some? then (fs2, b2, e)
    else
      var (w, e') := ColumnWriters.WriteRow(b2.writer.value, row, env);
      if e'.Some? then (fs2, b2.(writer := Some(w)), e')
      else (fs2, b2.(writer := Some(w), count := b2.count + rowsize), None)
  }

  /**
   * After the preparation the row goes through the column writer the batch
   * then holds: its writers and its error become the batch's. A failed
   * preparation is returned as it is, and a successful write adds the row's
   * size to the count the batch had once ready: after a rotation, the new
   * batch's size estimate plus the row's size.
   */
  lemma WriteRowAfterPrepare(fs: Fs, b: Batch, row: Row, env: Env)
    requires Valid(b)
    ensures var p := Prepare(fs, b, RowSize(row), env);
            var out := WriteRow(fs, b, row, env);
            && (p.2.Some? ==> out == p)
            && (p.2.None? ==>
                  var w := ColumnWriters.WriteRow(p.1.writer.value, row, env);
                  out.0 == p.0 && out.1.writer == Some(w.0) && out.2 == w.1)
            && (out.2.None? ==> p.2.None? && out.1.count == p.1.count + RowSize(row))
  {
    var p := Prepare(fs, b, RowSize(row), env);
    if p.2.None? {
      var w := ColumnWriters.WriteRow(p.1.writer.value, row, env);
      assert WriteRow(fs, b, row, env).2 == w.1;
    }
  }

  /** Without rotation, a write through an open writer adds exactly the row's size to the count. */
  lemma WriteRowCount(fs: Fs, b: Batch, row: Row, env: Env)
    requires Valid(b) && b.writer.Some? && RowSize(row) + b.count <= b.size
    ensures var (fs', b', e) := WriteRow(fs, b, row, env);
            e.None? ==> b'.count == b.count + RowSize(row) && b'.number == b.number
  {
  }

  /** A failed column write returns its error and leaves the count alone. */
  lemma WriteRowFailedWriteKeepsCount(fs: Fs, b: Batch, row: Row, env: Env)
    requires Valid(b) && b.writer.Some? && RowSize(row) + b.count <= b.size
    requires exists i :: 0 <= i < |b.writer.value.writers| && LineWriters.Fails(b.writer.value.writers[i], env)
    ensures var (fs', b', e) := WriteRow(fs, b, row, env);
            e.Some? && e.value.IoError? && e.value.op == Write && b'.count == b.count
  {
  }

  /**
   * A row larger than the budget is never refused: it rotates even an empty
   * batch and, when opening and writing succeed, lands in the next batch.
   */
  lemma OversizedRowRotates(fs: Fs, b: Batch, row: Row, env: Env)
    requires Valid(b) && RowSize(row) > b.size
    ensures var (fs', b', e) := WriteRow(fs, b, row, env);
            b'.number == b.number + 1 && (e.None? ==> b'.writer.Some? && b'.count >= RowSize(row))
    ensures var (fs', b', e) := WriteRow(fs, b, row, env);
            e.None? ==> forall i :: 0 <= i < |b.cols| ==>
              && b'.writer.value.writers[i].path == ColumnWriters.ColumnPath(BatchPath(b'), b.cols[i])
              && b'.writer.value.writers[i].pending == ColumnWriters.Value(row, b.cols[i]) + [NL]
  {
    WriteRowAfterPrepare(fs, b, row, env);
    var p := Prepare(fs, b, RowSize(row), env);
    var out := WriteRow(fs, b, row, env);
    if out.2.None? {
      var w := ColumnWriters.WriteRow(p.1.writer.value, row, env);
      assert out.1.writer == Some(w.0) && w.1.None?;
      assert BatchPath(out.1) == BatchPath(p.1);
      FreshWriterTakesRow(p.1.writer.value, row, env);
    }
  }

  /** A writer opened on fresh files holds, after a successful write, exactly the row's line in every column. */
  lemma FreshWriterTakesRow(w: ColumnWriters.ColumnWriter, row: Row, env: Env)
    requires |w.writers| == |w.cols| && forall i :: 0 <= i < |w.cols| ==> w.writers[i].pending == []
    ensures var (w', e) := ColumnWriters.WriteRow(w, row, env);
            e.None? ==> forall i :: 0 <= i < |w.cols| ==> w'.writers[i].pending == ColumnWriters.Value(row, w.cols[i]) + [NL]
  {
    var (w', e) := ColumnWriters.WriteRow(w, row, env);
    if e.None? {
      forall i | 0 <= i < |w.cols|
        ensures w'.writers[i].pending == ColumnWriters.Value(row, w.cols[i]) + [NL]
      {
        assert w'.writers[i].pending == w.writers[i].pending + ColumnWriters.Value(row, w.cols[i]) + [NL];
        assert w.writers[i].pending == [];
      }
    }
  }

  /**
   * What closing a batch reports: nothing without a writer, otherwise the
   * last error of its line writers' closes.
   */
  function CloseError(b: Batch, env: Env): (err: Option<Error>)
    ensures b.writer.None? ==> err.None?
    ensures b.writer.Some? ==>
              (err.None? <==> forall i :: 0 <= i < |b.writer.value.writers| ==> LineWriters.CloseError(b.writer.value.writers[i], env).None?)
    ensures b.writer.Some? && err.Some? ==>
              exists i :: 0 <= i < |b.writer.value.writers| && err == LineWriters.CloseError(b.writer.value.writers[i], env)
                          && forall j :: i < j < |b.writer.value.writers| ==> LineWriters.CloseError(b.writer.value.writers[j], env).None?
  {
    if b.writer.None? then None else LastError(ColumnWriters.CloseErrors(b.writer.value.writers, env))
  }

  /** `Close`: closes the writer, if there is one, releasing one descriptor per column. */
  function Close(fs: Fs, b: Batch, env: Env): (out: (Fs, Option<Error>))
    ensures b.writer.None? ==> out == (fs, None)
    ensures b.writer.Some? ==>
              (out.1.None? <==> forall i :: 0 <= i < |b.writer.value.writers| ==> LineWriters.CloseError(b.writer.value.writers[i], env).None?)
    ensures out.1 == CloseError(b, env)
    ensures out.0.dirs == fs.dirs
    ensures b.writer.Some? ==> out.0.handles == fs.handles - ColumnWriters.Paths(b.writer.value.writers)
  {
    if b.writer.None? then (fs, None) else ColumnWriters.Close(fs, b.writer.value, env)
  }

  /**
   * Closing a batch whose columns are distinct leaves each column file as
   * closing its line writer alone leaves it, and every other file as it was.
   */
  lemma CloseFlushes(fs: Fs, b: Batch, env: Env)
    requires Valid(b) && b.writer.Some?
    requires forall i, j :: 0 <= i < j < |b.cols| ==> b.cols[i] != b.cols[j]
    ensures forall i :: 0 <= i < |b.cols| ==> ColumnWriters.ClosedInto(fs.files, Close(fs, b, env).0.files, b.writer.value.writers[i], env)
    ensures forall q :: q in fs.files && (forall i :: 0 <= i < |b.cols| ==> q != ColumnWriters.ColumnPath(BatchPath(b), b.cols[i])) ==>
              q in Close(fs, b, env).0.files && Close(fs, b, env).0.files[q] == fs.files[q]
  {
    var ws := b.writer.value.writers;
    ColumnWriters.DistinctPaths(BatchPath(b), b.cols, ws);
    ColumnWriters.CloseFilesPersists(fs, ws, env);
    ColumnWriters.CloseFilesFrame(fs, ws, env);
  }
}

=== FILE: bytes.dfy ===
/** Byte strings as Go's `[]byte`, with the few `bytes` package operations the core uses. */
module Bytes {

  type byte = x: int | 0 <= x < 256

  const NL: byte := 10
  const CR: byte := 13
  const SPACE: byte := 32
  const DOT: byte := 46

  /** Position of the first `b` in `s`, or `|s|` when there is none. */
  function IndexOf(s: seq<byte>, b: byte): (k: nat)
    ensures k <= |s|
    ensures k < |s| ==> s[k] == b
    ensures forall i :: 0 <= i < k ==> s[i] != b
  {
    if |s| == 0 then 0
    else if s[0] == b then 0
    else 1 + IndexOf(s[1..], b)
  }

  /** Number of occurrences of `b` in `s` (Go's `bytes.Count` for a one-byte separator). */
  function Count(s: seq<byte>, b: byte): nat
  {
    if |s| == 0 then 0
    else (if s[0] == b then 1 else 0) + Count(s[1..], b)
  }

  lemma {:induction false} CountAppend(s: seq<byte>, t: seq<byte>, b: byte)
    ensures Count(s + t, b) == Count(s, b) + Count(t, b)
  {
    if |s| == 0 {
      assert s + t == t;
    } else {
      assert (s + t)[1..] == s[1..] + t;
      CountAppend(s[1..], t, b);
    }
  }

  lemma {:induction false} CountAbsent(s: seq<byte>, b: byte)
    requires forall i :: 0 <= i < |s| ==> s[i] != b
    ensures Count(s, b) == 0
  {
    if |s| > 0 {
      CountAbsent(s[1..], b);
    }
  }

  /** Go's `bytes.Join(parts, []byte{sep})`. */
  function Join(parts: seq<seq<byte>>, sep: byte): seq<byte>
  {
    if |parts| == 0 then []
    else if |parts| == 1 then parts[0]
    else parts[0] + [sep] + Join(parts[1..], sep)
  }

  /**
   * Go's `bytes.Split(s, []byte{sep})`: the pieces between separators,
   * always at least one (the empty input gives one empty piece).
   */
  function Split(s: seq<byte>, sep: byte): (parts: seq<seq<byte>>)
    decreases |s|
    ensures |parts| == Count(s, sep) + 1
    ensures forall i :: 0 <= i < |parts| ==> sep !in parts[i]
    ensures Join(parts, sep) == s
  {
    var k := IndexOf(s, sep);
    if k == |s| then
      CountAbsent(s, sep);
      [s]
    else
      var rest := Split(s[k + 1..], sep);
      SplitAt(s, sep, k);
      JoinCons(s[..k], rest, sep);
      [s[..k]] + rest
  }

  /** The facts one step of `Split` needs about its first separator. */
  lemma SplitAt(s: seq<byte>, sep: byte, k: nat)
    requires k < |s| && s[k] == sep && forall i :: 0 <= i < k ==> s[i] != sep
    ensures s == s[..k] + [sep] + s[k + 1..]
    ensures Count(s, sep) == Count(s[k + 1..], sep) + 1
    ensures sep !in s[..k]
  {
    assert s == s[..k] + ([sep] + s[k + 1..]);
    CountAppend(s[..k], [sep] + s[k + 1..], sep);
    CountAbsent(s[..k], sep);
    assert ([sep] + s[k + 1..])[1..] == s[k + 1..];
  }

  lemma JoinCons(p: seq<byte>, rest: seq<seq<byte>>, sep: byte)
    requires |rest| > 0
    ensures Join([p] + rest, sep) == p + [sep] + Join(rest, sep)
  {
    assert ([p] + rest)[1..] == rest;
  }

  /** Splitting undoes joining when no part holds the separator. */
  lemma {:induction false} SplitJoin(parts: seq<seq<byte>>, sep: byte)
    requires |parts| > 0 && forall i :: 0 <= i < |parts| ==> sep !in parts[i]
    ensures Split(Join(parts, sep), sep) == parts
    decreases |parts|
  {
    if |parts| == 1 {
      assert IndexOf(parts[0], sep) == |parts[0]|;
    } else {
      JoinFirst(parts, sep);
      SplitStep(Join(parts, sep), sep);
      assert forall i :: 0 <= i < |parts| - 1 ==> parts[1..][i] == parts[i + 1];
      SplitJoin(parts[1..], sep);
      assert [parts[0]] + parts[1..] == parts;
    }
  }

  /** The first separator of a join is the one after the first part. */
  lemma JoinFirst(parts: seq<seq<byte>>, sep: byte)
    requires |parts| > 1 && sep !in parts[0]
    ensures var j := Join(parts, sep);
            IndexOf(j, sep) == |parts[0]| < |j| && j[..|parts[0]|] == parts[0] && j[|parts[0]| + 1..] == Join(parts[1..], sep)
  {
    var j := Join(parts, sep);
    var rest := Join(parts[1..], sep);
    assert j == parts[0] + [sep] + rest;
    assert j[|parts[0]|] == sep;
    assert forall i :: 0 <= i < |parts[0]| ==> j[i] == parts[0][i];
    IndexOfFirst(j, sep, |parts[0]|);
    assert j[..|parts[0]|] == parts[0];
    assert j[|parts[0]| + 1..] == rest;
  }

  /** One step of `Split`: the part before the first separator, then the split of the rest. */
  lemma SplitStep(s: seq<byte>, sep: byte)
    requires IndexOf(s, sep) < |s|
    ensures var k := IndexOf(s, sep);
            Split(s, sep) == [s[..k]] + Split(s[k + 1..], sep)
  {
  }

  /** The first occurrence is found. */
  lemma {:induction false} IndexOfFirst(s: seq<byte>, b: byte, k: nat)
    requires k < |s| && s[k] == b && forall i :: 0 <= i < k ==> s[i] != b
    ensures IndexOf(s, b) == k
    decreases k
  {
    if k > 0 {
      IndexOfFirst(s[1..], b, k - 1);
    }
  }

  /** Concatenation of a sequence of byte strings. */
  function Flatten(ss: seq<seq<byte>>): seq<byte>
  {
    if |ss| == 0 then [] else ss[0] + Flatten(ss[1..])
  }

  lemma FlattenCons(a: seq<byte>, rest: seq<seq<byte>>)
    ensures Flatten([a] + rest) == a + Flatten(rest)
  {
    assert ([a] + rest)[1..] == rest;
  }

  lemma {:induction false} FlattenAppend(a: seq<seq<byte>>, b: seq<seq<byte>>)
    ensures Flatten(a + b) == Flatten(a) + Flatten(b)
  {
    if |a| == 0 {
      assert a + b == b;
    } else {
      assert (a + b)[1..] == a[1..] + b;
      FlattenAppend(a[1..], b);
    }
  }

  predicate IsAlnum(b: byte) {
    ('a' as int <= b <= 'z' as int) || ('A' as int <= b <= 'Z' as int) || ('0' as int <= b <= '9' as int)
  }

  /** Go's `strings.TrimRight(s, ".")`: drops every trailing dot. */
  function TrimRightDots(s: seq<byte>): (t: seq<byte>)
    ensures t <= s
    ensures |t| > 0 ==> t[|t| - 1] != DOT
    ensures forall i :: |t| <= i < |s| ==> s[i] == DOT
  {
    if |s| == 0 then s
    else if s[|s| - 1] == DOT then TrimRightDots(s[..|s| - 1])
    else s
  }

  /** A string as the bytes of its (ASCII) characters. */
  function Ascii(s: string): (r: seq<byte>)
    requires forall i :: 0 <= i < |s| ==> s[i] as int < 256
    ensures |r| == |s| && forall i :: 0 <= i < |s| ==> r[i] == s[i] as int
  {
    seq(|s|, i requires 0 <= i < |s| => s[i] as int as byte)
  }
}

=== FILE: colreader.dfy ===
/**
 * A column reader zips the line streams of a directory's column files back
 * into rows, stopping at the end of the shortest column.
 */
module ColumnReaders {
  import opened Wrappers
  import opened Bytes
  import opened Errors
  import opened FileSystem
  import LineReaders
  import LineWriters
  import ColumnWriters

  type LineReader = LineReaders.LineReader
  type Row = ColumnWriters.Row

  datatype ColumnReader = ColumnReader(cols: seq<string>, readers: seq<LineReader>)

  /** The paths of some readers, counted with multiplicity. */
  function ReaderPaths(rs: seq<LineReader>): (m: multiset<Path>)
    ensures |m| == |rs|
  {
    if |rs| == 0 then multiset{} else multiset{rs[0].path} + ReaderPaths(rs[1..])
  }

  // ------------------------------------------------------------------ close

  /** What closing each reader reports, in reader order. */
  function CloseErrors(rs: seq<LineReader>, env: Env): (errs: seq<Option<Error>>)
    ensures |errs| == |rs| && forall i :: 0 <= i < |rs| ==> errs[i] == CloseError(env, rs[i].path)
  {
    seq(|rs|, i requires 0 <= i < |rs| => CloseError(env, rs[i].path))
  }

  /** The effect of closing every reader in order. */
  function CloseFiles(fs: Fs, rs: seq<LineReader>, env: Env): (fs': Fs)
    decreases |rs|
    ensures fs'.dirs == fs.dirs && fs'.files == fs.files
  {
    if |rs| == 0 then fs else CloseFiles(LineReaders.Close(fs, rs[0], env).0, rs[1..], env)
  }

  lemma {:induction false} CloseFilesReleases(fs: Fs, rs: seq<LineReader>, env: Env)
    ensures CloseFiles(fs, rs, env).handles == fs.handles - ReaderPaths(rs)
    decreases |rs|
  {
    if |rs| > 0 {
      CloseFilesReleases(LineReaders.Close(fs, rs[0], env).0, rs[1..], env);
      assert fs.handles - ReaderPaths(rs) == (fs.handles - multiset{rs[0].path}) - ReaderPaths(rs[1..]);
    }
  }

  /** `Close`: closes every reader, whatever the earlier ones reported, and returns the last error. */
  function Close(fs: Fs, r: ColumnReader, env: Env): (out: (Fs, Option<Error>))
    ensures out.1.None? <==> forall i :: 0 <= i < |r.readers| ==> CloseError(env, r.readers[i].path).None?
    ensures out.1.Some? ==> exists i :: 0 <= i < |r.readers| && out.1 == CloseError(env, r.readers[i].path)
                                     && forall j :: i < j < |r.readers| ==> CloseError(env, r.readers[j].path).None?
    ensures out.0.handles == fs.handles - ReaderPaths(r.readers)
    ensures out.0.files == fs.files && out.0.dirs == fs.dirs
  {
    CloseFilesReleases(fs, r.readers, env);
    (CloseFiles(fs, r.readers, env), LastError(CloseErrors(r.readers, env)))
  }

  // ------------------------------------------------------------------- open

  /** Whether the line reader for column file `p` can be made. */
  predicate CanRead(files: map<Path, File>, p: Path, env: Env)
  {
    p in files && (OpenRead, p) !in env.faults && (NewDecompressor, p) !in env.faults && files[p].csize > 0
  }

  predicate CanReadAll(files: map<Path, File>, dir: Path, cols: seq<string>, env: Env)
  {
    forall i :: 0 <= i < |cols| ==> CanRead(files, ColumnWriters.ColumnPath(dir, cols[i]), env)
  }

  /** The column files of `cols`, counted with multiplicity. */
  function ColumnPaths(dir: Path, cols: seq<string>): (m: multiset<Path>)
    ensures |m| == |cols|
  {
    if |cols| == 0 then multiset{} else multiset{ColumnWriters.ColumnPath(dir, cols[0])} + ColumnPaths(dir, cols[1..])
  }

  /** The readers `NewColumnReader` makes, one per column in column order. */
  function FreshReaders(files: map<Path, File>, dir: Path, cols: seq<string>): (rs: seq<LineReader>)
    requires forall i :: 0 <= i < |cols| ==> ColumnWriters.ColumnPath(dir, cols[i]) in files
    ensures |rs| == |cols|
    ensures forall i :: 0 <= i < |cols| ==>
              var p := ColumnWriters.ColumnPath(dir, cols[i]);
              rs[i] == LineReaders.LineReader(p, files[p].payload, true)
  {
    if |cols| == 0 then []
    else
      assert forall i :: 1 <= i < |cols| ==> cols[i] == cols[1..][i - 1];
      var p := ColumnWriters.ColumnPath(dir, cols[0]);
      [LineReaders.LineReader(p, files[p].payload, true)] + FreshReaders(files, dir, cols[1..])
  }

  lemma {:induction false} FreshReaderPaths(files: map<Path, File>, dir: Path, cols: seq<string>)
    requires forall i :: 0 <= i < |cols| ==> ColumnWriters.ColumnPath(dir, cols[i]) in files
    ensures ReaderPaths(FreshReaders(files, dir, cols)) == ColumnPaths(dir, cols)
  {
    if |cols| > 0 {
      assert forall i :: 1 <= i < |cols| ==> cols[i] == cols[1..][i - 1];
      FreshReaderPaths(files, dir, cols[1..]);
      assert FreshReaders(files, dir, cols)[1..] == FreshReaders(files, dir, cols[1..]);
    }
  }

  /**
   * The loop of `NewColumnReader` from the point where `prior` are open; on
   * failure the readers made so far are closed (their errors only logged).
   */
  function OpenFrom(fs: Fs, dir: Path, cols: seq<string>, prior: seq<LineReader>, env: Env): (out: (Fs, Result<seq<LineReader>, Error>))
    decreases |cols|
    ensures out.0.files == fs.files && out.0.dirs == fs.dirs
  {
    if |cols| == 0 then (fs, Ok(prior))
    else
      var (fs1, r) := LineReaders.NewLineReader(fs, ColumnWriters.ColumnPath(dir, cols[0]), env);
      if r.Err? then (CloseFiles(fs1, prior, env), Err(r.error))
      else OpenFrom(fs1, dir, cols[1..], prior + [r.value], env)
  }

  /** Success exactly when every column file can be read. */
  lemma {:induction false} OpenFromSucceeds(fs: Fs, dir: Path, cols: seq<string>, prior: seq<LineReader>, env: Env)
    ensures OpenFrom(fs, dir, cols, prior, env).1.Ok? <==> CanReadAll(fs.files, dir, cols, env)
    decreases |cols|
  {
    if |cols| > 0 {
      var p := ColumnWriters.ColumnPath(dir, cols[0]);
      var (fs1, r) := LineReaders.NewLineReader(fs, p, env);
      assert forall i :: 1 <= i < |cols| ==> cols[i] == cols[1..][i - 1];
      if r.Ok? {
        OpenFromSucceeds(fs1, dir, cols[1..], prior + [r.value], env);
      }
    }
  }

  lemma CanReadAllCons(files: map<Path, File>, dir: Path, cols: seq<string>, env: Env)
    requires |cols| > 0
    ensures CanReadAll(files, dir, cols, env) <==>
              CanRead(files, ColumnWriters.ColumnPath(dir, cols[0]), env) && CanReadAll(files, dir, cols[1..], env)
  {
    assert forall i :: 1 <= i < |cols| ==> cols[i] == cols[1..][i - 1];
  }

  lemma FreshReadersCons(files: map<Path, File>, dir: Path, cols: seq<string>)
    requires |cols| > 0
    requires forall i :: 0 <= i < |cols| ==> ColumnWriters.ColumnPath(dir, cols[i]) in files
    ensures forall i :: 0 <= i < |cols| - 1 ==> ColumnWriters.ColumnPath(dir, cols[1..][i]) in files
    ensures var p := ColumnWriters.ColumnPath(dir, cols[0]);
            FreshReaders(files, dir, cols) == [LineReaders.LineReader(p, files[p].payload, true)] + FreshReaders(files, dir, cols[1..])
  {
    assert forall i :: 1 <= i < |cols| ==> cols[i] == cols[1..][i - 1];
  }

  /** One turn of the opening loop. */
  lemma OpenFromStep(fs: Fs, dir: Path, cols: seq<string>, prior: seq<LineReader>, env: Env)
    requires |cols| > 0
    ensures var p := ColumnWriters.ColumnPath(dir, cols[0]);
            var (fs1, r) := LineReaders.NewLineReader(fs, p, env);
            && fs1.files == fs.files
            && (r.Ok? <==> CanRead(fs.files, p, env))
            && (r.Ok? ==> r.value == LineReaders.LineReader(p, fs.files[p].payload, true)
                          && fs1.handles == fs.handles + multiset{p}
                          && OpenFrom(fs, dir, cols, prior, env) == OpenFrom(fs1, dir, cols[1..], prior + [r.value], env))
            && (r.Err? ==> fs1 == fs && OpenFrom(fs, dir, cols, prior, env) == (CloseFiles(fs, prior, env), Err(r.error)))
  {
  }

  /** On success, one reader per column, in order, after those already open. */
  lemma {:induction false} OpenFromReaders(fs: Fs, dir: Path, cols: seq<string>, prior: seq<LineReader>, env: Env)
    requires CanReadAll(fs.files, dir, cols, env)
    ensures OpenFrom(fs, dir, cols, prior, env).1 == Ok(prior + FreshReaders(fs.files, dir, cols))
    decreases |cols|
  {
    if |cols| == 0 {
      assert prior + FreshReaders(fs.files, dir, cols) == prior;
    } else {
      var p := ColumnWriters.ColumnPath(dir, cols[0]);
      var (fs1, r) := LineReaders.NewLineReader(fs, p, env);
      OpenFromStep(fs, dir, cols, prior, env);
      CanReadAllCons(fs.files, dir, cols, env);
      OpenFromReaders(fs1, dir, cols[1..], prior + [r.value], env);
      FreshReadersCons(fs.files, dir, cols);
      assert prior + [r.value] + FreshReaders(fs.files, dir, cols[1..]) == prior + ([r.value] + FreshReaders(fs.files, dir, cols[1..]));
    }
  }

  /** Descriptors: success holds one per column more, failure none of the loop's. */
  lemma {:induction false} OpenFromHandles(fs: Fs, dir: Path, cols: seq<string>, prior: seq<LineReader>, env: Env)
    ensures var out := OpenFrom(fs, dir, cols, prior, env);
            (out.1.Ok? ==> out.0.handles == fs.handles + ColumnPaths(dir, cols))
            && (out.1.Err? ==> out.0.handles == fs.handles - ReaderPaths(prior))
    decreases |cols|
  {
    if |cols| > 0 {
      var p := ColumnWriters.ColumnPath(dir, cols[0]);
      var (fs1, r) := LineReaders.NewLineReader(fs, p, env);
      OpenFromStep(fs, dir, cols, prior, env);
      if r.Err? {
        CloseFilesReleases(fs, prior, env);
      } else {
        OpenFromHandles(fs1, dir, cols[1..], prior + [r.value], env);
        ReaderPathsSnoc(prior, r.value);
        ColumnWriters.CancelOne(fs.handles, ReaderPaths(prior), p);
        assert ColumnPaths(dir, cols) == multiset{p} + ColumnPaths(dir, cols[1..]);
      }
    }
  }

  lemma ReaderPathsSnoc(rs: seq<LineReader>, r: LineReader)
    ensures ReaderPaths(rs + [r]) == ReaderPaths(rs) + multiset{r.path}
  {
    ReaderPathsAppend(rs, [r]);
    assert ReaderPaths([r]) == multiset{r.path};
  }

  lemma {:induction false} ReaderPathsAppend(a: seq<LineReader>, b: seq<LineReader>)
    ensures ReaderPaths(a + b) == ReaderPaths(a) + ReaderPaths(b)
  {
    if |a| == 0 {
      assert a + b == b;
    } else {
      assert (a + b)[1..] == a[1..] + b;
      ReaderPathsAppend(a[1..], b);
    }
  }

  /**
   * `NewColumnReader`: one line reader per column, in column order; if one
   * cannot be made, the ones already made are closed and no reader is returned.
   */
  function NewColumnReader(fs: Fs, dir: Path, cols: seq<string>, env: Env): (out: (Fs, Result<ColumnReader, Error>))
    ensures out.1.Ok? <==> CanReadAll(fs.files, dir, cols, env)
    ensures out.1.Ok? ==> out.1.value == ColumnReader(cols, FreshReaders(fs.files, dir, cols))
    ensures out.1.Ok? ==> out.0.handles == fs.handles + ReaderPaths(out.1.value.readers)
    ensures out.1.Err? ==> out.0.handles == fs.handles
    ensures out.0.files == fs.files && out.0.dirs == fs.dirs
  {
    var (fs1, r) := OpenFrom(fs, dir, cols, [], env);
    OpenAllReaders(fs, dir, cols, env);
    OpenAllHandles(fs, dir, cols, env);
    if r.Ok? then
      FreshReaderPaths(fs.files, dir, cols);
      (fs1, Ok(ColumnReader(cols, r.value)))
    else (fs1, Err(r.error))
  }

  /** The whole loop, started with no reader, succeeds exactly when every column can be read, with fresh readers. */
  lemma OpenAllReaders(fs: Fs, dir: Path, cols: seq<string>, env: Env)
    ensures var out := OpenFrom(fs, dir, cols, [], env);
            && (out.1.Ok? <==> CanReadAll(fs.files, dir, cols, env))
            && (out.1.Ok? ==> out.1.value == FreshReaders(fs.files, dir, cols))
  {
    OpenFromSucceeds(fs, dir, cols, [], env);
    if CanReadAll(fs.files, dir, cols, env) {
      OpenFromReaders(fs, dir, cols, [], env);
      assert [] + FreshReaders(fs.files, dir, cols) == FreshReaders(fs.files, dir, cols);
    }
  }

  /** The whole loop, started with no reader, holds one descriptor per column file, or none. */
  lemma OpenAllHandles(fs: Fs, dir: Path, cols: seq<string>, env: Env)
    ensures var out := OpenFrom(fs, dir, cols, [], env);
            && (out.1.Ok? ==> out.0.handles == fs.handles + ColumnPaths(dir, cols))
            && (out.1.Err? ==> out.0.handles == fs.handles)
  {
    OpenFromHandles(fs, dir, cols, [], env);
    assert fs.handles - ReaderPaths([]) == fs.handles;
  }
  // ------------------------------------------------------------------- rows

  /** Length of the shortest stream. */
  function MinLen(streams: seq<seq<seq<byte>>>): (n: nat)
    requires |streams| > 0
    ensures forall i :: 0 <= i < |streams| ==> n <= |streams[i]|
    ensures exists i :: 0 <= i < |streams| && n == |streams[i]|
  {
    if |streams| == 1 then |streams[0]|
    else
      var m := MinLen(streams[1..]);
      assert forall i :: 1 <= i < |streams| ==> streams[i] == streams[1..][i - 1];
      if |streams[0]| <= m then |streams[0]| else m
  }

  /** Column `j` is the last one of its name, so its value is the one a row keeps. */
  predicate IsLast(cols: seq<string>, j: nat)
    requires j < |cols|
  {
    forall l :: j < l < |cols| ==> cols[l] != cols[j]
  }

  /** `row` holds every column name, each with the `k`-th line of the last column of that name. */
  ghost predicate RowOf(cols: seq<string>, streams: seq<seq<seq<byte>>>, k: nat, row: Row)
    requires |streams| == |cols|
  {
    && (forall c :: c in row <==> c in cols)
    && forall j :: 0 <= j < |cols| && IsLast(cols, j) ==> k < |streams[j]| && row[cols[j]] == streams[j][k]
  }

  /**
   * One round of the assembling goroutine: receives from columns `i..` in
   * order into `m`; `got` is how many receives of the round succeeded in
   * all, and the row is produced only when every column delivered.
   */
  function Round(cols: seq<string>, streams: seq<seq<seq<byte>>>, r: nat, i: nat, m: Row): (out: (Option<Row>, nat))
    requires |streams| == |cols| && i <= |cols|
    decreases |cols| - i
    ensures i <= out.1 <= |cols|
    ensures out.0.Some? <==> out.1 == |cols|
    ensures forall j :: i <= j < out.1 ==> r < |streams[j]|
    ensures out.1 < |cols| ==> |streams[out.1]| <= r
    ensures out.0.Some? ==> m.Keys <= out.0.value.Keys && forall j :: i <= j < |cols| ==> cols[j] in out.0.value
  {
    if i == |cols| then (Some(m), i)
    else if r >= |streams[i]| then (None, i)
    else Round(cols, streams, r, i + 1, m[cols[i] := streams[i][r]])
  }

  /** The rows the goroutine sends from round `r` on, and the receives of its last, incomplete round. */
  function RowsFrom(cols: seq<string>, streams: seq<seq<seq<byte>>>, r: nat): (out: (seq<Row>, nat))
    requires |cols| > 0 && |streams| == |cols|
    decreases |streams[0]| - r
    ensures out.1 < |cols|
  {
    var (row, got) := Round(cols, streams, r, 0, map[]);
    if row.None? then ([], got)
    else
      var (rest, last) := RowsFrom(cols, streams, r + 1);
      ([row.value] + rest, last)
  }

  /** A complete round adds the names of columns `i..` to the map's keys. */
  lemma {:induction false} RoundKeys(cols: seq<string>, streams: seq<seq<seq<byte>>>, r: nat, i: nat, m: Row)
    requires |streams| == |cols| && i <= |cols|
    requires Round(cols, streams, r, i, m).0.Some?
    ensures Round(cols, streams, r, i, m).0.value.Keys == m.Keys + (set j | i <= j < |cols| :: cols[j])
    decreases |cols| - i
  {
    if i < |cols| {
      RoundKeys(cols, streams, r, i + 1, m[cols[i] := streams[i][r]]);
      assert (set j | i <= j < |cols| :: cols[j]) == {cols[i]} + (set j | i + 1 <= j < |cols| :: cols[j]);
    }
  }

  /** In a complete round the last column of each name, from `i` on, sets that name's value. */
  lemma {:induction false} RoundValues(cols: seq<string>, streams: seq<seq<seq<byte>>>, r: nat, i: nat, m: Row)
    requires |streams| == |cols| && i <= |cols|
    requires Round(cols, streams, r, i, m).0.Some?
    ensures forall j :: i <= j < |cols| && IsLast(cols, j) ==>
              Round(cols, streams, r, i, m).0.value[cols[j]] == streams[j][r]
    decreases |cols| - i
  {
    if i < |cols| {
      var m' := m[cols[i] := streams[i][r]];
      RoundValues(cols, streams, r, i + 1, m');
      if IsLast(cols, i) {
        RoundKeeps(cols, streams, r, i + 1, m', cols[i]);
      }
    }
  }

  /** A name no later column carries keeps the value it had. */
  lemma {:induction false} RoundKeeps(cols: seq<string>, streams: seq<seq<seq<byte>>>, r: nat, i: nat, m: Row, c: string)
    requires |streams| == |cols| && i <= |cols|
    requires Round(cols, streams, r, i, m).0.Some?
    requires c in m && forall l :: i <= l < |cols| ==> cols[l] != c
    ensures Round(cols, streams, r, i, m).0.value[c] == m[c]
    decreases |cols| - i
  {
    if i < |cols| {
      RoundKeeps(cols, streams, r, i + 1, m[cols[i] := streams[i][r]], c);
    }
  }

  lemma {:induction false} RoundComplete(cols: seq<string>, streams: seq<seq<seq<byte>>>, r: nat)
    requires |cols| > 0 && |streams| == |cols|
    requires Round(cols, streams, r, 0, map[]).0.Some?
    ensures forall i :: 0 <= i < |cols| ==> r < |streams[i]|
    ensures RowOf(cols, streams, r, Round(cols, streams, r, 0, map[]).0.value)
  {
    RoundKeys(cols, streams, r, 0, map[]);
    RoundValues(cols, streams, r, 0, map[]);
    var row := Round(cols, streams, r, 0, map[]).0.value;
    forall c | c in cols
      ensures c in row
    {
      var j :| 0 <= j < |cols| && cols[j] == c;
    }
  }

  /**
   * The number of rows from round `r` on is what the shortest column has
   * left; the last round stops at the first column that has run out.
   */
  lemma {:induction false} RowsFromCount(cols: seq<string>, streams: seq<seq<seq<byte>>>, r: nat)
    requires |cols| > 0 && |streams| == |cols| && r <= MinLen(streams)
    ensures var (rows, last) := RowsFrom(cols, streams, r);
            |rows| == MinLen(streams) - r
            && |streams[last]| == MinLen(streams)
            && (forall j :: 0 <= j < last ==> |streams[j]| > MinLen(streams))
    decreases |streams[0]| - r
  {
    var (row, got) := Round(cols, streams, r, 0, map[]);
    if row.Some? {
      var i :| 0 <= i < |streams| && MinLen(streams) == |streams[i]|;
      assert r < |streams[i]|;
      RowsFromCount(cols, streams, r + 1);
    } else {
      assert |streams[got]| <= r;
    }
  }

  /** Each row from round `r` on is assembled from its round's lines. */
  lemma {:induction false} RowsFromRow(cols: seq<string>, streams: seq<seq<seq<byte>>>, r: nat, k: nat)
    requires |cols| > 0 && |streams| == |cols|
    requires k < |RowsFrom(cols, streams, r).0|
    ensures RowOf(cols, streams, r + k, RowsFrom(cols, streams, r).0[k])
    decreases k
  {
    if k == 0 {
      RowsFromFirst(cols, streams, r);
    } else {
      RowsFromLater(cols, streams, r, k);
      RowsFromRow(cols, streams, r + 1, k - 1);
    }
  }

  /** The first row sent from round `r` is that round's row. */
  lemma RowsFromFirst(cols: seq<string>, streams: seq<seq<seq<byte>>>, r: nat)
    requires |cols| > 0 && |streams| == |cols|
    requires 0 < |RowsFrom(cols, streams, r).0|
    ensures RowOf(cols, streams, r, RowsFrom(cols, streams, r).0[0])
  {
    RowsFromStep(cols, streams, r);
    RoundComplete(cols, streams, r);
  }

  /** The later rows sent from round `r` are the rows sent from round `r + 1`. */
  lemma RowsFromLater(cols: seq<string>, streams: seq<seq<seq<byte>>>, r: nat, k: nat)
    requires |cols| > 0 && |streams| == |cols|
    requires 0 < k < |RowsFrom(cols, streams, r).0|
    ensures k - 1 < |RowsFrom(cols, streams, r + 1).0|
    ensures RowsFrom(cols, streams, r).0[k] == RowsFrom(cols, streams, r + 1).0[k - 1]
  {
    RowsFromStep(cols, streams, r);
  }

  /** A row is sent exactly when its round completes, and the later rounds follow it. */
  lemma RowsFromStep(cols: seq<string>, streams: seq<seq<seq<byte>>>, r: nat)
    requires |cols| > 0 && |streams| == |cols|
    ensures var row := Round(cols, streams, r, 0, map[]).0;
            && (row.None? ==> RowsFrom(cols, streams, r).0 == [])
            && (row.Some? ==> RowsFrom(cols, streams, r).0 == [row.value] + RowsFrom(cols, streams, r + 1).0)
  {
  }

  /**
   * `Rows` over the line streams of a reader's columns (one finite stream per
   * column, as its `Lines` goroutine delivers it): the rows sent, and how
   * many lines were taken from each column.
   */
  function Rows(cols: seq<string>, streams: seq<seq<seq<byte>>>): (out: (seq<Row>, seq<nat>))
    requires |cols| > 0 && |streams| == |cols|
    ensures |out.0| == MinLen(streams)
    ensures forall k :: 0 <= k < |out.0| ==> RowOf(cols, streams, k, out.0[k])
    ensures |out.1| == |cols| && forall i :: 0 <= i < |cols| ==> out.1[i] <= |streams[i]|
    ensures forall i :: 0 <= i < |cols| ==> out.1[i] == |out.0| || out.1[i] == |out.0| + 1
  {
    var (rows, last) := RowsFrom(cols, streams, 0);
    RowsFromCount(cols, streams, 0);
    forall k | 0 <= k < |rows|
      ensures RowOf(cols, streams, k, rows[k])
    {
      RowsFromRow(cols, streams, 0, k);
    }
    (rows, Pulled(|cols|, |rows|, last))
  }

  /** Every column gave up `rows` lines, and those before `last` one more. */
  function Pulled(width: nat, rows: nat, last: nat): (p: seq<nat>)
    ensures |p| == width
    ensures forall i :: 0 <= i < width ==> p[i] == if i < last then rows + 1 else rows
  {
    seq(width, i requires 0 <= i < width => if i < last then rows + 1 else rows)
  }

  /**
   * A line is taken and then discarded from exactly the columns before the
   * first shortest one: those are the receives of the last, incomplete round.
   */
  lemma {:induction false} RowsDiscard(cols: seq<string>, streams: seq<seq<seq<byte>>>, i: nat)
    requires |cols| > 0 && |streams| == |cols| && i < |cols|
    ensures var (rows, pulled) := Rows(cols, streams);
            pulled[i] == |rows| + 1 <==> forall j :: 0 <= j <= i ==> |streams[j]| > MinLen(streams)
  {
    RowsFromCount(cols, streams, 0);
  }

  /** The line streams of a reader's columns when no read fails. */
  function Streams(r: ColumnReader): (streams: seq<seq<seq<byte>>>)
    ensures |streams| == |r.readers|
    ensures forall i :: 0 <= i < |r.readers| ==> streams[i] == LineReaders.SplitLines(r.readers[i].payload)
  {
    seq(|r.readers|, i requires 0 <= i < |r.readers| => LineReaders.ReadAll(r.readers[i]).0)
  }

  // ------------------------------------------------------------- round trip

  /** The rows as a reader sees them: just the columns, a missing key read back as the empty value. */
  function Project(rows: seq<Row>, cols: seq<string>): (out: seq<Row>)
    ensures |out| == |rows|
    ensures forall k :: 0 <= k < |rows| ==> out[k].Keys == set c | c in cols
    ensures forall k, c :: 0 <= k < |rows| && c in cols ==> out[k][c] == ColumnWriters.Value(rows[k], c)
  {
    seq(|rows|, k requires 0 <= k < |rows| => map c | c in cols :: ColumnWriters.Value(rows[k], c))
  }

  /** No value holds a newline or ends in a carriage return. */
  predicate LineSafe(rows: seq<Row>)
  {
    forall k, c :: 0 <= k < |rows| && c in rows[k] ==>
      NL !in rows[k][c] && (|rows[k][c]| > 0 ==> rows[k][c][|rows[k][c]| - 1] != CR)
  }

  /** Column files holding the encodings of the columns of `rows` read back as `rows`, projected. */
  lemma {:induction false} ReadBack(fs: Fs, dir: Path, cols: seq<string>, rows: seq<Row>, env: Env)
    requires |cols| > 0 && forall i, j :: 0 <= i < j < |cols| ==> cols[i] != cols[j]
    requires LineSafe(rows)
    requires forall i :: 0 <= i < |cols| ==>
               var p := ColumnWriters.ColumnPath(dir, cols[i]);
               CanRead(fs.files, p, env) && fs.files[p].payload == LineWriters.Encode(ColumnWriters.Column(rows, cols[i]))
    ensures var (fs1, r) := NewColumnReader(fs, dir, cols, env);
            r.Ok? && Rows(cols, Streams(r.value)).0 == Project(rows, cols)
            && Close(fs1, r.value, env).0.handles == fs.handles
  {
    assert CanReadAll(fs.files, dir, cols, env);
    var (fs1, r) := NewColumnReader(fs, dir, cols, env);
    StreamsOfColumns(fs.files, dir, cols, rows, r.value);
    RowsOfColumns(cols, rows, Streams(r.value));
    ColumnWriters.AcquireThenRelease(fs.handles, ReaderPaths(r.value.readers));
  }

  /** A reader over the encodings of the columns streams exactly the columns. */
  lemma {:induction false} StreamsOfColumns(files: map<Path, File>, dir: Path, cols: seq<string>, rows: seq<Row>, r: ColumnReader)
    requires LineSafe(rows)
    requires forall i :: 0 <= i < |cols| ==>
               var p := ColumnWriters.ColumnPath(dir, cols[i]);
               p in files && files[p].payload == LineWriters.Encode(ColumnWriters.Column(rows, cols[i]))
    requires r.readers == FreshReaders(files, dir, cols)
    ensures |Streams(r)| == |cols|
    ensures forall i :: 0 <= i < |cols| ==> Streams(r)[i] == ColumnWriters.Column(rows, cols[i])
  {
    forall i | 0 <= i < |cols|
      ensures Streams(r)[i] == ColumnWriters.Column(rows, cols[i])
    {
      var p := ColumnWriters.ColumnPath(dir, cols[i]);
      assert r.readers[i].payload == files[p].payload;
      StreamOfColumn(rows, cols[i], r.readers[i].payload);
    }
  }

  lemma {:induction false} StreamOfColumn(rows: seq<Row>, c: string, payload: seq<byte>)
    requires LineSafe(rows)
    requires payload == LineWriters.Encode(ColumnWriters.Column(rows, c))
    ensures LineReaders.SplitLines(payload) == ColumnWriters.Column(rows, c)
  {
    ColumnLineSafe(rows, c);
    LineReaders.SplitLinesOfEncode(ColumnWriters.Column(rows, c));
  }

  /** The values of a column of line-safe rows are line-safe, a missing key giving the empty value. */
  lemma {:induction false} ColumnLineSafe(rows: seq<Row>, c: string)
    requires LineSafe(rows)
    ensures var col := ColumnWriters.Column(rows, c);
            (forall m :: 0 <= m < |col| ==> NL !in col[m])
            && (forall m :: 0 <= m < |col| && |col[m]| > 0 ==> col[m][|col[m]| - 1] != CR)
  {
  }

  /** Zipping the columns of `rows` gives back `rows`, projected onto the columns. */
  lemma {:induction false} RowsOfColumns(cols: seq<string>, rows: seq<Row>, streams: seq<seq<seq<byte>>>)
    requires |cols| > 0 && forall i, j :: 0 <= i < j < |cols| ==> cols[i] != cols[j]
    requires |streams| == |cols| && forall i :: 0 <= i < |cols| ==> streams[i] == ColumnWriters.Column(rows, cols[i])
    ensures Rows(cols, streams).0 == Project(rows, cols)
  {
    var out := Rows(cols, streams).0;
    assert |out| == |rows| by {
      var i :| 0 <= i < |streams| && MinLen(streams) == |streams[i]|;
    }
    forall k | 0 <= k < |rows|
      ensures out[k] == Project(rows, cols)[k]
    {
      RowOfColumns(cols, rows, streams, k, out[k]);
    }
  }

  /** With distinct columns, a row assembled from the columns of `rows` is the projected row. */
  lemma {:induction false} RowOfColumns(cols: seq<string>, rows: seq<Row>, streams: seq<seq<seq<byte>>>, k: nat, row: Row)
    requires forall i, j :: 0 <= i < j < |cols| ==> cols[i] != cols[j]
    requires |streams| == |cols| && forall i :: 0 <= i < |cols| ==> streams[i] == ColumnWriters.Column(rows, cols[i])
    requires k < |rows| && RowOf(cols, streams, k, row)
    ensures row == map c | c in cols :: ColumnWriters.Value(rows[k], c)
  {
    var want := map c | c in cols :: ColumnWriters.Value(rows[k], c);
    assert row.Keys == want.Keys;
    forall c | c in cols
      ensures row[c] == want[c]
    {
      var j :| 0 <= j < |cols| && cols[j] == c;
      assert IsLast(cols, j);
      calc {
        row[c];
        streams[j][k];
        ColumnWriters.Column(rows, cols[j])[k];
      }
    }
  }

  /**
   * The column codec's round trip: rows written through a fresh column
   * writer whose compressors close cleanly, closed (a failure to close a file
   * afterwards loses nothing) and read back through a column reader come back
   * as the rows projected onto the columns, and every descriptor opened
   * along the way is closed again.
   */
  lemma {:induction false} RoundTrip(fs: Fs, dir: Path, cols: seq<string>, rows: seq<Row>, env: Env)
    requires dir in fs.dirs
    requires |cols| > 0 && forall i, j :: 0 <= i < j < |cols| ==> cols[i] != cols[j]
    requires LineSafe(rows)
    requires forall i :: 0 <= i < |cols| ==>
               var p := ColumnWriters.ColumnPath(dir, cols[i]);
               p !in fs.dirs && p !in fs.files
               && (OpenAppend, p) !in env.faults && (NewCompressor, p) !in env.faults && (Write, p) !in env.faults
               && (CloseStream, p) !in env.faults
               && (OpenRead, p) !in env.faults && (NewDecompressor, p) !in env.faults
    ensures var (fs1, w) := ColumnWriters.NewColumnWriter(fs, dir, cols, env);
            w.Ok?
            && var (w2, e) := ColumnWriters.WriteRows(w.value, rows, env);
               e.None?
               && var fs2 := ColumnWriters.Close(fs1, w2, env).0;
                  var (fs3, r) := NewColumnReader(fs2, dir, cols, env);
                  r.Ok? && Rows(cols, Streams(r.value)).0 == Project(rows, cols)
                  && Close(fs3, r.value, env).0.handles == fs.handles
  {
    ColumnWriters.WriteThenClose(fs, dir, cols, rows, env);
    var (fs1, w) := ColumnWriters.NewColumnWriter(fs, dir, cols, env);
    var (w2, e) := ColumnWriters.WriteRows(w.value, rows, env);
    var fs2 := ColumnWriters.Close(fs1, w2, env).0;
    forall i | 0 <= i < |cols|
      ensures var p := ColumnWriters.ColumnPath(dir, cols[i]);
              CanRead(fs2.files, p, env) && fs2.files[p].payload == LineWriters.Encode(ColumnWriters.Column(rows, cols[i]))
    {
      var p := ColumnWriters.ColumnPath(dir, cols[i]);
      assert (CloseStream, p) !in env.faults;
    }
    ReadBack(fs2, dir, cols, rows, env);
  }
}

=== FILE: colwriter.dfy ===
/**
 * A column writer fans each row out to one line writer per column, the
 * column `c` of directory `dir` living in the file `dir/c.gz`.
 */
module ColumnWriters {
  import opened Wrappers
  import opened Bytes
  import opened Errors
  import opened FileSystem
  import LineWriters

  type LineWriter = LineWriters.LineWriter

  /** A row: column name to value, as Go's `map[string][]byte`. */
  type Row = map<string, seq<byte>>

  datatype ColumnWriter = ColumnWriter(cols: seq<string>, writers: seq<LineWriter>)

  /** `filepath.Join(dir, c + ".gz")`. */
  function ColumnPath(dir: Path, c: string): (p: Path)
    ensures |p| > 0 && Parent(p) == dir && Base(p) == c + ".gz"
  {
    dir + [c + ".gz"]
  }

  lemma ColumnPathInjective(dir: Path, a: string, b: string)
    requires ColumnPath(dir, a) == ColumnPath(dir, b)
    ensures a == b
  {
    assert Base(ColumnPath(dir, a)) == a + ".gz";
    assert a == (a + ".gz")[..|a|] && b == (b + ".gz")[..|b|];
  }

  /** `row[c]`: a column missing from the row reads as the empty value. */
  function Value(row: Row, c: string): (v: seq<byte>)
    ensures c in row ==> v == row[c]
    ensures c !in row ==> v == []
  {
    if c in row then row[c] else []
  }

  /** The paths of some writers, counted with multiplicity. */
  function Paths(ws: seq<LineWriter>): (m: multiset<Path>)
    ensures |m| == |ws|
    ensures forall i :: 0 <= i < |ws| ==> ws[i].path in m
  {
    if |ws| == 0 then multiset{} else multiset{ws[0].path} + Paths(ws[1..])
  }

  /** The writers sit on the column files of `dir`, one per column, in column order. */
  predicate Opened(w: ColumnWriter, dir: Path)
  {
    |w.writers| == |w.cols| && forall i :: 0 <= i < |w.cols| ==> w.writers[i].path == ColumnPath(dir, w.cols[i])
  }

  // ------------------------------------------------------------------ close

  /** What closing each writer reports, in writer order. */
  function CloseErrors(ws: seq<LineWriter>, env: Env): (errs: seq<Option<Error>>)
    ensures |errs| == |ws| && forall i :: 0 <= i < |ws| ==> errs[i] == LineWriters.CloseError(ws[i], env)
  {
    seq(|ws|, i requires 0 <= i < |ws| => LineWriters.CloseError(ws[i], env))
  }

  /** The effect on the file system of closing every writer in order. */
  function CloseFiles(fs: Fs, ws: seq<LineWriter>, env: Env): (fs': Fs)
    decreases |ws|
    ensures fs'.dirs == fs.dirs
  {
    if |ws| == 0 then fs else CloseFiles(LineWriters.Close(fs, ws[0], env).0, ws[1..], env)
  }

  /**
   * Closes every writer in order, whatever the earlier ones reported, and
   * keeps the last error: the loop of `Close` and of the cleanup in
   * `NewColumnWriter`.
   */
  function CloseAll(fs: Fs, ws: seq<LineWriter>, env: Env): (out: (Fs, Option<Error>))
    ensures out.1.None? <==> forall i :: 0 <= i < |ws| ==> LineWriters.CloseError(ws[i], env).None?
    ensures out.1.Some? ==> exists i :: 0 <= i < |ws| && out.1 == LineWriters.CloseError(ws[i], env)
                                     && forall j :: i < j < |ws| ==> LineWriters.CloseError(ws[j], env).None?
    ensures out.0.dirs == fs.dirs
  {
    var errs := CloseErrors(ws, env);
    (CloseFiles(fs, ws, env), LastError(errs))
  }

  /** Closing releases exactly one descriptor per writer. */
  lemma {:induction false} CloseFilesReleases(fs: Fs, ws: seq<LineWriter>, env: Env)
    ensures CloseFiles(fs, ws, env).handles == fs.handles - Paths(ws)
    decreases |ws|
  {
    if |ws| > 0 {
      var fs1 := LineWriters.Close(fs, ws[0], env).0;
      CloseFilesReleases(fs1, ws[1..], env);
      assert fs.handles - Paths(ws) == (fs.handles - multiset{ws[0].path}) - Paths(ws[1..]);
    }
  }

  /** Closing never loses a file, and leaves the files of no writer alone. */
  lemma {:induction false} CloseFilesFrame(fs: Fs, ws: seq<LineWriter>, env: Env)
    ensures forall q :: q in fs.files ==> q in CloseFiles(fs, ws, env).files
    ensures forall q :: q in fs.files && (forall i :: 0 <= i < |ws| ==> ws[i].path != q) ==>
              CloseFiles(fs, ws, env).files[q] == fs.files[q]
    decreases |ws|
  {
    if |ws| > 0 {
      var fs1 := LineWriters.Close(fs, ws[0], env).0;
      var rest := ws[1..];
      CloseFilesFrame(fs1, rest, env);
      var out := CloseFiles(fs, ws, env);
      assert out == CloseFiles(fs1, rest, env);
      forall q | q in fs.files && (forall i :: 0 <= i < |ws| ==> ws[i].path != q)
        ensures out.files[q] == fs.files[q]
      {
        assert ws[0].path != q;
        forall i | 0 <= i < |rest|
          ensures rest[i].path != q
        {
          assert rest[i] == ws[i + 1];
        }
      }
    }
  }

  /** Writers with nothing pending add only empty gzip members: payloads stay as they were. */
  lemma {:induction false} CloseFilesNothingPending(fs: Fs, ws: seq<LineWriter>, env: Env)
    requires forall i :: 0 <= i < |ws| ==> ws[i].pending == []
    ensures forall q :: q in fs.files ==>
              q in CloseFiles(fs, ws, env).files && CloseFiles(fs, ws, env).files[q].payload == fs.files[q].payload
    decreases |ws|
  {
    if |ws| > 0 {
      var fs1 := LineWriters.Close(fs, ws[0], env).0;
      assert forall q :: q in fs.files ==> q in fs1.files && fs1.files[q].payload == fs.files[q].payload;
      CloseFilesNothingPending(fs1, ws[1..], env);
    }
  }

  /**
   * What closing `w` did to its file, from the files `before` to the files
   * `after`: its pending lines are appended as a whole gzip member exactly
   * when its compressor closes cleanly; otherwise the payload stays and the
   * file is no longer intact.
   */
  predicate ClosedInto(before: map<Path, File>, after: map<Path, File>, w: LineWriter, env: Env)
  {
    var ok := LineWriters.StreamError(w, env).None?;
    && w.path in after
    && after[w.path].payload == (if w.path in before then before[w.path].payload else []) + (if ok then w.pending else [])
    && (after[w.path].intact <==> ok && (w.path !in before || before[w.path].intact))
    && (ok ==> after[w.path].csize >= GzipFraming)
  }

  /** With distinct target files, each writer's file ends up as closing that writer alone leaves it. */
  lemma {:induction false} CloseFilesPersists(fs: Fs, ws: seq<LineWriter>, env: Env)
    requires forall i, j :: 0 <= i < j < |ws| ==> ws[i].path != ws[j].path
    ensures forall i :: 0 <= i < |ws| ==> ClosedInto(fs.files, CloseFiles(fs, ws, env).files, ws[i], env)
    decreases |ws|
  {
    if |ws| > 0 {
      var fs1 := LineWriters.Close(fs, ws[0], env).0;
      var rest := ws[1..];
      var fs2 := CloseFiles(fs, ws, env);
      assert fs2 == CloseFiles(fs1, rest, env);
      CloseFilesPersists(fs1, rest, env);
      CloseFilesFrame(fs1, rest, env);
      assert ClosedInto(fs.files, fs1.files, ws[0], env);
      forall i | 0 <= i < |ws|
        ensures ClosedInto(fs.files, fs2.files, ws[i], env)
      {
        if i == 0 {
          assert forall j :: 0 <= j < |rest| ==> rest[j].path != ws[0].path;
          assert fs2.files[ws[0].path] == fs1.files[ws[0].path];
        } else {
          assert ws[i] == rest[i - 1];
          assert ClosedInto(fs1.files, fs2.files, rest[i - 1], env);
          assert ws[i].path != ws[0].path;
        }
      }
    }
  }

  /** `Close`: closes all line writers and returns the last error. */
  function Close(fs: Fs, w: ColumnWriter, env: Env): (out: (Fs, Option<Error>))
    ensures out.1.None? <==> forall i :: 0 <= i < |w.writers| ==> LineWriters.CloseError(w.writers[i], env).None?
    ensures out.1.Some? ==> exists i :: 0 <= i < |w.writers| && out.1 == LineWriters.CloseError(w.writers[i], env)
                                     && forall j :: i < j < |w.writers| ==> LineWriters.CloseError(w.writers[j], env).None?
    ensures out.0.handles == fs.handles - Paths(w.writers)
  {
    CloseFilesReleases(fs, w.writers, env);
    CloseAll(fs, w.writers, env)
  }

  // ------------------------------------------------------------------- open

  /** The writers `NewColumnWriter` makes for `cols`, before anything is written. */
  function FreshWriters(dir: Path, cols: seq<string>): (ws: seq<LineWriter>)
    ensures |ws| == |cols|
    ensures forall i :: 0 <= i < |cols| ==> ws[i] == LineWriters.Fresh(ColumnPath(dir, cols[i]))
  {
    if |cols| == 0 then [] else [LineWriters.Fresh(ColumnPath(dir, cols[0]))] + FreshWriters(dir, cols[1..])
  }

  /** Whether the line writer for column file `p` can be made. */
  predicate CanOpen(fs: Fs, p: Path, env: Env)
  {
    |p| > 0 && Parent(p) in fs.dirs && p !in fs.dirs && (OpenAppend, p) !in env.faults && (NewCompressor, p) !in env.faults
  }

  /** All of the columns can be opened. */
  predicate CanOpenAll(fs: Fs, dir: Path, cols: seq<string>, env: Env)
  {
    forall i :: 0 <= i < |cols| ==> CanOpen(fs, ColumnPath(dir, cols[i]), env)
  }

  /**
   * The loop of `NewColumnWriter` from the point where `prior` are open:
   * opens the next column's writer; on failure closes all the writers made
   * so far (their errors are only logged) and returns the opening error.
   */
  function OpenFrom(fs: Fs, dir: Path, cols: seq<string>, prior: seq<LineWriter>, env: Env): (out: (Fs, Result<seq<LineWriter>, Error>))
    decreases |cols|
    ensures out.0.dirs.Keys == fs.dirs.Keys
  {
    if |cols| == 0 then (fs, Ok(prior))
    else
      var (fs1, r) := LineWriters.NewLineWriter(fs, ColumnPath(dir, cols[0]), env);
      if r.Err? then (CloseFiles(fs1, prior, env), Err(r.error))
      else OpenFrom(fs1, dir, cols[1..], prior + [r.value], env)
  }

  lemma CanOpenStable(fs: Fs, fs1: Fs, dir: Path, cols: seq<string>, env: Env)
    requires fs1.dirs.Keys == fs.dirs.Keys
    ensures CanOpenAll(fs1, dir, cols, env) <==> CanOpenAll(fs, dir, cols, env)
  {
    assert forall p: Path :: CanOpen(fs1, p, env) <==> CanOpen(fs, p, env);
  }

  /** All columns can be opened exactly when the first one and all the others can. */
  lemma CanOpenAllCons(fs: Fs, dir: Path, cols: seq<string>, env: Env)
    requires |cols| > 0
    ensures CanOpenAll(fs, dir, cols, env) <==> CanOpen(fs, ColumnPath(dir, cols[0]), env) && CanOpenAll(fs, dir, cols[1..], env)
  {
    assert forall i :: 1 <= i < |cols| ==> cols[i] == cols[1..][i - 1];
  }

  /** One turn of the opening loop. */
  lemma OpenFromStep(fs: Fs, dir: Path, cols: seq<string>, prior: seq<LineWriter>, env: Env)
    requires |cols| > 0
    ensures var p := ColumnPath(dir, cols[0]);
            var (fs1, r) := LineWriters.NewLineWriter(fs, p, env);
            && fs1.dirs.Keys == fs.dirs.Keys
            && (r.Ok? <==> CanOpen(fs, p, env))
            && (r.Ok? ==> r.value == LineWriters.Fresh(p)
                          && OpenFrom(fs, dir, cols, prior, env) == OpenFrom(fs1, dir, cols[1..], prior + [r.value], env))
            && (r.Err? ==> OpenFrom(fs, dir, cols, prior, env) == (CloseFiles(fs1, prior, env), Err(r.error)))
  {
  }

  /** The loop succeeds exactly when every column can be opened, yielding fresh writers in column order. */
  lemma {:induction false} OpenFromOutcome(fs: Fs, dir: Path, cols: seq<string>, prior: seq<LineWriter>, env: Env)
    ensures OpenFrom(fs, dir, cols, prior, env).1.Ok? <==> CanOpenAll(fs, dir, cols, env)
    ensures OpenFrom(fs, dir, cols, prior, env).1.Ok? ==> OpenFrom(fs, dir, cols, prior, env).1.value == prior + FreshWriters(dir, cols)
    decreases |cols|
  {
    if |cols| == 0 {
      assert prior + FreshWriters(dir, cols) == prior;
    } else {
      var p := ColumnPath(dir, cols[0]);
      var (fs1, r) := LineWriters.NewLineWriter(fs, p, env);
      OpenFromStep(fs, dir, cols, prior, env);
      CanOpenAllCons(fs, dir, cols, env);
      CanOpenStable(fs, fs1, dir, cols[1..], env);
      if r.Ok? {
        OpenFromOutcome(fs1, dir, cols[1..], prior + [r.value], env);
        FreshWritersCons(dir, cols);
        assert prior + [r.value] + FreshWriters(dir, cols[1..]) == prior + FreshWriters(dir, cols);
      }
    }
  }

  lemma FreshWritersCons(dir: Path, cols: seq<string>)
    requires |cols| > 0
    ensures FreshWriters(dir, cols) == [LineWriters.Fresh(ColumnPath(dir, cols[0]))] + FreshWriters(dir, cols[1..])
  {
  }

  /** Descriptors: success holds one per new writer; failure holds none of the loop's, including earlier ones. */
  lemma {:induction false} OpenFromHandles(fs: Fs, dir: Path, cols: seq<string>, prior: seq<LineWriter>, env: Env)
    ensures var out := OpenFrom(fs, dir, cols, prior, env);
            (out.1.Ok? ==> out.0.handles == fs.handles + Paths(FreshWriters(dir, cols)))
            && (out.1.Err? ==> out.0.handles == fs.handles - Paths(prior))
    decreases |cols|
  {
    if |cols| > 0 {
      var p := ColumnPath(dir, cols[0]);
      var (fs1, r) := LineWriters.NewLineWriter(fs, p, env);
      OpenFromStep(fs, dir, cols, prior, env);
      if r.Err? {
        CloseFilesReleases(fs1, prior, env);
      } else {
        OpenFromHandles(fs1, dir, cols[1..], prior + [r.value], env);
        FreshWritersCons(dir, cols);
        PathsCons(r.value, FreshWriters(dir, cols[1..]));
        PathsSnoc(prior, r.value);
        CancelOne(fs.handles, Paths(prior), p);
      }
    }
  }

  /** The first column whose writer cannot be made. */
  function FirstUnopenable(fs: Fs, dir: Path, cols: seq<string>, env: Env): (i: nat)
    requires !CanOpenAll(fs, dir, cols, env)
    ensures i < |cols| && !CanOpen(fs, ColumnPath(dir, cols[i]), env)
    ensures CanOpenAll(fs, dir, cols[..i], env)
  {
    if !CanOpen(fs, ColumnPath(dir, cols[0]), env) then 0
    else
      assert forall i :: 1 <= i < |cols| ==> cols[i] == cols[1..][i - 1];
      var i := FirstUnopenable(fs, dir, cols[1..], env);
      assert cols[..i + 1] == [cols[0]] + cols[1..][..i];
      i + 1
  }

  /** Failure reports the first column that cannot be opened. */
  lemma {:induction false} OpenFromError(fs: Fs, dir: Path, cols: seq<string>, prior: seq<LineWriter>, env: Env)
    ensures var out := OpenFrom(fs, dir, cols, prior, env);
            out.1.Err? ==> !CanOpenAll(fs, dir, cols, env) && out.1.error.IoError?
                           && out.1.error.path == ColumnPath(dir, cols[FirstUnopenable(fs, dir, cols, env)])
    decreases |cols|
  {
    OpenFromOutcome(fs, dir, cols, prior, env);
    if |cols| > 0 {
      var p := ColumnPath(dir, cols[0]);
      var (fs1, r) := LineWriters.NewLineWriter(fs, p, env);
      if r.Ok? {
        OpenFromError(fs1, dir, cols[1..], prior + [r.value], env);
        CanOpenStable(fs, fs1, dir, cols[1..], env);
        if !CanOpenAll(fs, dir, cols[1..], env) {
          FirstUnopenableStable(fs, fs1, dir, cols[1..], env);
        }
      }
    }
  }

  lemma {:induction false} FirstUnopenableStable(fs: Fs, fs1: Fs, dir: Path, cols: seq<string>, env: Env)
    requires fs1.dirs.Keys == fs.dirs.Keys && !CanOpenAll(fs, dir, cols, env)
    ensures !CanOpenAll(fs1, dir, cols, env)
    ensures FirstUnopenable(fs1, dir, cols, env) == FirstUnopenable(fs, dir, cols, env)
    decreases |cols|
  {
    CanOpenStable(fs, fs1, dir, cols, env);
    assert forall p: Path :: CanOpen(fs1, p, env) <==> CanOpen(fs, p, env);
    if CanOpen(fs, ColumnPath(dir, cols[0]), env) {
      assert forall i :: 1 <= i < |cols| ==> cols[i] == cols[1..][i - 1];
      FirstUnopenableStable(fs, fs1, dir, cols[1..], env);
    }
  }

  /** Opening never changes a payload that is already there. */
  lemma {:induction false} OpenFromKeepsPayloads(fs: Fs, dir: Path, cols: seq<string>, prior: seq<LineWriter>, env: Env)
    requires forall i :: 0 <= i < |prior| ==> prior[i].pending == []
    ensures forall q :: q in fs.files ==>
              q in OpenFrom(fs, dir, cols, prior, env).0.files && OpenFrom(fs, dir, cols, prior, env).0.files[q].payload == fs.files[q].payload
    decreases |cols|
  {
    if |cols| > 0 {
      var p := ColumnPath(dir, cols[0]);
      var (fs1, r) := LineWriters.NewLineWriter(fs, p, env);
      if r.Err? {
        CloseFilesNothingPending(fs1, prior, env);
      } else {
        OpenFromKeepsPayloads(fs1, dir, cols[1..], prior + [r.value], env);
      }
    }
  }

  /** On success every column file exists. */
  lemma {:induction false} OpenFromCreates(fs: Fs, dir: Path, cols: seq<string>, prior: seq<LineWriter>, env: Env)
    ensures var out := OpenFrom(fs, dir, cols, prior, env);
            out.1.Ok? ==> forall i :: 0 <= i < |cols| ==> ColumnPath(dir, cols[i]) in out.0.files
    decreases |cols|
  {
    if |cols| > 0 {
      var p := ColumnPath(dir, cols[0]);
      var (fs1, r) := LineWriters.NewLineWriter(fs, p, env);
      if r.Ok? {
        OpenFromCreates(fs1, dir, cols[1..], prior + [r.value], env);
        OpenFromFiles(fs1, dir, cols[1..], prior + [r.value], env);
        assert forall i :: 1 <= i < |cols| ==> cols[i] == cols[1..][i - 1];
      }
    }
  }

  /** On success no file is lost, and the files the loop created are empty. */
  lemma {:induction false} OpenFromFiles(fs: Fs, dir: Path, cols: seq<string>, prior: seq<LineWriter>, env: Env)
    ensures var out := OpenFrom(fs, dir, cols, prior, env);
            out.1.Ok? ==>
              (forall q :: q in fs.files ==> q in out.0.files && out.0.files[q] == fs.files[q])
              && (forall q :: q in out.0.files && q !in fs.files ==> out.0.files[q] == EmptyFile)
    decreases |cols|
  {
    if |cols| > 0 {
      var p := ColumnPath(dir, cols[0]);
      var (fs1, r) := LineWriters.NewLineWriter(fs, p, env);
      if r.Ok? {
        OpenFromFiles(fs1, dir, cols[1..], prior + [r.value], env);
      }
    }
  }

  /** A fresh column file starts out empty. */
  lemma NewColumnWriterCreates(fs: Fs, dir: Path, cols: seq<string>, env: Env)
    ensures var out := NewColumnWriter(fs, dir, cols, env);
            out.1.Ok? ==> forall i :: 0 <= i < |cols| ==>
              var p := ColumnPath(dir, cols[i]);
              p in out.0.files && (p !in fs.files ==> out.0.files[p] == EmptyFile)
  {
    OpenFromCreates(fs, dir, cols, [], env);
    OpenFromFiles(fs, dir, cols, [], env);
  }

  lemma PathsCons(w: LineWriter, ws: seq<LineWriter>)
    ensures Paths([w] + ws) == multiset{w.path} + Paths(ws)
  {
    assert ([w] + ws)[1..] == ws;
  }

  lemma PathsSnoc(ws: seq<LineWriter>, w: LineWriter)
    ensures Paths(ws + [w]) == Paths(ws) + multiset{w.path}
  {
    PathsAppend(ws, [w]);
    assert Paths([w]) == multiset{w.path};
  }

  /** Opening and then releasing one more descriptor cancels out. */
  lemma CancelOne(h: multiset<Path>, released: multiset<Path>, p: Path)
    ensures (h + multiset{p}) - (released + multiset{p}) == h - released
  {
    assert forall q :: ((h + multiset{p}) - (released + multiset{p}))[q] == (h - released)[q];
  }

  lemma {:induction false} PathsAppend(a: seq<LineWriter>, b: seq<LineWriter>)
    ensures Paths(a + b) == Paths(a) + Paths(b)
  {
    if |a| == 0 {
      assert a + b == b;
    } else {
      assert (a + b)[1..] == a[1..] + b;
      PathsAppend(a[1..], b);
    }
  }

  /**
   * `NewColumnWriter`: one fresh line writer per column, in column order; if
   * one cannot be made, the ones already made are closed and no writer is
   * returned.
   */
  function NewColumnWriter(fs: Fs, dir: Path, cols: seq<string>, env: Env): (out: (Fs, Result<ColumnWriter, Error>))
    ensures out.1.Ok? <==> CanOpenAll(fs, dir, cols, env)
    ensures out.1.Ok? ==> out.1.value.cols == cols && Opened(out.1.value, dir)
    ensures out.1.Ok? ==> out.1.value.writers == FreshWriters(dir, cols)
    ensures out.1.Ok? ==> forall i :: 0 <= i < |cols| ==> out.1.value.writers[i].pending == []
    ensures out.1.Ok? ==> out.0.handles == fs.handles + Paths(out.1.value.writers)
    ensures out.1.Err? ==> out.0.handles == fs.handles
    ensures out.1.Err? ==> out.1.error.IoError? && out.1.error.path == ColumnPath(dir, cols[FirstUnopenable(fs, dir, cols, env)])
    ensures forall q :: q in fs.files ==> q in out.0.files && out.0.files[q].payload == fs.files[q].payload
    ensures out.0.dirs.Keys == fs.dirs.Keys
  {
    var (fs1, r) := OpenFrom(fs, dir, cols, [], env);
    OpenAllFresh(fs, dir, cols, env);
    OpenAllHandles(fs, dir, cols, env);
    OpenFromError(fs, dir, cols, [], env);
    OpenFromKeepsPayloads(fs, dir, cols, [], env);
    (fs1, if r.Ok? then Ok(ColumnWriter(cols, r.value)) else Err(r.error))
  }

  /** The whole loop, started with no writer, succeeds exactly when every column opens, with fresh writers. */
  lemma OpenAllFresh(fs: Fs, dir: Path, cols: seq<string>, env: Env)
    ensures var out := OpenFrom(fs, dir, cols, [], env);
            && (out.1.Ok? <==> CanOpenAll(fs, dir, cols, env))
            && (out.1.Ok? ==> out.1.value == FreshWriters(dir, cols))
  {
    OpenFromOutcome(fs, dir, cols, [], env);
    assert [] + FreshWriters(dir, cols) == FreshWriters(dir, cols);
  }

  /** The whole loop, started with no writer, holds one descriptor per fresh writer, or none. */
  lemma OpenAllHandles(fs: Fs, dir: Path, cols: seq<string>, env: Env)
    ensures var out := OpenFrom(fs, dir, cols, [], env);
            && (out.1.Ok? ==> out.0.handles == fs.handles + Paths(FreshWriters(dir, cols)))
            && (out.1.Err? ==> out.0.handles == fs.handles)
  {
    OpenFromHandles(fs, dir, cols, [], env);
    assert fs.handles - Paths([]) == fs.handles;
  }

  // ------------------------------------------------------------------ write

  /**
   * The loop of `WriteRow`: one `WriteLine` per column in column order,
   * returning at the first error with no rollback.
   */
  function WriteFrom(ws: seq<LineWriter>, cols: seq<string>, row: Row, env: Env): (out: (seq<LineWriter>, Option<Error>))
    requires |ws| == |cols|
    decreases |ws|
    ensures |out.0| == |ws| && forall i :: 0 <= i < |ws| ==> out.0[i].path == ws[i].path
  {
    if |ws| == 0 then ([], None)
    else
      var (w1, e) := LineWriters.WriteLine(ws[0], Value(row, cols[0]), env);
      if e.Some? then ([w1] + ws[1..], e)
      else
        var (rest, e2) := WriteFrom(ws[1..], cols[1..], row, env);
        ([w1] + rest, e2)
  }

  /** One turn of the writing loop when the first column's write goes through. */
  lemma WriteFromStep(ws: seq<LineWriter>, cols: seq<string>, row: Row, env: Env)
    requires |ws| == |cols| && |ws| > 0 && !LineWriters.Fails(ws[0], env)
    ensures var rest := WriteFrom(ws[1..], cols[1..], row, env);
            WriteFrom(ws, cols, row, env)
              == ([ws[0].(pending := ws[0].pending + Value(row, cols[0]) + [NL])] + rest.0, rest.1)
  {
  }

  /** The writing loop stops at once when the first column's write fails. */
  lemma WriteFromHalts(ws: seq<LineWriter>, cols: seq<string>, row: Row, env: Env)
    requires |ws| == |cols| && |ws| > 0 && LineWriters.Fails(ws[0], env)
    ensures WriteFrom(ws, cols, row, env) == ([ws[0].(failed := true)] + ws[1..], Some(IoError(Write, ws[0].path)))
  {
  }

  /** No failing column: every column gets its line. */
  lemma {:induction false} WriteFromSucceeds(ws: seq<LineWriter>, cols: seq<string>, row: Row, env: Env)
    requires |ws| == |cols|
    requires forall i :: 0 <= i < |ws| ==> !LineWriters.Fails(ws[i], env)
    ensures WriteFrom(ws, cols, row, env).1.None?
    ensures forall i :: 0 <= i < |ws| ==> WriteFrom(ws, cols, row, env).0[i] == ws[i].(pending := ws[i].pending + Value(row, cols[i]) + [NL])
    decreases |ws|
  {
    if |ws| > 0 {
      assert forall i :: 1 <= i < |ws| ==> ws[i] == ws[1..][i - 1] && cols[i] == cols[1..][i - 1];
      WriteFromSucceeds(ws[1..], cols[1..], row, env);
    }
  }

  /**
   * A failing column `k` (the first one): the columns before it got their
   * line, its writer is marked failed, the columns after it are untouched,
   * and its error is returned.
   */
  lemma {:induction false} WriteFromFails(ws: seq<LineWriter>, cols: seq<string>, row: Row, env: Env, k: nat)
    requires |ws| == |cols| && k < |ws|
    requires LineWriters.Fails(ws[k], env) && forall j :: 0 <= j < k ==> !LineWriters.Fails(ws[j], env)
    ensures WriteFrom(ws, cols, row, env).1 == Some(IoError(Write, ws[k].path))
    ensures forall j :: 0 <= j < k ==> WriteFrom(ws, cols, row, env).0[j] == ws[j].(pending := ws[j].pending + Value(row, cols[j]) + [NL])
    ensures WriteFrom(ws, cols, row, env).0[k] == ws[k].(failed := true)
    ensures forall j :: k < j < |ws| ==> WriteFrom(ws, cols, row, env).0[j] == ws[j]
    decreases |ws|
  {
    if k == 0 {
      WriteFromHalts(ws, cols, row, env);
    } else {
      WriteFromStep(ws, cols, row, env);
      var out := WriteFrom(ws, cols, row, env);
      var rest := WriteFrom(ws[1..], cols[1..], row, env);
      var w1 := ws[0].(pending := ws[0].pending + Value(row, cols[0]) + [NL]);
      assert out.0 == [w1] + rest.0;
      assert ws[1..][k - 1] == ws[k];
      forall j | 0 <= j < k - 1
        ensures !LineWriters.Fails(ws[1..][j], env)
      {
        assert ws[1..][j] == ws[j + 1];
      }
      WriteFromFails(ws[1..], cols[1..], row, env, k - 1);
      forall j | 0 <= j < |ws|
        ensures j < k ==> out.0[j] == ws[j].(pending := ws[j].pending + Value(row, cols[j]) + [NL])
        ensures j == k ==> out.0[j] == ws[j].(failed := true)
        ensures k < j ==> out.0[j] == ws[j]
      {
        if j > 0 {
          assert out.0[j] == rest.0[j - 1];
          assert ws[1..][j - 1] == ws[j] && cols[1..][j - 1] == cols[j];
        }
      }
    }
  }

  /** `WriteRow`: writes the row's value (or an empty line) to every column, in order. */
  function WriteRow(w: ColumnWriter, row: Row, env: Env): (out: (ColumnWriter, Option<Error>))
    requires |w.writers| == |w.cols|
    ensures out.0.cols == w.cols && |out.0.writers| == |w.writers|
    ensures forall i :: 0 <= i < |w.writers| ==> out.0.writers[i].path == w.writers[i].path
    ensures out.1.None? <==> forall i :: 0 <= i < |w.writers| ==> !LineWriters.Fails(w.writers[i], env)
    ensures out.1.None? ==> forall i :: 0 <= i < |w.cols| ==>
              out.0.writers[i] == w.writers[i].(pending := w.writers[i].pending + Value(row, w.cols[i]) + [NL])
    ensures out.1.Some? ==>
              var k := FirstFault(w.writers, env);
              && out.1 == Some(IoError(Write, w.writers[k].path))
              && (forall j :: 0 <= j < k ==> out.0.writers[j] == w.writers[j].(pending := w.writers[j].pending + Value(row, w.cols[j]) + [NL]))
              && out.0.writers[k] == w.writers[k].(failed := true)
              && (forall j :: k < j < |w.cols| ==> out.0.writers[j] == w.writers[j])
  {
    var (ws, e) := WriteFrom(w.writers, w.cols, row, env);
    if forall i :: 0 <= i < |w.writers| ==> !LineWriters.Fails(w.writers[i], env) then
      WriteFromSucceeds(w.writers, w.cols, row, env);
      (ColumnWriter(w.cols, ws), e)
    else
      var k := FirstFault(w.writers, env);
      WriteFromFails(w.writers, w.cols, row, env, k);
      (ColumnWriter(w.cols, ws), e)
  }

  /** The first writer whose writes fail. */
  function FirstFault(ws: seq<LineWriter>, env: Env): (k: nat)
    requires exists i :: 0 <= i < |ws| && LineWriters.Fails(ws[i], env)
    ensures k < |ws| && LineWriters.Fails(ws[k], env)
    ensures forall j :: 0 <= j < k ==> !LineWriters.Fails(ws[j], env)
  {
    if LineWriters.Fails(ws[0], env) then 0
    else
      assert forall i :: 1 <= i < |ws| ==> ws[i] == ws[1..][i - 1];
      1 + FirstFault(ws[1..], env)
  }

  /** Keys of the row that are not columns are ignored. */
  lemma WriteRowIgnoresOtherKeys(w: ColumnWriter, row: Row, env: Env)
    requires |w.writers| == |w.cols|
    ensures WriteRow(w, row, env) == WriteRow(w, map c | c in row && c in w.cols :: row[c], env)
  {
    var row' := map c | c in row && c in w.cols :: row[c];
    assert forall i :: 0 <= i < |w.cols| ==> Value(row, w.cols[i]) == Value(row', w.cols[i]);
    WriteFromRowAgnostic(w.writers, w.cols, row, row', env);
  }

  lemma {:induction false} WriteFromRowAgnostic(ws: seq<LineWriter>, cols: seq<string>, a: Row, b: Row, env: Env)
    requires |ws| == |cols|
    requires forall i :: 0 <= i < |cols| ==> Value(a, cols[i]) == Value(b, cols[i])
    ensures WriteFrom(ws, cols, a, env) == WriteFrom(ws, cols, b, env)
    decreases |ws|
  {
    if |ws| > 0 {
      assert forall i :: 1 <= i < |cols| ==> cols[i] == cols[1..][i - 1];
      WriteFromRowAgnostic(ws[1..], cols[1..], a, b, env);
    }
  }

  /** A sequence of rows, stopping at the first failed row. */
  function WriteRows(w: ColumnWriter, rows: seq<Row>, env: Env): (out: (ColumnWriter, Option<Error>))
    requires |w.writers| == |w.cols|
    decreases |rows|
    ensures out.0.cols == w.cols && |out.0.writers| == |w.writers|
    ensures forall i :: 0 <= i < |w.writers| ==> out.0.writers[i].path == w.writers[i].path
  {
    if |rows| == 0 then (w, None)
    else
      var (w1, e) := WriteRow(w, rows[0], env);
      if e.Some? then (w1, e) else WriteRows(w1, rows[1..], env)
  }

  /** The values of column `c` over some rows. */
  function Column(rows: seq<Row>, c: string): (vs: seq<seq<byte>>)
    ensures |vs| == |rows| && forall k :: 0 <= k < |rows| ==> vs[k] == Value(rows[k], c)
  {
    if |rows| == 0 then [] else [Value(rows[0], c)] + Column(rows[1..], c)
  }

  /** One turn of the row loop when no write fails: every column gets the first row's line. */
  lemma WriteRowsStep(w: ColumnWriter, rows: seq<Row>, env: Env) returns (w1: ColumnWriter)
    requires |w.writers| == |w.cols| && |rows| > 0
    requires forall i :: 0 <= i < |w.writers| ==> !LineWriters.Fails(w.writers[i], env)
    ensures w1.cols == w.cols && |w1.writers| == |w.writers|
    ensures forall i :: 0 <= i < |w.writers| ==> !LineWriters.Fails(w1.writers[i], env)
    ensures forall i :: 0 <= i < |w.cols| ==> w1.writers[i] == w.writers[i].(pending := w.writers[i].pending + Value(rows[0], w.cols[i]) + [NL])
    ensures WriteRows(w, rows, env) == WriteRows(w1, rows[1..], env)
  {
    w1 := WriteRow(w, rows[0], env).0;
  }

  lemma LineThenRest(pending: seq<byte>, line: seq<byte>, rest: seq<byte>)
    ensures (pending + line + [NL]) + rest == pending + (line + [NL] + rest)
  {
  }

  /** A column's stream is the first row's line followed by the stream of the other rows. */
  lemma EncodeColumnCons(rows: seq<Row>, c: string)
    requires |rows| > 0
    ensures LineWriters.Encode(Column(rows, c)) == Value(rows[0], c) + [NL] + LineWriters.Encode(Column(rows[1..], c))
  {
    assert Column(rows, c) == [Value(rows[0], c)] + Column(rows[1..], c);
  }

  /**
   * Alignment: when no write fails, every column's stream grows by the
   * encoding of that column's values, one line per row.
   */
  lemma {:induction false} WriteRowsAligned(w: ColumnWriter, rows: seq<Row>, env: Env)
    requires |w.writers| == |w.cols|
    requires forall i :: 0 <= i < |w.writers| ==> !LineWriters.Fails(w.writers[i], env)
    ensures WriteRows(w, rows, env).1.None?
    ensures forall i :: 0 <= i < |w.cols| ==>
              WriteRows(w, rows, env).0.writers[i] == w.writers[i].(pending := w.writers[i].pending + LineWriters.Encode(Column(rows, w.cols[i])))
    decreases |rows|
  {
    if |rows| > 0 {
      var w1 := WriteRowsStep(w, rows, env);
      WriteRowsAligned(w1, rows[1..], env);
      var out := WriteRows(w1, rows[1..], env).0;
      forall i | 0 <= i < |w.cols|
        ensures out.writers[i] == w.writers[i].(pending := w.writers[i].pending + LineWriters.Encode(Column(rows, w.cols[i])))
      {
        EncodeColumnCons(rows, w.cols[i]);
        LineThenRest(w.writers[i].pending, Value(rows[0], w.cols[i]), LineWriters.Encode(Column(rows[1..], w.cols[i])));
      }
    }
  }

  /** With newline-free values, every column holds exactly one newline per row written. */
  lemma WriteRowsLineCount(w: ColumnWriter, rows: seq<Row>, env: Env, i: nat)
    requires |w.writers| == |w.cols| && i < |w.cols|
    requires forall j :: 0 <= j < |w.writers| ==> !LineWriters.Fails(w.writers[j], env)
    requires w.writers[i].pending == []
    requires forall k :: 0 <= k < |rows| ==> NL !in Value(rows[k], w.cols[i])
    ensures Count(WriteRows(w, rows, env).0.writers[i].pending, NL) == |rows|
  {
    WriteRowsAligned(w, rows, env);
    LineWriters.EncodeNewlines(Column(rows, w.cols[i]));
    assert [] + LineWriters.Encode(Column(rows, w.cols[i])) == LineWriters.Encode(Column(rows, w.cols[i]));
  }

  /** Writers on the same paths hold the same descriptors. */
  lemma {:induction false} PathsSame(a: seq<LineWriter>, b: seq<LineWriter>)
    requires |a| == |b| && forall i :: 0 <= i < |a| ==> a[i].path == b[i].path
    ensures Paths(a) == Paths(b)
  {
    if |a| > 0 {
      PathsSame(a[1..], b[1..]);
    }
  }

  /**
   * A fresh set of column files written with `rows` and closed holds, per
   * column, exactly the encoding of that column's values (the empty value
   * where a row lacks the key) when that column's compressor closes cleanly,
   * and otherwise no whole member, the truncated one keeping none of its
   * payload in the model, in a file that is not intact; closing
   * reports an error exactly when some column's compressor or file fails to
   * close; and every descriptor opened is closed again.
   */
  lemma {:induction false} WriteThenClose(fs: Fs, dir: Path, cols: seq<string>, rows: seq<Row>, env: Env)
    requires dir in fs.dirs
    requires forall i, j :: 0 <= i < j < |cols| ==> cols[i] != cols[j]
    requires forall i :: 0 <= i < |cols| ==>
               var p := ColumnPath(dir, cols[i]);
               p !in fs.dirs && p !in fs.files
               && (OpenAppend, p) !in env.faults && (NewCompressor, p) !in env.faults && (Write, p) !in env.faults
    ensures var (fs1, w) := NewColumnWriter(fs, dir, cols, env);
            w.Ok?
            && var (w2, e) := WriteRows(w.value, rows, env);
               e.None?
               && var (fs2, e2) := Close(fs1, w2, env);
                  fs2.handles == fs.handles
                  && (e2.None? <==> forall i :: 0 <= i < |cols| ==>
                        (CloseStream, ColumnPath(dir, cols[i])) !in env.faults && (CloseFile, ColumnPath(dir, cols[i])) !in env.faults)
                  && forall i :: 0 <= i < |cols| ==>
                       var p := ColumnPath(dir, cols[i]);
                       p in fs2.files
                       && fs2.files[p].payload == (if (CloseStream, p) !in env.faults then LineWriters.Encode(Column(rows, cols[i])) else [])
                       && (fs2.files[p].intact <==> (CloseStream, p) !in env.faults)
                       && ((CloseStream, p) !in env.faults ==> fs2.files[p].csize >= GzipFraming)
  {
    assert CanOpenAll(fs, dir, cols, env);
    var (fs1, w) := NewColumnWriter(fs, dir, cols, env);
    var (w2, e) := WriteRows(w.value, rows, env);
    WrittenPending(fs, dir, cols, rows, env);
    CloseColumns(fs1, dir, cols, rows, w2, env);
    PathsSame(w.value.writers, w2.writers);
    AcquireThenRelease(fs.handles, Paths(w2.writers));
  }

  /** Descriptors opened and then released again leave the table as it was. */
  lemma AcquireThenRelease(h: multiset<Path>, m: multiset<Path>)
    ensures (h + m) - m == h
  {
    assert forall q :: ((h + m) - m)[q] == h[q];
  }

  /**
   * Closing writers that hold each column's encoding over empty files leaves
   * exactly that encoding where the compressor closes cleanly, and reports an
   * error exactly when some compressor or file fails to close.
   */
  lemma CloseColumns(fs1: Fs, dir: Path, cols: seq<string>, rows: seq<Row>, w2: ColumnWriter, env: Env)
    requires forall i, j :: 0 <= i < j < |cols| ==> cols[i] != cols[j]
    requires |w2.writers| == |cols|
    requires forall i :: 0 <= i < |cols| ==>
               var p := ColumnPath(dir, cols[i]);
               w2.writers[i].path == p && !w2.writers[i].failed
               && p in fs1.files && fs1.files[p].payload == [] && fs1.files[p].intact
               && w2.writers[i].pending == LineWriters.Encode(Column(rows, cols[i]))
    ensures var (fs2, e2) := Close(fs1, w2, env);
            && (e2.None? <==> forall i :: 0 <= i < |cols| ==>
                  (CloseStream, ColumnPath(dir, cols[i])) !in env.faults && (CloseFile, ColumnPath(dir, cols[i])) !in env.faults)
            && forall i :: 0 <= i < |cols| ==>
                 var p := ColumnPath(dir, cols[i]);
                 p in fs2.files
                 && fs2.files[p].payload == (if (CloseStream, p) !in env.faults then LineWriters.Encode(Column(rows, cols[i])) else [])
                 && (fs2.files[p].intact <==> (CloseStream, p) !in env.faults)
                 && ((CloseStream, p) !in env.faults ==> fs2.files[p].csize >= GzipFraming)
  {
    var ws := w2.writers;
    DistinctPaths(dir, cols, ws);
    CloseFilesPersists(fs1, ws, env);
    var fs2 := Close(fs1, w2, env).0;
    forall i | 0 <= i < |cols|
      ensures var p := ColumnPath(dir, cols[i]);
              fs2.files[p].payload == (if (CloseStream, p) !in env.faults then LineWriters.Encode(Column(rows, cols[i])) else [])
    {
      assert ClosedInto(fs1.files, fs2.files, ws[i], env);
      assert [] + LineWriters.Encode(Column(rows, cols[i])) == LineWriters.Encode(Column(rows, cols[i]));
    }
  }

  /** Distinct columns live in distinct files. */
  lemma {:induction false} DistinctPaths(dir: Path, cols: seq<string>, ws: seq<LineWriter>)
    requires forall i, j :: 0 <= i < j < |cols| ==> cols[i] != cols[j]
    requires |ws| == |cols| && forall i :: 0 <= i < |cols| ==> ws[i].path == ColumnPath(dir, cols[i])
    ensures forall i, j :: 0 <= i < j < |ws| ==> ws[i].path != ws[j].path
  {
    forall i, j | 0 <= i < j < |ws|
      ensures ws[i].path != ws[j].path
    {
      if ws[i].path == ws[j].path {
        ColumnPathInjective(dir, cols[i], cols[j]);
      }
    }
  }

  /** Before closing, each fresh column file is empty and its writer holds the column's encoding. */
  lemma {:induction false} WrittenPending(fs: Fs, dir: Path, cols: seq<string>, rows: seq<Row>, env: Env)
    requires CanOpenAll(fs, dir, cols, env)
    requires forall i :: 0 <= i < |cols| ==>
               var p := ColumnPath(dir, cols[i]);
               p !in fs.files && (Write, p) !in env.faults
    ensures var (fs1, w) := NewColumnWriter(fs, dir, cols, env);
            var (w2, e) := WriteRows(w.value, rows, env);
            e.None? && |w2.writers| == |cols|
            && forall i :: 0 <= i < |cols| ==>
                 var p := ColumnPath(dir, cols[i]);
                 w2.writers[i].path == p && !w2.writers[i].failed
                 && p in fs1.files && fs1.files[p].payload == [] && fs1.files[p].intact
                 && w2.writers[i].pending == LineWriters.Encode(Column(rows, cols[i]))
  {
    var (fs1, w) := NewColumnWriter(fs, dir, cols, env);
    NewColumnWriterCreates(fs, dir, cols, env);
    WriteRowsAligned(w.value, rows, env);
    forall i | 0 <= i < |cols|
      ensures [] + LineWriters.Encode(Column(rows, cols[i])) == LineWriters.Encode(Column(rows, cols[i]))
    {
    }
  }
}

=== FILE: errors.dfy ===
/**
 * The error values the core produces or passes on, and the "remember the
 * last non-nil error" aggregation every Close in the package performs.
 */
module Errors {
  import opened Wrappers
  import opened Bytes

  /** A file-system path, one component per element (`filepath.Join` is concatenation). */
  type Path = seq<string>

  /** The file-system operations whose failure the model distinguishes. */
  datatype Op =
    | Mkdir
    | ReadDir
    | Stat
    | OpenAppend
    | OpenRead
    | NewCompressor
    | NewDecompressor
    | Write
    | CloseStream
    | CloseFile

  datatype Error =
    | IoError(op: Op, path: Path)   // a storage error
    | FileClosed(path: Path)        // os.ErrClosed: "file already closed"
    | NoHost(key: seq<byte>)        // routing error: no host found by the fallback regexp
    | SuffixError(host: seq<byte>)  // routing error reported by the public-suffix parser
    | BadRecord(index: nat)         // a JSON record that failed to decode

  /**
   * `for ... { if e != nil { err = e } }`: walks the errors in order and keeps
   * the latest non-nil one seen so far, starting from `acc`.
   */
  function LastErrorFrom<E>(errs: seq<Option<E>>, acc: Option<E>): (r: Option<E>)
    ensures r.None? <==> acc.None? && forall i :: 0 <= i < |errs| ==> errs[i].None?
    ensures r.Some? && (exists i :: 0 <= i < |errs| && errs[i].Some?) ==>
              exists i :: 0 <= i < |errs| && errs[i] == r && forall j :: i < j < |errs| ==> errs[j].None?
    ensures (forall i :: 0 <= i < |errs| ==> errs[i].None?) ==> r == acc
  {
    if |errs| == 0 then acc
    else
      var r := LastErrorFrom(errs[1..], if errs[0].Some? then errs[0] else acc);
      assert forall i :: 1 <= i < |errs| ==> errs[i] == errs[1..][i - 1];
      r
  }

  /** The last non-nil error of a sequence of attempts, nil when all succeeded. */
  function LastError<E>(errs: seq<Option<E>>): (r: Option<E>)
    ensures r.None? <==> forall i :: 0 <= i < |errs| ==> errs[i].None?
    ensures r.Some? ==> exists i :: 0 <= i < |errs| && errs[i] == r && forall j :: i < j < |errs| ==> errs[j].None?
  {
    LastErrorFrom(errs, None)
  }
}

=== FILE: filesystem.dfy ===
/**
 * An abstract file system: directories with their listings in directory
 * order, files holding a decompressed payload plus the size of the
 * compressed file on disk, and the open file handles. Which operations fail
 * is an environment input.
 */
module FileSystem {
  import opened Wrappers
  import opened Bytes
  import opened Errors

  /**
   * A column file: `payload` is what a gzip reader yields from the file's
   * whole members (their payloads concatenated), `csize` the compressed size
   * `os.Stat` reports, and `intact` whether every member is whole: a writer
   * whose close failed leaves a member without its final block and trailer.
   */
  datatype File = File(payload: seq<byte>, csize: nat, intact: bool)

  /** A file just created by opening it for appending. */
  const EmptyFile: File := File([], 0, true)

  /** `handles` counts the open descriptors per path, so leaks are observable. */
  datatype Fs = Fs(dirs: map<Path, seq<string>>, files: map<Path, File>, handles: multiset<Path>)

  /**
   * Bytes every gzip member the column writers emit carries besides its
   * deflate data: the 10-byte header, the "Written by giashard" comment with
   * its terminating zero, and the 8-byte trailer (section 2.3 of RFC 1952).
   */
  const GzipFraming: nat := 10 + 20 + 8

  /**
   * The environment: the operations that fail on a given path, the size of
   * the deflate data a compressor emits for a given payload, and how much of
   * it reaches the file when the compressor's close fails.
   */
  datatype Env = Env(faults: set<(Op, Path)>, memberSize: seq<byte> -> nat, partialSize: seq<byte> -> nat)

  function Fault(env: Env, op: Op, p: Path): (e: Option<Error>)
    ensures e.None? <==> (op, p) !in env.faults
    ensures e.Some? ==> e.value == IoError(op, p)
  {
    if (op, p) in env.faults then Some(IoError(op, p)) else None
  }

  function Parent(p: Path): Path
    requires |p| > 0
  {
    p[..|p| - 1]
  }

  function Base(p: Path): string
    requires |p| > 0
  {
    p[|p| - 1]
  }

  /** Records a new entry `p` in its parent's listing. */
  function AddEntry(dirs: map<Path, seq<string>>, p: Path): (d: map<Path, seq<string>>)
    requires |p| > 0
    ensures d.Keys == dirs.Keys + {Parent(p)}
    ensures forall q :: q in dirs && q != Parent(p) ==> d[q] == dirs[q]
  {
    var listing := if Parent(p) in dirs then dirs[Parent(p)] else [];
    dirs[Parent(p) := listing + [Base(p)]]
  }

  /** `os.MkdirAll`: succeeds at once on an existing directory, fails on a file. */
  function MkdirAll(fs: Fs, p: Path, env: Env): (r: Result<Fs, Error>)
    decreases |p|
    ensures r.Ok? ==> p in r.value.dirs && r.value.files == fs.files && r.value.handles == fs.handles
    ensures r.Ok? ==> forall q :: q in fs.dirs ==> q in r.value.dirs && fs.dirs[q] <= r.value.dirs[q]
    ensures p in fs.dirs ==> r == Ok(fs)
    ensures p in fs.files && p !in fs.dirs ==> r.Err?
  {
    if p in fs.dirs then Ok(fs)
    else if p in fs.files || (Mkdir, p) in env.faults || |p| == 0 then Err(IoError(Mkdir, p))
    else
      var up :- MkdirAll(fs, Parent(p), env);
      if p in up.dirs then Ok(up)
      else Ok(up.(dirs := AddEntry(up.dirs, p)[p := []]))
  }

  /** `os.Open(dir)` then `Readdir(-1)`: the entry names in directory order. */
  function ListDir(fs: Fs, p: Path, env: Env): (r: Result<seq<string>, Error>)
    ensures r.Ok? <==> p in fs.dirs && (ReadDir, p) !in env.faults
    ensures r.Ok? ==> r.value == fs.dirs[p]
  {
    if p in fs.dirs && (ReadDir, p) !in env.faults then Ok(fs.dirs[p]) else Err(IoError(ReadDir, p))
  }

  /** `os.Stat(p).Size()` of a file: its compressed size. */
  function StatFile(fs: Fs, p: Path, env: Env): (r: Result<nat, Error>)
    ensures r.Ok? <==> p in fs.files && (Stat, p) !in env.faults
    ensures r.Ok? ==> r.value == fs.files[p].csize
  {
    if p in fs.files && (Stat, p) !in env.faults then Ok(fs.files[p].csize) else Err(IoError(Stat, p))
  }

  /**
   * `os.OpenFile(p, O_APPEND|O_CREATE|O_WRONLY)`: needs the parent directory,
   * refuses a directory, creates a missing file empty, keeps an existing one.
   */
  function OpenForAppend(fs: Fs, p: Path, env: Env): (r: Result<Fs, Error>)
    ensures r.Ok? <==> |p| > 0 && Parent(p) in fs.dirs && p !in fs.dirs && (OpenAppend, p) !in env.faults
    ensures r.Ok? ==> r.value.files.Keys == fs.files.Keys + {p} && r.value.dirs.Keys == fs.dirs.Keys
    ensures r.Ok? ==> r.value.handles == fs.handles + multiset{p}
    ensures r.Ok? ==> forall q :: q in fs.files ==> q in r.value.files && r.value.files[q] == fs.files[q]
    ensures r.Ok? && p !in fs.files ==> r.value.files[p] == EmptyFile
  {
    if |p| == 0 || Parent(p) !in fs.dirs || p in fs.dirs || (OpenAppend, p) in env.faults then
      Err(IoError(OpenAppend, p))
    else if p in fs.files then Ok(Acquire(fs, p))
    else Ok(Fs(AddEntry(fs.dirs, p), fs.files[p := EmptyFile], fs.handles + multiset{p}))
  }

  /** A descriptor on `p` is opened. */
  function Acquire(fs: Fs, p: Path): (fs': Fs)
    ensures fs'.dirs == fs.dirs && fs'.files == fs.files
    ensures fs'.handles[p] == fs.handles[p] + 1
    ensures forall q :: q != p ==> fs'.handles[q] == fs.handles[q]
  {
    fs.(handles := fs.handles + multiset{p})
  }

  /** A descriptor on `p` is closed; closing is attempted even when it reports an error. */
  function Release(fs: Fs, p: Path): (fs': Fs)
    ensures fs'.dirs == fs.dirs && fs'.files == fs.files
    ensures fs.handles[p] > 0 ==> fs'.handles[p] == fs.handles[p] - 1
    ensures forall q :: q != p ==> fs'.handles[q] == fs.handles[q]
  {
    fs.(handles := fs.handles - multiset{p})
  }

  lemma ReleaseAcquire(fs: Fs, p: Path)
    ensures Release(Acquire(fs, p), p) == fs
  {
    assert Release(Acquire(fs, p), p).handles == fs.handles;
  }

  /** `os.Open(p)` for reading, followed by reading the whole decompressed payload. */
  function OpenForRead(fs: Fs, p: Path, env: Env): (r: Result<File, Error>)
    ensures r.Ok? <==> p in fs.files && (OpenRead, p) !in env.faults
    ensures r.Ok? ==> r.value == fs.files[p]
  {
    if p in fs.files && (OpenRead, p) !in env.faults then Ok(fs.files[p]) else Err(IoError(OpenRead, p))
  }

  /**
   * Closing a gzip writer appends one member holding `data` to the file:
   * the payload grows by `data`, the compressed size by the member's size.
   */
  function AppendMember(fs: Fs, p: Path, data: seq<byte>, env: Env): (fs': Fs)
    ensures fs'.dirs == fs.dirs && fs'.handles == fs.handles
    ensures p in fs'.files && fs'.files.Keys == fs.files.Keys + {p}
    ensures fs'.files[p].csize >= GzipFraming
    ensures p in fs.files ==> fs'.files[p].payload == fs.files[p].payload + data
    ensures p !in fs.files ==> fs'.files[p].payload == data
    ensures fs'.files[p].intact == (p !in fs.files || fs.files[p].intact)
    ensures forall q :: q in fs.files && q != p ==> fs'.files[q] == fs.files[q]
  {
    var old_ := if p in fs.files then fs.files[p] else EmptyFile;
    fs.(files := fs.files[p := old_.(payload := old_.payload + data, csize := old_.csize + GzipFraming + env.memberSize(data))])
  }

  /**
   * A gzip writer whose close fails leaves a truncated member: the whole
   * members' payload is unchanged (the model keeps none of the truncated
   * member's payload), the file grows by whatever part of the member got
   * out, and it is no longer intact.
   */
  function AppendTruncated(fs: Fs, p: Path, data: seq<byte>, env: Env): (fs': Fs)
    ensures fs'.dirs == fs.dirs && fs'.handles == fs.handles
    ensures p in fs'.files && fs'.files.Keys == fs.files.Keys + {p}
    ensures fs'.files[p].payload == (if p in fs.files then fs.files[p].payload else [])
    ensures !fs'.files[p].intact
    ensures forall q :: q in fs.files && q != p ==> fs'.files[q] == fs.files[q]
  {
    var old_ := if p in fs.files then fs.files[p] else EmptyFile;
    fs.(files := fs.files[p := old_.(csize := old_.csize + env.partialSize(data), intact := false)])
  }

  /**
   * The error a `Close` of a line reader reports: it closes the
   * decompressor and then the file, attempts both, and keeps the last error,
   * so the file's close error wins over the stream's.
   */
  function CloseError(env: Env, p: Path): (err: Option<Error>)
    ensures err.None? <==> (CloseStream, p) !in env.faults && (CloseFile, p) !in env.faults
    ensures (CloseFile, p) in env.faults ==> err == Some(IoError(CloseFile, p))
    ensures (CloseFile, p) !in env.faults && (CloseStream, p) in env.faults ==> err == Some(IoError(CloseStream, p))
  {
    var errs := [Fault(env, CloseStream, p), Fault(env, CloseFile, p)];
    assert errs[1..] == [errs[1]] && errs[1..][1..] == [];
    LastError(errs)
  }
}

=== FILE: fnv.dfy ===
/**
 * The 64-bit FNV-1 hash of Go's `hash/fnv.New64`: per byte, multiply by the
 * prime modulo 2^64, then XOR the byte into the low eight bits.
 */
module Fnv {
  import opened Bytes

  const Offset64: nat := 14695981039346656037
  const Prime64: nat := 1099511628211
  const Two64: nat := 0x1_0000_0000_0000_0000

  /** Bit `d` (a power of two) of `a`. */
  function Bit(a: nat, d: nat): nat
    requires d > 0
  {
    (a / d) % 2
  }

  /** `d` when `a` and `b` differ in bit `d`, else 0. */
  function Differ(a: nat, b: nat, d: nat): nat
    requires d > 0
  {
    if Bit(a, d) == Bit(b, d) then 0 else d
  }

  /** Exclusive or of two bytes, bit by bit. */
  function XorByte(a: byte, b: byte): byte
  {
    Differ(a, b, 1) + Differ(a, b, 2) + Differ(a, b, 4) + Differ(a, b, 8)
    + Differ(a, b, 16) + Differ(a, b, 32) + Differ(a, b, 64) + Differ(a, b, 128)
  }

  /** `h ^ uint64(b)`: only the low byte of `h` changes. */
  function XorLow(h: nat, b: byte): (r: nat)
    requires h < Two64
    ensures r < Two64
    ensures r / 256 == h / 256 && r % 256 == XorByte(h % 256, b)
  {
    (h / 256) * 256 + XorByte(h % 256, b)
  }

  /** The hash state after absorbing `data` from state `h`. */
  function HashFrom(h: nat, data: seq<byte>): (r: nat)
    requires h < Two64
    ensures r < Two64
    decreases |data|
  {
    if |data| == 0 then h else HashFrom(XorLow((h * Prime64) % Two64, data[0]), data[1..])
  }

  /** `fnv.New64()`, `Write(data)`, `Sum64()`. */
  function Fnv64(data: seq<byte>): (r: nat)
    ensures r < Two64
    ensures |data| == 0 ==> r == Offset64
    ensures r % 256 == LowByteFrom(0x25, data)
  {
    OffsetLowByte(data);
    HashFrom(Offset64, data)
  }

  /** The 8-bit recurrence of the hash starts from 0x25, the offset basis's low byte. */
  lemma OffsetLowByte(data: seq<byte>)
    ensures HashFrom(Offset64, data) % 256 == LowByteFrom(0x25, data)
  {
    ShiftMod(57406175934947875, 0x25);
    LowByteAt(Offset64, 0x25, data);
  }

  /** `LowByte` with the starting low byte named. */
  lemma LowByteAt(h: nat, l: byte, data: seq<byte>)
    requires h < Two64 && h % 256 == l
    ensures HashFrom(h, data) % 256 == LowByteFrom(l, data)
  {
    LowByte(h, data);
  }

  /**
   * The low byte on its own: it starts at 0x25 (the offset basis's low byte)
   * and each byte multiplies it by 0xB3 (the prime's low byte) modulo 256
   * before the XOR.
   */
  function LowByteFrom(l: byte, data: seq<byte>): byte
    decreases |data|
  {
    if |data| == 0 then l else LowByteFrom(LowStep(l, data[0]), data[1..])
  }

  /** One step of the 8-bit recurrence. */
  function LowStep(l: byte, b: byte): byte
  {
    XorByte((l * 0xB3) % 256, b)
  }

  /** The low byte of a product modulo 2^64 depends only on the factors' low bytes. */
  lemma MulLowByte(h: nat)
    ensures ((h * Prime64) % Two64) % 256 == ((h % 256) * 0xB3) % 256
  {
    var x := h * Prime64;
    ShiftMod(x / Two64 * 0x100_0000_0000_0000, x % Two64);
    var hq := h / 256;
    var hr := h % 256;
    assert Prime64 == 256 * 4294967297 + 0xB3;
    assert x == 256 * (hq * Prime64 + hr * 4294967297) + hr * 0xB3;
    ShiftMod(hq * Prime64 + hr * 4294967297, hr * 0xB3);
  }

  /** Adding a multiple of 256 leaves the low byte alone. */
  lemma ShiftMod(k: int, m: int)
    ensures (256 * k + m) % 256 == m % 256
  {
  }

  /** The low byte of the hash is computed by the 8-bit recurrence. */
  lemma {:induction false} LowByte(h: nat, data: seq<byte>)
    requires h < Two64
    ensures HashFrom(h, data) % 256 == LowByteFrom(h % 256, data)
    decreases |data|
  {
    if |data| > 0 {
      var h' := XorLow((h * Prime64) % Two64, data[0]);
      MulLowByte(h);
      LowByte(h', data[1..]);
    }
  }

  /** The 8-bit recurrence over a concatenation continues from its state after the first part. */
  lemma {:induction false} LowByteFromAppend(l: byte, a: seq<byte>, b: seq<byte>)
    ensures LowByteFrom(l, a + b) == LowByteFrom(LowByteFrom(l, a), b)
    decreases |a|
  {
    if |a| == 0 {
      assert a + b == b;
    } else {
      assert (a + b)[1..] == a[1..] + b;
      LowByteFromAppend(LowStep(l, a[0]), a[1..], b);
    }
  }

  /** Hashing a concatenation continues from the hash of the first part. */
  lemma {:induction false} HashFromAppend(h: nat, a: seq<byte>, b: seq<byte>)
    requires h < Two64
    ensures HashFrom(h, a + b) == HashFrom(HashFrom(h, a), b)
    decreases |a|
  {
    if |a| == 0 {
      assert a + b == b;
    } else {
      assert (a + b)[1..] == a[1..] + b;
      HashFromAppend(XorLow((h * Prime64) % Two64, a[0]), a[1..], b);
    }
  }
}

=== FILE: fnvvectors.dfy ===
/**
 * Known hash values, checked one FNV-1 step at a time: each step of the
 * 8-bit recurrence is its own lemma so that the solver evaluates one
 * multiplication and one XOR at a time.
 */
module FnvVectors {
  import opened Bytes
  import opened Fnv

  /** Unrolls one step of the 8-bit recurrence. */
  lemma LowByteFromStep(l: byte, b: byte, rest: seq<byte>, r: byte)
    requires LowStep(l, b) == r
    ensures LowByteFrom(l, [b] + rest) == LowByteFrom(r, rest)
  {
    assert ([b] + rest)[1..] == rest;
  }

  /** The low byte of FNV-1 64 of "reddit" is 249. */
  lemma RedditLowByte()
    ensures LowByteFrom(0x25, Ascii("reddit")) == 249
  {
    assert Ascii("reddit") == [114, 101, 100, 100, 105, 116];
    RedditStep0();
    RedditStep1();
    RedditStep2();
    RedditStep3();
    RedditStep4();
    RedditStep5();
  }

  lemma RedditStep0()
    ensures LowByteFrom(37, [114, 101, 100, 100, 105, 116]) == LowByteFrom(173, [101, 100, 100, 105, 116])
  {
    LowByteFromStep(37, 114, [101, 100, 100, 105, 116], 173);
  }

  lemma RedditStep1()
    ensures LowByteFrom(173, [101, 100, 100, 105, 116]) == LowByteFrom(146, [100, 100, 105, 116])
  {
    LowByteFromStep(173, 101, [100, 100, 105, 116], 146);
  }

  lemma RedditStep2()
    ensures LowByteFrom(146, [100, 100, 105, 116]) == LowByteFrom(114, [100, 105, 116])
  {
    LowByteFromStep(146, 100, [100, 105, 116], 114);
  }

  lemma RedditStep3()
    ensures LowByteFrom(114, [100, 105, 116]) == LowByteFrom(210, [105, 116])
  {
    LowByteFromStep(114, 100, [105, 116], 210);
  }

  lemma RedditStep4()
    ensures LowByteFrom(210, [105, 116]) == LowByteFrom(191, [116])
  {
    LowByteFromStep(210, 105, [116], 191);
  }

  lemma RedditStep5()
    ensures LowByteFrom(191, [116]) == LowByteFrom(249, [])
  {
    LowByteFromStep(191, 116, [], 249);
  }

  /** The low byte of FNV-1 64 of "tulas-handy-charts" is 179. */
  lemma TulasLowByte()
    ensures LowByteFrom(0x25, Ascii("tulas-handy-charts")) == 179
  {
    assert Ascii("tulas-handy-charts") == [116, 117, 108, 97, 115, 45, 104, 97, 110, 100, 121, 45, 99, 104, 97, 114, 116, 115];
    TulasStep0();
    TulasStep1();
    TulasStep2();
    TulasStep3();
    TulasStep4();
    TulasStep5();
    TulasStep6();
    TulasStep7();
    TulasStep8();
    TulasStep9();
    TulasStep10();
    TulasStep11();
    TulasStep12();
    TulasStep13();
    TulasStep14();
    TulasStep15();
    TulasStep16();
    TulasStep17();
  }

  lemma TulasStep0()
    ensures LowByteFrom(37, [116, 117, 108, 97, 115, 45, 104, 97, 110, 100, 121, 45, 99, 104, 97, 114, 116, 115]) == LowByteFrom(171, [117, 108, 97, 115, 45, 104, 97, 110, 100, 121, 45, 99, 104, 97, 114, 116, 115])
  {
    LowByteFromStep(37, 116, [117, 108, 97, 115, 45, 104, 97, 110, 100, 121, 45, 99, 104, 97, 114, 116, 115], 171);
  }

  lemma TulasStep1()
    ensures LowByteFrom(171, [117, 108, 97, 115, 45, 104, 97, 110, 100, 121, 45, 99, 104, 97, 114, 116, 115]) == LowByteFrom(228, [108, 97, 115, 45, 104, 97, 110, 100, 121, 45, 99, 104, 97, 114, 116, 115])
  {
    LowByteFromStep(171, 117, [108, 97, 115, 45, 104, 97, 110, 100, 121, 45, 99, 104, 97, 114, 116, 115], 228);
  }

  lemma TulasStep2()
    ensures LowByteFrom(228, [108, 97, 115, 45, 104, 97, 110, 100, 121, 45, 99, 104, 97, 114, 116, 115]) == LowByteFrom(0, [97, 115, 45, 104, 97, 110, 100, 121, 45, 99, 104, 97, 114, 116, 115])
  {
    LowByteFromStep(228, 108, [97, 115, 45, 104, 97, 110, 100, 121, 45, 99, 104, 97, 114, 116, 115], 0);
  }

  lemma TulasStep3()
    ensures LowByteFrom(0, [97, 115, 45, 104, 97, 110, 100, 121, 45, 99, 104, 97, 114, 116, 115]) == LowByteFrom(97, [115, 45, 104, 97, 110, 100, 121, 45, 99, 104, 97, 114, 116, 115])
  {
    LowByteFromStep(0, 97, [115, 45, 104, 97, 110, 100, 121, 45, 99, 104, 97, 114, 116, 115], 97);
  }

  lemma TulasStep4()
    ensures LowByteFrom(97, [115, 45, 104, 97, 110, 100, 121, 45, 99, 104, 97, 114, 116, 115]) == LowByteFrom(160, [45, 104, 97, 110, 100, 121, 45, 99, 104, 97, 114, 116, 115])
  {
    LowByteFromStep(97, 115, [45, 104, 97, 110, 100, 121, 45, 99, 104, 97, 114, 116, 115], 160);
  }

  lemma TulasStep5()
    ensures LowByteFrom(160, [45, 104, 97, 110, 100, 121, 45, 99, 104, 97, 114, 116, 115]) == LowByteFrom(205, [104, 97, 110, 100, 121, 45, 99, 104, 97, 114, 116, 115])
  {
    LowByteFromStep(160, 45, [104, 97, 110, 100, 121, 45, 99, 104, 97, 114, 116, 115], 205);
  }

  lemma TulasStep6()
    ensures LowByteFrom(205, [104, 97, 110, 100, 121, 45, 99, 104, 97, 114, 116, 115]) == LowByteFrom(63, [97, 110, 100, 121, 45, 99, 104, 97, 114, 116, 115])
  {
    LowByteFromStep(205, 104, [97, 110, 100, 121, 45, 99, 104, 97, 114, 116, 115], 63);
  }

  lemma TulasStep7()
    ensures LowByteFrom(63, [97, 110, 100, 121, 45, 99, 104, 97, 114, 116, 115]) == LowByteFrom(108, [110, 100, 121, 45, 99, 104, 97, 114, 116, 115])
  {
    LowByteFromStep(63, 97, [110, 100, 121, 45, 99, 104, 97, 114, 116, 115], 108);
  }

  lemma TulasStep8()
    ensures LowByteFrom(108, [110, 100, 121, 45, 99, 104, 97, 114, 116, 115]) == LowByteFrom(234, [100, 121, 45, 99, 104, 97, 114, 116, 115])
  {
    LowByteFromStep(108, 110, [100, 121, 45, 99, 104, 97, 114, 116, 115], 234);
  }

  lemma TulasStep9()
    ensures LowByteFrom(234, [100, 121, 45, 99, 104, 97, 114, 116, 115]) == LowByteFrom(250, [121, 45, 99, 104, 97, 114, 116, 115])
  {
    LowByteFromStep(234, 100, [121, 45, 99, 104, 97, 114, 116, 115], 250);
  }

  lemma TulasStep10()
    ensures LowByteFrom(250, [121, 45, 99, 104, 97, 114, 116, 115]) == LowByteFrom(183, [45, 99, 104, 97, 114, 116, 115])
  {
    LowByteFromStep(250, 121, [45, 99, 104, 97, 114, 116, 115], 183);
  }

  lemma TulasStep11()
    ensures LowByteFrom(183, [45, 99, 104, 97, 114, 116, 115]) == LowByteFrom(216, [99, 104, 97, 114, 116, 115])
  {
    LowByteFromStep(183, 45, [99, 104, 97, 114, 116, 115], 216);
  }

  lemma TulasStep12()
    ensures LowByteFrom(216, [99, 104, 97, 114, 116, 115]) == LowByteFrom(107, [104, 97, 114, 116, 115])
  {
    LowByteFromStep(216, 99, [104, 97, 114, 116, 115], 107);
  }

  lemma TulasStep13()
    ensures LowByteFrom(107, [104, 97, 114, 116, 115]) == LowByteFrom(185, [97, 114, 116, 115])
  {
    LowByteFromStep(107, 104, [97, 114, 116, 115], 185);
  }

  lemma TulasStep14()
    ensures LowByteFrom(185, [97, 114, 116, 115]) == LowByteFrom(58, [114, 116, 115])
  {
    LowByteFromStep(185, 97, [114, 116, 115], 58);
  }

  lemma TulasStep15()
    ensures LowByteFrom(58, [114, 116, 115]) == LowByteFrom(252, [116, 115])
  {
    LowByteFromStep(58, 114, [116, 115], 252);
  }

  lemma TulasStep16()
    ensures LowByteFrom(252, [116, 115]) == LowByteFrom(64, [115])
  {
    LowByteFromStep(252, 116, [115], 64);
  }

  lemma TulasStep17()
    ensures LowByteFrom(64, [115]) == LowByteFrom(179, [])
  {
    LowByteFromStep(64, 115, [], 179);
  }
}

=== FILE: health.dfy ===
/**
 * The shard health verdict of the statistics tool: a handful of pass/fail
 * tests over a shard's statistics, and the share of them that passed
 * (kept as the pair passed, total rather than a 32-bit float).
 */
module Health {
  import opened Stats
  import opened Errors
  import opened FileSystem

  datatype HealthTest = HealthTest(description: string, status: bool)

  /** The names the verdict is keyed by. */
  datatype TestName = Translated | Tokenised | Records | SentenceCount | TranslationCount | TokenisedCount

  /** The key each test has in the verdict's JSON/YAML form. */
  function Key(t: TestName): (k: string)
    ensures |k| > 0
  {
    match t
    case Translated => "translated"
    case Tokenised => "tokenised"
    case Records => "records"
    case SentenceCount => "sentence_count"
    case TranslationCount => "translation_count"
    case TokenisedCount => "tokenised_count"
  }

  type Verdict = map<TestName, HealthTest>

  datatype ShardHealth = ShardHealth(passed: nat, total: nat, tests: Verdict)

  /** A comma-ok lookup that found a non-negative value. */
  predicate Present(m: map<string, int>, k: string)
  {
    k in m && m[k] >= 0
  }

  // ------------------------------------------------------------- step one

  /** Step one: the five basic column files were found with a non-negative size. */
  function BasicFilesFound(bytes: map<string, int>): (found: bool)
    ensures found <==> forall f :: f in BasicFiles ==> Present(bytes, f)
  {
    Present(bytes, "mime.gz") && Present(bytes, "plain_text.gz") && Present(bytes, "sentences.gz")
    && Present(bytes, "source.gz") && Present(bytes, "url.gz")
  }

  const BasicFiles: seq<string> := ["mime.gz", "plain_text.gz", "sentences.gz", "source.gz", "url.gz"]

  // ------------------------------------------------------------- step two

  /** A shard is English when its translated sentences are absent or empty. */
  predicate IsEnglish(bytes: map<string, int>)
  {
    !("sentences_en.gz" in bytes && bytes["sentences_en.gz"] > 0)
  }

  /**
   * Step two's "tokenised" test: a translated shard needs its English
   * tokens, an English shard its native ones.
   */
  function TokenisedTest(bytes: map<string, int>): (t: HealthTest)
    ensures !IsEnglish(bytes) ==> (t.status <==> Present(bytes, "tokenised_en.gz"))
    ensures IsEnglish(bytes) ==> (t.status <==> Present(bytes, "tokenised.gz"))
  {
    var found := if IsEnglish(bytes) then Present(bytes, "tokenised.gz") else Present(bytes, "tokenised_en.gz");
    HealthTest("Tokenisation is present", found)
  }

  /** Step two's "translated" test, present only for a translated shard. */
  const TranslatedTest: HealthTest := HealthTest("Translation is present", true)

  // ----------------------------------------------------------- step three

  /**
   * Step three: fails when the URL column's record count is absent or
   * negative, otherwise passes when every positive count equals it.
   */
  function RecordsTest(records: map<string, int>): (t: HealthTest)
    ensures t.status <==> Present(records, "url.gz")
                          && forall f :: f in records && records[f] > 0 ==> records[f] == records["url.gz"]
  {
    if "url.gz" !in records || records["url.gz"] < 0 then
      HealthTest("URL column corrupt or missing. This is bad", false)
    else
      HealthTest("Number of records matches", AllMatch(records, records["url.gz"]))
  }

  /** No positive count differs from `n`. */
  predicate AllMatch(records: map<string, int>, n: int)
  {
    forall f :: f in records && records[f] > 0 ==> records[f] == n
  }

  /** The loop over the counts, in whatever order the map yields them. */
  function MatchFrom(ok: bool, counts: seq<int>, n: int): bool
    decreases |counts|
  {
    if |counts| == 0 then ok
    else MatchFrom(ok && !(counts[0] > 0 && counts[0] != n), counts[1..], n)
  }

  /** The loop computes `AllMatch` whatever order it visits the counts in. */
  lemma {:induction false} MatchLoop(records: map<string, int>, counts: seq<int>, n: int)
    requires forall i :: 0 <= i < |counts| ==> counts[i] in records.Values
    requires forall f :: f in records ==> records[f] in counts
    ensures MatchFrom(true, counts, n) == AllMatch(records, n)
  {
    MatchFromAll(true, counts, n);
    if AllMatch(records, n) {
      forall i | 0 <= i < |counts|
        ensures !(counts[i] > 0 && counts[i] != n)
      {
        var f :| f in records && records[f] == counts[i];
      }
    } else {
      var f :| f in records && records[f] > 0 && records[f] != n;
      var i :| 0 <= i < |counts| && counts[i] == records[f];
    }
  }

  lemma {:induction false} MatchFromAll(ok: bool, counts: seq<int>, n: int)
    ensures MatchFrom(ok, counts, n) <==> ok && forall i :: 0 <= i < |counts| ==> !(counts[i] > 0 && counts[i] != n)
    decreases |counts|
  {
    if |counts| > 0 {
      MatchFromAll(ok && !(counts[0] > 0 && counts[0] != n), counts[1..], n);
      assert forall i :: 1 <= i < |counts| ==> counts[i] == counts[1..][i - 1];
    }
  }

  // ------------------------------------------------------------ step four

  /**
   * Step four's "sentence_count" test: a translated shard needs its native
   * sentence count and both English counts, an English shard its native
   * sentence count and the token lines count looked up in `tokens`.
   */
  function SentenceCountTest(stats: ShardStats, tokens: map<string, int>): (t: HealthTest)
    ensures !IsEnglish(stats.bytes) ==>
              (t.status <==> "sentences.gz" in stats.native.lines
                             && "sentences_en.gz" in stats.english.lines && "tokenised_en.gz" in stats.english.lines)
    ensures IsEnglish(stats.bytes) ==> (t.status <==> "sentences.gz" in stats.native.lines && "tokenised.gz" in tokens)
  {
    var exists_ := if IsEnglish(stats.bytes) then "sentences.gz" in stats.native.lines && "tokenised.gz" in tokens
                   else "sentences.gz" in stats.native.lines
                        && "sentences_en.gz" in stats.english.lines && "tokenised_en.gz" in stats.english.lines;
    if exists_ then HealthTest("Sentence count exists", true) else HealthTest("Sentence count missing", false)
  }

  /** A count test: the native sentence count is positive and equals `other`. */
  function CountTest(nsents: int, other: int, matches: string, differs: string): (t: HealthTest)
    ensures t.status <==> nsents > 0 && nsents == other
    ensures t.description == if t.status then matches else differs
  {
    if nsents > 0 && nsents == other then HealthTest(matches, true) else HealthTest(differs, false)
  }

  // --------------------------------------------------------------- verdict

  /**
   * The verdict of both branches; the English branch finds the tokenised
   * line count in `tokens`.
   */
  function VerdictWith(stats: ShardStats, tokens: map<string, int>): (v: Verdict)
    ensures IsEnglish(stats.bytes) ==> v.Keys == {Tokenised, Records, SentenceCount, TokenisedCount}
    ensures !IsEnglish(stats.bytes) ==>
              v.Keys == {Translated, Tokenised, Records, SentenceCount, TranslationCount, TokenisedCount}
  {
    var nsents := Get(stats.native.lines, "sentences.gz");
    if IsEnglish(stats.bytes) then
      map[Tokenised := TokenisedTest(stats.bytes),
          Records := RecordsTest(stats.records),
          SentenceCount := SentenceCountTest(stats, tokens),
          TokenisedCount := CountTest(nsents, Get(tokens, "tokenised.gz"),
                                      "Tokenised english count matches", "Tokenised english count doesn't match")]
    else
      map[Translated := TranslatedTest,
          Tokenised := TokenisedTest(stats.bytes),
          Records := RecordsTest(stats.records),
          SentenceCount := SentenceCountTest(stats, tokens),
          TranslationCount := CountTest(nsents, Get(stats.english.lines, "sentences_en.gz"),
                                        "Translation count matches", "Translation count doesn't match"),
          TokenisedCount := CountTest(nsents, Get(stats.english.lines, "tokenised_en.gz"),
                                      "Tokenised english count matches", "Tokenised english count doesn't match")]
  }

  /** The number of passed tests and of all tests. */
  function Summarise(tests: Verdict): (h: ShardHealth)
    ensures h.tests == tests && h.passed <= h.total == |tests.Keys|
    ensures h.passed == |set t | t in tests && tests[t].status|
  {
    var passing := set t | t in tests && tests[t].status;
    assert passing <= tests.Keys;
    SubsetCard(passing, tests.Keys);
    ShardHealth(|passing|, |tests.Keys|, tests)
  }

  lemma SubsetCard<T>(a: set<T>, b: set<T>)
    requires a <= b
    ensures |a| <= |b|
  {
    assert b == a + (b - a);
  }

  /**
   * `health_tests` as written: an English shard's tokenised count is looked
   * up among the English line counts.
   */
  function HealthTestsAsWritten(stats: ShardStats): (h: ShardHealth)
    ensures 0 <= h.passed <= h.total && h.total == if IsEnglish(stats.bytes) then 4 else 6
    ensures TokenisedCount in h.tests && SentenceCount in h.tests
    ensures IsEnglish(stats.bytes) ==>
              var n := Get(stats.native.lines, "sentences.gz");
              h.tests[TokenisedCount].status <==> n > 0 && n == Get(stats.english.lines, "tokenised.gz")
  {
    FourTests();
    SixTests();
    Summarise(VerdictWith(stats, stats.english.lines))
  }

  /**
   * `health_tests` with the English shard's tokenised count looked up among
   * the native line counts, where the statistics put it.
   */
  function HealthTests(stats: ShardStats): (h: ShardHealth)
    ensures 0 <= h.passed <= h.total && h.total == if IsEnglish(stats.bytes) then 4 else 6
    ensures TokenisedCount in h.tests && SentenceCount in h.tests
    ensures IsEnglish(stats.bytes) ==>
              var n := Get(stats.native.lines, "sentences.gz");
              h.tests[TokenisedCount].status <==> n > 0 && n == Get(stats.native.lines, "tokenised.gz")
  {
    FourTests();
    SixTests();
    Summarise(VerdictWith(stats, stats.native.lines))
  }

  // ------------------------------------------------------------ properties

  /** Step three's test is in every verdict. */
  lemma VerdictRecords(stats: ShardStats, tokens: map<string, int>)
    ensures Records in VerdictWith(stats, tokens)
    ensures VerdictWith(stats, tokens)[Records].status <==>
              Present(stats.records, "url.gz") && AllMatch(stats.records, stats.records["url.gz"])
  {
  }

  /** An English shard gets four tests, each passing exactly when its step's condition holds. */
  lemma VerdictEnglish(stats: ShardStats, tokens: map<string, int>)
    requires IsEnglish(stats.bytes)
    ensures var v := VerdictWith(stats, tokens);
            var n := Get(stats.native.lines, "sentences.gz");
            && v.Keys == {Tokenised, Records, SentenceCount, TokenisedCount}
            && (v[Tokenised].status <==> Present(stats.bytes, "tokenised.gz"))
            && (v[SentenceCount].status <==> "sentences.gz" in stats.native.lines && "tokenised.gz" in tokens)
            && (v[TokenisedCount].status <==> n > 0 && n == Get(tokens, "tokenised.gz"))
  {
  }

  /** A translated shard gets six tests, each passing exactly when its step's condition holds. */
  lemma VerdictTranslated(stats: ShardStats, tokens: map<string, int>)
    requires !IsEnglish(stats.bytes)
    ensures var v := VerdictWith(stats, tokens);
            var n := Get(stats.native.lines, "sentences.gz");
            && v.Keys == {Translated, Tokenised, Records, SentenceCount, TranslationCount, TokenisedCount}
            && v[Translated].status
            && (v[Tokenised].status <==> Present(stats.bytes, "tokenised_en.gz"))
            && (v[SentenceCount].status <==>
                  "sentences.gz" in stats.native.lines
                  && "sentences_en.gz" in stats.english.lines && "tokenised_en.gz" in stats.english.lines)
            && (v[TranslationCount].status <==> n > 0 && n == Get(stats.english.lines, "sentences_en.gz"))
            && (v[TokenisedCount].status <==> n > 0 && n == Get(stats.english.lines, "tokenised_en.gz"))
  {
  }

  lemma FourTests()
    ensures |{Tokenised, Records, SentenceCount, TokenisedCount}| == 4
  {
    var a: set<TestName> := {Tokenised};
    var b := a + {Records};
    var c := b + {SentenceCount};
    assert Records !in a && SentenceCount !in b && TokenisedCount !in c;
    assert c + {TokenisedCount} == {Tokenised, Records, SentenceCount, TokenisedCount};
  }

  lemma SixTests()
    ensures |{Translated, Tokenised, Records, SentenceCount, TranslationCount, TokenisedCount}| == 6
  {
    var a: set<TestName> := {Tokenised, Records, SentenceCount, TokenisedCount};
    FourTests();
    var b := a + {Translated};
    assert Translated !in a && TranslationCount !in b;
    assert b + {TranslationCount} == {Translated, Tokenised, Records, SentenceCount, TranslationCount, TokenisedCount};
  }

  /**
   * Step one never reaches the verdict: statistics that differ only in the
   * sizes of files other than the three step two reads get the same verdict.
   */
  lemma BasicFilesIgnored(stats: ShardStats, bytes: map<string, int>)
    requires SameEntry(bytes, stats.bytes, "sentences_en.gz")
    requires SameEntry(bytes, stats.bytes, "tokenised_en.gz")
    requires SameEntry(bytes, stats.bytes, "tokenised.gz")
    ensures HealthTests(stats.(bytes := bytes)) == HealthTests(stats)
    ensures HealthTestsAsWritten(stats.(bytes := bytes)) == HealthTestsAsWritten(stats)
  {
    assert TokenisedTest(bytes) == TokenisedTest(stats.bytes);
  }

  /** The two maps agree on whether they hold `k` and on its value. */
  predicate SameEntry(a: map<string, int>, b: map<string, int>, k: string)
  {
    (k in a <==> k in b) && Get(a, k) == Get(b, k)
  }

  /** An English shard whose basic files are all missing can still pass every test. */
  lemma BasicFilesMissingButHealthy()
    ensures var s := NewStats([]).(bytes := map["tokenised.gz" := 7],
                                   records := map["url.gz" := 2],
                                   native := EmptyLang().(lines := map["sentences.gz" := 3, "tokenised.gz" := 3]));
            && !BasicFilesFound(s.bytes)
            && HealthTests(s).passed == HealthTests(s).total == 4
  {
    var s := NewStats([]).(bytes := map["tokenised.gz" := 7],
                           records := map["url.gz" := 2],
                           native := EmptyLang().(lines := map["sentences.gz" := 3, "tokenised.gz" := 3]));
    assert "mime.gz" != "tokenised.gz";
    var v := VerdictWith(s, s.native.lines);
    VerdictEnglish(s, s.native.lines);
    VerdictRecords(s, s.native.lines);
    assert forall t :: t in v ==> v[t].status;
    assert (set t | t in v && v[t].status) == v.Keys;
  }

  /**
   * As written, an English shard whose statistics `Calc` produced always
   * fails "sentence_count" and "tokenised_count": `Calc` files the
   * tokenised line count under the native statistics, and the check looks
   * for it among the English ones.
   */
  lemma EnglishCountsFailAsWritten(fs: Fs, shard: Path, env: Env)
    ensures var s := Calc(fs, NewStats(shard), env);
            IsEnglish(s.bytes) ==>
              && !HealthTestsAsWritten(s).tests[SentenceCount].status
              && !HealthTestsAsWritten(s).tests[TokenisedCount].status
  {
    var s := Calc(fs, NewStats(shard), env);
    NoEnglishTokenisedCount(fs, shard, env);
    if IsEnglish(s.bytes) {
      EnglishCountsFailWithout(s);
    }
  }

  /** `Calc` never files a line count for "tokenised.gz" among the English statistics. */
  lemma NoEnglishTokenisedCount(fs: Fs, shard: Path, env: Env)
    ensures "tokenised.gz" !in Calc(fs, NewStats(shard), env).english.lines
  {
    assert NewStats(shard).english.lines.Keys == {};
    NotAnEnglishName(Calc(fs, NewStats(shard), env).english.lines.Keys);
  }

  /** The native "tokenised.gz" is neither of the English names `Calc` counts lines under. */
  lemma NotAnEnglishName(keys: set<string>)
    requires keys <= {"sentences_en.gz", "tokenised_en.gz"}
    ensures "tokenised.gz" !in keys
  {
    assert "tokenised.gz" != "sentences_en.gz" by { assert "tokenised.gz"[0] != "sentences_en.gz"[0]; }
    assert "tokenised.gz" != "tokenised_en.gz" by { assert |"tokenised.gz"| != |"tokenised_en.gz"|; }
  }

  /** Without an English "tokenised.gz" count, both English count tests fail as written. */
  lemma EnglishCountsFailWithout(s: ShardStats)
    requires IsEnglish(s.bytes) && "tokenised.gz" !in s.english.lines
    ensures !HealthTestsAsWritten(s).tests[SentenceCount].status
    ensures !HealthTestsAsWritten(s).tests[TokenisedCount].status
  {
    VerdictEnglish(s, s.english.lines);
  }

  /**
   * With the lookup in the native statistics, an English shard's count
   * tests compare the native sentence count with the native token lines.
   */
  lemma EnglishCountsCorrected(stats: ShardStats)
    requires IsEnglish(stats.bytes)
    ensures HealthTests(stats).tests[SentenceCount].status <==>
              "sentences.gz" in stats.native.lines && "tokenised.gz" in stats.native.lines
    ensures HealthTests(stats).tests[TokenisedCount].status <==>
              Get(stats.native.lines, "sentences.gz") > 0
              && Get(stats.native.lines, "sentences.gz") == Get(stats.native.lines, "tokenised.gz")
  {
    VerdictEnglish(stats, stats.native.lines);
  }

  /** Three sentences and three token lines: the corrected check passes both counts, the original neither. */
  lemma EnglishCountsExample()
    ensures var s := NewStats([]).(native := EmptyLang().(lines := map["sentences.gz" := 3, "tokenised.gz" := 3]));
            && !HealthTestsAsWritten(s).tests[SentenceCount].status
            && !HealthTestsAsWritten(s).tests[TokenisedCount].status
            && HealthTests(s).tests[SentenceCount].status
            && HealthTests(s).tests[TokenisedCount].status
  {
    var s := NewStats([]).(native := EmptyLang().(lines := map["sentences.gz" := 3, "tokenised.gz" := 3]));
    EnglishCountsCorrected(s);
    VerdictEnglish(s, s.english.lines);
  }
}

=== FILE: jsonlreader.dfy ===
/**
 * The JSONL input path: a zstd-compressed file of JSON records, each with a
 * URL and a text. Records with an empty text are dropped; each surviving
 * record becomes a row with the URL unchanged and the text in padded
 * standard base64. The JSON decoder is abstracted as the sequence of its
 * outcomes, one per `Decode` call.
 */
module JsonlReaders {
  import opened Wrappers
  import opened Bytes
  import opened Errors
  import opened FileSystem
  import Base64
  import ColumnWriters
  import ColumnReaders

  /** A decoded record: the "u" and "text" members, as bytes. */
  datatype JsonlRecord = JsonlRecord(url: seq<byte>, text: seq<byte>)

  /**
   * One `Decode` call: the record as far as the decoder filled it in (the
   * zero record after a syntax error), and whether it reported an error.
   */
  datatype Decoded = Decoded(record: JsonlRecord, failed: bool)

  /** An open reader: the file it holds and whether a decode error aborts the process. */
  datatype JsonlReader = JsonlReader(path: Path, fatal: bool)

  /** What the record stream delivers, and whether `log.Fatalf` ended it. */
  datatype Outcome = Outcome(records: seq<JsonlRecord>, aborted: bool)

  /**
   * `NewJsonlReader`: opens the file, then a zstd reader on it. Decode
   * errors are fatal by default. When the zstd reader cannot be made the
   * file is left open.
   */
  function NewJsonlReader(fs: Fs, path: Path, env: Env): (out: (Fs, Result<JsonlReader, Error>))
    ensures out.1.Ok? <==> path in fs.files && (OpenRead, path) !in env.faults && (NewDecompressor, path) !in env.faults
    ensures out.1.Ok? ==> out.1.value == JsonlReader(path, true)
    ensures out.0.files == fs.files && out.0.dirs == fs.dirs
    ensures OpenForRead(fs, path, env).Err? ==> out == (fs, Err(IoError(OpenRead, path)))
    ensures OpenForRead(fs, path, env).Ok? ==> out.0.handles == fs.handles + multiset{path}
  {
    match OpenForRead(fs, path, env)
    case Err(e) => (fs, Err(e))
    case Ok(_) =>
      if (NewDecompressor, path) in env.faults then (Acquire(fs, path), Err(IoError(NewDecompressor, path)))
      else (Acquire(fs, path), Ok(JsonlReader(path, true)))
  }

  /** `Fatal(flag)`: chooses whether a decode error aborts the process. */
  function SetFatal(r: JsonlReader, flag: bool): (r': JsonlReader)
    ensures r'.fatal == flag && r'.path == r.path
  {
    r.(fatal := flag)
  }

  /** `Close`: closes the zstd reader, then the file, and keeps the last error. */
  function Close(fs: Fs, r: JsonlReader, env: Env): (out: (Fs, Option<Error>))
    ensures out.1.None? <==> (CloseStream, r.path) !in env.faults && (CloseFile, r.path) !in env.faults
    ensures (CloseFile, r.path) in env.faults ==> out.1 == Some(IoError(CloseFile, r.path))
    ensures out.0.files == fs.files && out.0.dirs == fs.dirs
    ensures out.0.handles == fs.handles - multiset{r.path}
  {
    (Release(fs, r.path), CloseError(env, r.path))
  }

  // ---------------------------------------------------------------- records

  /** `Records`: the decoding loop. A failed decode aborts in fatal mode; an empty text is never sent. */
  function Records(ds: seq<Decoded>, fatal: bool): (out: Outcome)
    ensures forall i :: 0 <= i < |out.records| ==> |out.records[i].text| > 0
    ensures out.aborted ==> fatal
    decreases |ds|
  {
    if |ds| == 0 then Outcome([], false)
    else if ds[0].failed && fatal then Outcome([], true)
    else
      var rest := Records(ds[1..], fatal);
      if |ds[0].record.text| > 0 then rest.(records := [ds[0].record] + rest.records) else rest
  }

  /** The records with a non-empty text, in order. */
  function Kept(ds: seq<Decoded>): (rs: seq<JsonlRecord>)
    ensures |rs| <= |ds|
    decreases |ds|
  {
    if |ds| == 0 then []
    else if |ds[0].record.text| > 0 then [ds[0].record] + Kept(ds[1..])
    else Kept(ds[1..])
  }

  /** A record is kept exactly when some outcome carries it with a non-empty text. */
  lemma {:induction false} KeptMembers(ds: seq<Decoded>, x: JsonlRecord)
    ensures x in Kept(ds) <==> |x.text| > 0 && exists i :: 0 <= i < |ds| && ds[i].record == x
    decreases |ds|
  {
    if |ds| > 0 {
      KeptMembers(ds[1..], x);
      if exists i :: 0 <= i < |ds| && ds[i].record == x {
        var i :| 0 <= i < |ds| && ds[i].record == x;
        if i > 0 {
          assert ds[1..][i - 1].record == x;
        }
      }
      if exists i :: 0 <= i < |ds[1..]| && ds[1..][i].record == x {
        var i :| 0 <= i < |ds[1..]| && ds[1..][i].record == x;
        assert ds[i + 1].record == x;
      }
    }
  }

  /** Keeping commutes with concatenation, so records leave in decode order. */
  lemma {:induction false} KeptAppend(a: seq<Decoded>, b: seq<Decoded>)
    ensures Kept(a + b) == Kept(a) + Kept(b)
    decreases |a|
  {
    if |a| == 0 {
      assert a + b == b;
    } else {
      assert (a + b)[0] == a[0] && (a + b)[1..] == a[1..] + b;
      KeptAppend(a[1..], b);
    }
  }

  /** The position of the first failed decode, or the number of outcomes if none failed. */
  function FirstFailure(ds: seq<Decoded>): (k: nat)
    ensures k <= |ds|
    ensures forall i :: 0 <= i < k ==> !ds[i].failed
    ensures k < |ds| ==> ds[k].failed
    decreases |ds|
  {
    if |ds| == 0 then 0 else if ds[0].failed then 0 else 1 + FirstFailure(ds[1..])
  }

  /**
   * In fatal mode the stream delivers the kept records before the first
   * failed decode and then aborts, if one failed; otherwise it delivers
   * every kept record, a failed decode's partial record included.
   */
  lemma {:induction false} RecordsAreKept(ds: seq<Decoded>, fatal: bool)
    ensures fatal ==> Records(ds, fatal) == Outcome(Kept(ds[..FirstFailure(ds)]), FirstFailure(ds) < |ds|)
    ensures !fatal ==> Records(ds, fatal) == Outcome(Kept(ds), false)
    decreases |ds|
  {
    if |ds| > 0 {
      RecordsAreKept(ds[1..], fatal);
      if !(ds[0].failed && fatal) {
        if fatal {
          var k := FirstFailure(ds[1..]);
          assert ds[..1 + k][1..] == ds[1..][..k];
        }
      } else {
        assert ds[..0] == [];
      }
    }
  }

  /** In non-fatal mode every outcome with a non-empty text is delivered, a failed one included. */
  lemma NonFatalDropsOnlyEmpty(ds: seq<Decoded>, i: nat)
    requires i < |ds| && |ds[i].record.text| > 0
    ensures ds[i].record in Records(ds, false).records
  {
    RecordsAreKept(ds, false);
    KeptMembers(ds, ds[i].record);
  }

  // ------------------------------------------------------------------- rows

  type Row = ColumnWriters.Row

  /** The row of one record: the URL unchanged, the text base64-encoded. */
  function RowOf(r: JsonlRecord): (row: Row)
    ensures row.Keys == {"url", "text"}
    ensures row["url"] == r.url
    ensures Base64.Decode(row["text"]) == Some(r.text)
  {
    Base64.DecodeEncode(r.text);
    map["url" := r.url, "text" := Base64.Encode(r.text)]
  }

  /** `Rows`: one row per delivered record, in order. */
  function Rows(rs: seq<JsonlRecord>): (rows: seq<Row>)
    ensures |rows| == |rs|
    ensures forall i :: 0 <= i < |rs| ==> rows[i] == RowOf(rs[i])
  {
    seq(|rs|, i requires 0 <= i < |rs| => RowOf(rs[i]))
  }

  /**
   * The text of a row is the padded encoding of its record's text: four
   * characters per started group of three bytes, none a line break.
   */
  lemma RowText(r: JsonlRecord)
    ensures |RowOf(r)["text"]| == 4 * ((|r.text| + 2) / 3)
    ensures NL !in RowOf(r)["text"] && CR !in RowOf(r)["text"]
  {
    Base64.EncodeAlphabet(r.text);
  }

  /** Rows whose URLs are free of line breaks can go through the line codec unchanged. */
  lemma RowsLineSafe(rs: seq<JsonlRecord>)
    requires forall i :: 0 <= i < |rs| ==> NL !in rs[i].url && CR !in rs[i].url
    ensures ColumnReaders.LineSafe(Rows(rs))
  {
    var rows := Rows(rs);
    forall k, c | 0 <= k < |rows| && c in rows[k]
      ensures NL !in rows[k][c] && (|rows[k][c]| > 0 ==> rows[k][c][|rows[k][c]| - 1] != CR)
    {
      RowText(rs[k]);
      if c == "url" {
        assert rows[k][c] == rs[k].url;
      } else {
        assert c == "text";
      }
      var v := rows[k][c];
      assert CR !in v;
      if |v| > 0 {
        assert v[|v| - 1] in v;
      }
    }
  }
}

=== FILE: linereader.dfy ===
/**
 * The reading half of the line codec. `bufio.Reader.ReadLine` is modelled by
 * `ReadLineLog` (what it returns, call after call, on a healthy stream); the
 * accumulation loop of `Lines` is modelled over any such log, including logs
 * that end in a read error.
 */
module LineReaders {
  import opened Wrappers
  import opened Bytes
  import opened Errors
  import opened FileSystem
  import LineWriters

  /** bufio's default buffer size: a longer line comes back in several pieces. */
  const BufSize: nat := 4096

  /** One `ReadLine` result: some bytes, and whether the line continues (`isPrefix`). */
  datatype Chunk = Chunk(bytes: seq<byte>, prefix: bool)

  /** The error that ends a stream of `ReadLine` calls. */
  datatype Stop = AtEof | Failed(err: Error)

  /** Successive `ReadLine` results: data chunks, then the terminating error. */
  datatype ReadLog = ReadLog(chunks: seq<Chunk>, stop: Stop)

  /** How the reading goroutine ended. */
  datatype Ending =
    | Finished          // end of file
    | Ignored           // "file already closed": the column reader was closed early
    | Logged(err: Error)  // non-fatal mode: logged, this stream ends
    | Aborted(err: Error) // fatal mode: log.Fatalf ends the process

  /** An open reader over a column file's decompressed payload. */
  datatype LineReader = LineReader(path: Path, payload: seq<byte>, fatal: bool)

  /**
   * `NewLineReader` as written: opens the file and a gzip reader on it. The
   * gzip reader needs a header, so an empty file fails; on that failure the
   * open file is not closed. Read errors are fatal by default.
   */
  function NewLineReaderAsWritten(fs: Fs, path: Path, env: Env): (out: (Fs, Result<LineReader, Error>))
    ensures out.1.Ok? <==> path in fs.files && (OpenRead, path) !in env.faults
                           && (NewDecompressor, path) !in env.faults && fs.files[path].csize > 0
    ensures out.0.files == fs.files && out.0.dirs == fs.dirs
    ensures out.1.Ok? ==> out.1.value == LineReader(path, fs.files[path].payload, true)
    ensures OpenForRead(fs, path, env).Err? ==> out == (fs, Err(IoError(OpenRead, path)))
    ensures OpenForRead(fs, path, env).Ok? ==> out.0.handles == fs.handles + multiset{path}
  {
    match OpenForRead(fs, path, env)
    case Err(e) => (fs, Err(e))
    case Ok(f) =>
      if (NewDecompressor, path) in env.faults || f.csize == 0 then (Acquire(fs, path), Err(IoError(NewDecompressor, path)))
      else (Acquire(fs, path), Ok(LineReader(path, f.payload, true)))
  }

  /** An empty column file makes the reader fail and leaves its descriptor open. */
  lemma EmptyFileLeaksHandle(fs: Fs, path: Path, env: Env)
    requires path in fs.files && fs.files[path].csize == 0 && (OpenRead, path) !in env.faults
    ensures NewLineReaderAsWritten(fs, path, env).1.Err?
    ensures NewLineReaderAsWritten(fs, path, env).0.handles[path] == fs.handles[path] + 1
  {
  }

  /**
   * `NewLineReader` with the descriptor closed again when the gzip reader
   * cannot be made, as `NewLineWriter` does: only a returned reader holds one.
   */
  function NewLineReader(fs: Fs, path: Path, env: Env): (out: (Fs, Result<LineReader, Error>))
    ensures out.1.Ok? <==> path in fs.files && (OpenRead, path) !in env.faults
                           && (NewDecompressor, path) !in env.faults && fs.files[path].csize > 0
    ensures out.0.files == fs.files && out.0.dirs == fs.dirs
    ensures out.1.Ok? ==> out.1.value == LineReader(path, fs.files[path].payload, true)
    ensures out.1.Ok? ==> out.0.handles == fs.handles + multiset{path}
    ensures out.1.Err? ==> out.0 == fs
    ensures path !in fs.files ==> out.1 == Err(IoError(OpenRead, path))
  {
    var (fs1, r) := NewLineReaderAsWritten(fs, path, env);
    if r.Err? && OpenForRead(fs, path, env).Ok? then
      ReleaseAcquire(fs, path);
      (Release(fs1, path), r)
    else (fs1, r)
  }

  /** `Fatal(flag)`: chooses whether a read error aborts the process. */
  function SetFatal(r: LineReader, flag: bool): (r': LineReader)
    ensures r'.fatal == flag && r'.path == r.path && r'.payload == r.payload
  {
    r.(fatal := flag)
  }

  /** `Close`: closes the decompressor, then the file, and keeps the last error. */
  function Close(fs: Fs, r: LineReader, env: Env): (out: (Fs, Option<Error>))
    ensures out.1.None? <==> (CloseStream, r.path) !in env.faults && (CloseFile, r.path) !in env.faults
    ensures (CloseFile, r.path) in env.faults ==> out.1 == Some(IoError(CloseFile, r.path))
    ensures out.0.files == fs.files && out.0.dirs == fs.dirs
    ensures out.0.handles == fs.handles - multiset{r.path}
  {
    (Release(fs, r.path), CloseError(env, r.path))
  }

  // ---------------------------------------------------------------- reference

  /** Drops the carriage return of a "\r\n" terminator. */
  function StripCR(s: seq<byte>): (t: seq<byte>)
    ensures t <= s && |s| - 1 <= |t|
    ensures |t| < |s| <==> |s| > 0 && s[|s| - 1] == CR
  {
    if |s| > 0 && s[|s| - 1] == CR then s[..|s| - 1] else s
  }

  /**
   * The lines of a payload: the newline-terminated segments without their
   * "\n" or "\r\n" terminator, then the unterminated tail if it is non-empty.
   */
  function SplitLines(p: seq<byte>): (lines: seq<seq<byte>>)
    decreases |p|
    ensures forall i :: 0 <= i < |lines| ==> NL !in lines[i]
    ensures |lines| <= Count(p, NL) + 1
    ensures |p| == 0 <==> |lines| == 0
  {
    if |p| == 0 then []
    else
      var k := IndexOf(p, NL);
      if k < |p| then
        CountSplitAt(p, k);
        [StripCR(p[..k])] + SplitLines(p[k + 1..])
      else [p]
  }

  lemma CountSplitAt(p: seq<byte>, k: nat)
    requires k < |p| && p[k] == NL
    ensures Count(p, NL) == Count(p[..k], NL) + 1 + Count(p[k + 1..], NL)
  {
    assert p == p[..k] + ([NL] + p[k + 1..]);
    CountAppend(p[..k], [NL] + p[k + 1..], NL);
    assert ([NL] + p[k + 1..])[1..] == p[k + 1..];
  }

  // ------------------------------------------------------- bufio.ReadLine

  /**
   * What `ReadLine` returns call after call on a healthy stream: a line that
   * fits in the buffer comes back whole with its terminator stripped; a longer
   * one comes back `BufSize` bytes at a time with `isPrefix` set (a '\r' at
   * the end of a full buffer is put back so a "\r\n" across the boundary is
   * still recognised); an unterminated tail comes back as a final line; then
   * end of file.
   */
  function ReadLineLog(p: seq<byte>): (log: ReadLog)
    decreases |p|
    ensures log.stop == AtEof
    ensures forall i :: 0 <= i < |log.chunks| ==> NL !in log.chunks[i].bytes
    ensures forall i :: 0 <= i < |log.chunks| && log.chunks[i].prefix ==> 0 < |log.chunks[i].bytes| <= BufSize
  {
    if |p| == 0 then ReadLog([], AtEof)
    else
      var k := IndexOf(p, NL);
      if k < BufSize then
        if k < |p| then
          var rest := ReadLineLog(p[k + 1..]);
          ReadLog([Chunk(StripCR(p[..k]), false)] + rest.chunks, AtEof)
        else ReadLog([Chunk(p, false)], AtEof)
      else
        var c := Piece(p);
        var rest := ReadLineLog(p[|c|..]);
        ReadLog([Chunk(c, true)] + rest.chunks, AtEof)
  }

  /**
   * The part of an over-long line one `ReadLine` call returns: a full buffer,
   * less a final '\r', which stays in the buffer for the next call.
   */
  function Piece(p: seq<byte>): (c: seq<byte>)
    requires |p| >= BufSize
    ensures c <= p && 0 < |c|
    ensures (|c| == BufSize && p[BufSize - 1] != CR) || (|c| == BufSize - 1 && p[|c|] == CR)
  {
    if p[BufSize - 1] == CR then p[..BufSize - 1] else p[..BufSize]
  }

  // ------------------------------------------------------------ Lines loop

  /** Number of chunks that complete a line. */
  function Completed(chunks: seq<Chunk>): (n: nat)
    ensures n <= |chunks|
  {
    if |chunks| == 0 then 0 else (if chunks[0].prefix then 0 else 1) + Completed(chunks[1..])
  }

  function ChunkBytes(chunks: seq<Chunk>): seq<byte>
  {
    if |chunks| == 0 then [] else chunks[0].bytes + ChunkBytes(chunks[1..])
  }

  /** The error policy applied when `ReadLine` stops. */
  function Policy(stop: Stop, fatal: bool): (e: Ending)
    ensures e == Finished <==> stop == AtEof
    ensures e == Ignored <==> stop.Failed? && stop.err.FileClosed?
    ensures e.Aborted? <==> stop.Failed? && !stop.err.FileClosed? && fatal
    ensures e.Logged? <==> stop.Failed? && !stop.err.FileClosed? && !fatal
    ensures (e.Aborted? || e.Logged?) ==> e.err == stop.err
  {
    match stop
    case AtEof => Finished
    case Failed(err) =>
      if err.FileClosed? then Ignored
      else if fatal then Aborted(err)
      else Logged(err)
  }

  /**
   * The body of the reading goroutine from the point where `item` has been
   * accumulated: chunks are appended to the item, a chunk without `isPrefix`
   * sends it; at end of file a non-empty partial item is sent, after an
   * error it is dropped.
   */
  function LinesFrom(chunks: seq<Chunk>, stop: Stop, item: seq<byte>, fatal: bool): (out: (seq<seq<byte>>, Ending))
    decreases |chunks|
    ensures out.1 == Policy(stop, fatal)
    ensures Completed(chunks) <= |out.0| <= Completed(chunks) + 1
    ensures stop.Failed? ==> |out.0| == Completed(chunks)
    ensures |out.0| > Completed(chunks) ==> |out.0[|out.0| - 1]| > 0
    ensures stop == AtEof ==> Flatten(out.0) == item + ChunkBytes(chunks)
  {
    if |chunks| == 0 then
      (if stop == AtEof && |item| > 0 then [item] else [], Policy(stop, fatal))
    else
      var c := chunks[0];
      var item' := item + c.bytes;
      assert ChunkBytes(chunks) == c.bytes + ChunkBytes(chunks[1..]);
      if c.prefix then
        assert Completed(chunks) == Completed(chunks[1..]);
        LinesFrom(chunks[1..], stop, item', fatal)
      else
        assert Completed(chunks) == 1 + Completed(chunks[1..]);
        var (rest, ending) := LinesFrom(chunks[1..], stop, [], fatal);
        FlattenCons(item', rest);
        ([item'] + rest, ending)
  }

  /** `Lines`: the items sent on the channel, and how the goroutine ended. */
  function Lines(log: ReadLog, fatal: bool): (out: (seq<seq<byte>>, Ending))
    ensures out.1 == Policy(log.stop, fatal)
    ensures log.stop.Failed? ==> |out.0| == Completed(log.chunks)
    ensures log.stop == AtEof ==> Flatten(out.0) == ChunkBytes(log.chunks)
  {
    LinesFrom(log.chunks, log.stop, [], fatal)
  }

  /** All lines a reader delivers from its file. */
  function ReadAll(r: LineReader): (out: (seq<seq<byte>>, Ending))
    ensures out == (SplitLines(r.payload), Finished)
  {
    LinesOfHealthyStream(r.payload, r.fatal);
    Lines(ReadLineLog(r.payload), r.fatal)
  }

  // ------------------------------------------------------------- properties

  /** `item` glued in front of the first line, or standing alone if non-empty. */
  function Prepend(item: seq<byte>, lines: seq<seq<byte>>): seq<seq<byte>>
  {
    if |lines| == 0 then (if |item| > 0 then [item] else [])
    else [item + lines[0]] + lines[1..]
  }

  lemma {:induction false} IndexOfAfter(c: seq<byte>, q: seq<byte>)
    requires NL !in c
    ensures IndexOf(c + q, NL) == |c| + IndexOf(q, NL)
  {
    if |c| == 0 {
      assert c + q == q;
    } else {
      assert (c + q)[0] == c[0];
      assert (c + q)[1..] == c[1..] + q;
      IndexOfAfter(c[1..], q);
    }
  }

  /** One unfolding of `SplitLines` at the first newline. */
  lemma SplitLinesAt(p: seq<byte>, k: nat)
    requires k == IndexOf(p, NL) && k < |p|
    ensures SplitLines(p) == [StripCR(p[..k])] + SplitLines(p[k + 1..])
  {
  }

  /** A '\r' ending `c` survives when more bytes follow it. */
  lemma StripCRAfter(c: seq<byte>, x: seq<byte>)
    requires |x| > 0 || |c| == 0 || c[|c| - 1] != CR
    ensures StripCR(c + x) == c + StripCR(x)
  {
    if |x| == 0 {
      assert c + x == c;
      assert c + StripCR(x) == c;
    } else {
      assert (c + x)[|c + x| - 1] == x[|x| - 1];
      if x[|x| - 1] == CR {
        assert (c + x)[..|c + x| - 1] == c + x[..|x| - 1];
      }
    }
  }

  /** A fragment followed by a line that ends at a newline. */
  lemma FragmentThenLine(c: seq<byte>, q: seq<byte>, kq: nat)
    requires |c| > 0 && NL !in c
    requires kq == IndexOf(q, NL) && kq < |q|
    requires c[|c| - 1] == CR ==> kq > 0
    ensures SplitLines(c + q) == [c + StripCR(q[..kq])] + SplitLines(q[kq + 1..])
  {
    FragmentParts(c, q, kq);
    StripCRAfter(c, q[..kq]);
    SplitLinesAtParts(c + q, |c| + kq, c + q[..kq], q[kq + 1..]);
  }

  /** `SplitLinesAt` with the two sides named. */
  lemma SplitLinesAtParts(p: seq<byte>, k: nat, line: seq<byte>, rest: seq<byte>)
    requires k == IndexOf(p, NL) && k < |p|
    requires p[..k] == line && p[k + 1..] == rest
    ensures SplitLines(p) == [StripCR(line)] + SplitLines(rest)
  {
    SplitLinesAt(p, k);
  }

  /** Where the first newline of a fragment and what follows it falls, and the parts around it. */
  lemma FragmentParts(c: seq<byte>, q: seq<byte>, kq: nat)
    requires NL !in c
    requires kq == IndexOf(q, NL) && kq < |q|
    ensures IndexOf(c + q, NL) == |c| + kq
    ensures (c + q)[..|c| + kq] == c + q[..kq]
    ensures (c + q)[|c| + kq + 1..] == q[kq + 1..]
  {
    IndexOfAfter(c, q);
  }

  /** A fragment followed by an unterminated rest. */
  lemma FragmentThenTail(c: seq<byte>, q: seq<byte>)
    requires |c| > 0 && NL !in c
    requires IndexOf(q, NL) == |q|
    ensures SplitLines(c + q) == [c + q]
  {
    IndexOfAfter(c, q);
  }

  /**
   * A line fragment without newline joins the first line of what follows it,
   * provided a '\r' ending the fragment is not followed by the terminator.
   */
  lemma SplitLinesAfterFragment(c: seq<byte>, q: seq<byte>)
    requires |c| > 0 && NL !in c
    requires c[|c| - 1] == CR ==> |q| == 0 || q[0] != NL
    ensures SplitLines(c + q) == Prepend(c, SplitLines(q))
  {
    var kq := IndexOf(q, NL);
    if |q| == 0 {
      assert c + q == c;
      FragmentThenTail(c, q);
    } else if kq < |q| {
      FragmentThenLine(c, q, kq);
      SplitLinesAt(q, kq);
    } else {
      FragmentThenTail(c, q);
    }
  }

  lemma PrependNothing(lines: seq<seq<byte>>)
    ensures Prepend([], lines) == lines
  {
    if |lines| > 0 {
      assert [] + lines[0] == lines[0];
      assert [lines[0]] + lines[1..] == lines;
    }
  }

  lemma PrependTwice(a: seq<byte>, b: seq<byte>, lines: seq<seq<byte>>)
    requires |b| > 0
    ensures Prepend(a, Prepend(b, lines)) == Prepend(a + b, lines)
  {
    if |lines| == 0 {
      assert [b][1..] == [];
    } else {
      assert a + b + lines[0] == a + (b + lines[0]);
      assert ([b + lines[0]] + lines[1..])[1..] == lines[1..];
    }
  }

  /** One step of the goroutine's loop. */
  lemma LinesFromCons(c: Chunk, chunks: seq<Chunk>, stop: Stop, item: seq<byte>, fatal: bool)
    ensures c.prefix ==> LinesFrom([c] + chunks, stop, item, fatal) == LinesFrom(chunks, stop, item + c.bytes, fatal)
    ensures !c.prefix ==> var (rest, ending) := LinesFrom(chunks, stop, [], fatal);
                          LinesFrom([c] + chunks, stop, item, fatal) == ([item + c.bytes] + rest, ending)
  {
    assert ([c] + chunks)[1..] == chunks;
  }

  /** A healthy stream whose first line fits in the buffer. */
  lemma HealthyShortLine(p: seq<byte>, k: nat, item: seq<byte>, fatal: bool)
    requires |p| > 0 && k == IndexOf(p, NL) && k < BufSize && k < |p|
    requires LinesFrom(ReadLineLog(p[k + 1..]).chunks, AtEof, [], fatal) == (SplitLines(p[k + 1..]), Finished)
    ensures LinesFrom(ReadLineLog(p).chunks, AtEof, item, fatal) == (Prepend(item, SplitLines(p)), Finished)
  {
    var c := Chunk(StripCR(p[..k]), false);
    var rest := ReadLineLog(p[k + 1..]);
    assert ReadLineLog(p).chunks == [c] + rest.chunks;
    LinesFromCons(c, rest.chunks, AtEof, item, fatal);
    SplitLinesAt(p, k);
    var sl := SplitLines(p);
    assert sl[1..] == SplitLines(p[k + 1..]);
  }

  /** A healthy stream that is one unterminated line. */
  lemma HealthyTail(p: seq<byte>, item: seq<byte>, fatal: bool)
    requires |p| > 0 && IndexOf(p, NL) == |p| < BufSize
    ensures LinesFrom(ReadLineLog(p).chunks, AtEof, item, fatal) == (Prepend(item, SplitLines(p)), Finished)
  {
    assert ReadLineLog(p).chunks == [Chunk(p, false)] + [];
    LinesFromCons(Chunk(p, false), [], AtEof, item, fatal);
    assert SplitLines(p) == [p];
    assert [p][1..] == [];
  }

  /** A healthy stream whose first line overflows the buffer. */
  lemma HealthyLongLine(p: seq<byte>, item: seq<byte>, fatal: bool)
    requires IndexOf(p, NL) >= BufSize
    requires var c := Piece(p);
             LinesFrom(ReadLineLog(p[|c|..]).chunks, AtEof, item + c, fatal) == (Prepend(item + c, SplitLines(p[|c|..])), Finished)
    ensures LinesFrom(ReadLineLog(p).chunks, AtEof, item, fatal) == (Prepend(item, SplitLines(p)), Finished)
  {
    var c := Piece(p);
    var q := p[|c|..];
    var rest := ReadLineLog(q);
    assert ReadLineLog(p).chunks == [Chunk(c, true)] + rest.chunks;
    LinesFromCons(Chunk(c, true), rest.chunks, AtEof, item, fatal);
    PieceParts(p);
    SplitLinesAfterFragment(c, q);
    PrependTwice(item, c, SplitLines(q));
  }

  /** A piece holds no newline, and a '\r' it leaves behind starts the rest. */
  lemma PieceParts(p: seq<byte>)
    requires IndexOf(p, NL) >= BufSize
    ensures var c := Piece(p);
            && NL !in c && p == c + p[|c|..]
            && (c[|c| - 1] == CR ==> p[|c|..][0] == CR)
  {
    var c := Piece(p);
    assert forall i :: 0 <= i < |c| ==> c[i] == p[i];
    assert c[|c| - 1] == p[|c| - 1];
  }

  /** On a healthy stream, the goroutine delivers exactly the payload's lines, whatever the buffer size. */
  lemma {:induction false} LinesFromHealthyStream(p: seq<byte>, item: seq<byte>, fatal: bool)
    decreases |p|
    ensures LinesFrom(ReadLineLog(p).chunks, AtEof, item, fatal) == (Prepend(item, SplitLines(p)), Finished)
  {
    if |p| > 0 {
      var k := IndexOf(p, NL);
      if k >= BufSize {
        LinesFromHealthyStream(p[|Piece(p)|..], item + Piece(p), fatal);
        HealthyLongLine(p, item, fatal);
      } else if k < |p| {
        LinesFromHealthyStream(p[k + 1..], [], fatal);
        PrependNothing(SplitLines(p[k + 1..]));
        HealthyShortLine(p, k, item, fatal);
      } else {
        HealthyTail(p, item, fatal);
      }
    }
  }

  lemma LinesOfHealthyStream(p: seq<byte>, fatal: bool)
    ensures Lines(ReadLineLog(p), fatal) == (SplitLines(p), Finished)
  {
    LinesFromHealthyStream(p, [], fatal);
    PrependNothing(SplitLines(p));
  }

  /** A read error loses exactly the partially accumulated item; the complete lines before it are delivered. */
  lemma {:induction false} ErrorDropsPartialItem(chunks: seq<Chunk>, item: seq<byte>, e: Error, fatal: bool)
    decreases |chunks|
    ensures LinesFrom(chunks, Failed(e), item, fatal).0 == LinesFrom(chunks, AtEof, item, fatal).0[..Completed(chunks)]
  {
    if |chunks| > 0 {
      var c := chunks[0];
      if c.prefix {
        ErrorDropsPartialItem(chunks[1..], item + c.bytes, e, fatal);
      } else {
        ErrorDropsPartialItem(chunks[1..], [], e, fatal);
      }
    }
  }

  /** Round trip with the writer: lines without '\n' and without a trailing '\r' come back unchanged. */
  lemma {:induction false} SplitLinesOfEncode(lines: seq<seq<byte>>)
    requires forall i :: 0 <= i < |lines| ==> NL !in lines[i]
    requires forall i :: 0 <= i < |lines| && |lines[i]| > 0 ==> lines[i][|lines[i]| - 1] != CR
    ensures SplitLines(LineWriters.Encode(lines)) == lines
  {
    if |lines| > 0 {
      var rest := LineWriters.Encode(lines[1..]);
      assert LineWriters.Encode(lines) == lines[0] + [NL] + rest;
      SplitLinesLine(lines[0], rest);
      SplitLinesOfEncode(lines[1..]);
      assert [lines[0]] + lines[1..] == lines;
    }
  }

  /** A terminated line without a trailing '\r' comes back as it was. */
  lemma SplitLinesLine(l: seq<byte>, rest: seq<byte>)
    requires NL !in l && (|l| > 0 ==> l[|l| - 1] != CR)
    ensures SplitLines(l + [NL] + rest) == [l] + SplitLines(rest)
  {
    LineParts(l, rest);
    SplitLinesAt(l + [NL] + rest, |l|);
  }

  /** The first newline after a line without one is its terminator. */
  lemma LineParts(l: seq<byte>, rest: seq<byte>)
    requires NL !in l
    ensures IndexOf(l + [NL] + rest, NL) == |l|
    ensures (l + [NL] + rest)[..|l|] == l && (l + [NL] + rest)[|l| + 1..] == rest
  {
    assert l + [NL] + rest == l + ([NL] + rest);
    IndexOfAfter(l, [NL] + rest);
  }

  /** The trailing-'\r' condition is needed: a value ending in '\r' loses it. */
  lemma TrailingCarriageReturnIsLost()
    ensures SplitLines(LineWriters.Encode([[CR]])) == [[]]
  {
    var p := LineWriters.Encode([[CR]]);
    assert p == [CR, NL];
    assert IndexOf(p, NL) == 1;
    assert p[..1] == [CR];
    assert p[2..] == [];
  }
}

=== FILE: linewriter.dfy ===
/**
 * The writing half of the line codec: each line becomes `line ++ "\n"` in a
 * gzip stream appended to the column file.
 */
module LineWriters {
  import opened Wrappers
  import opened Bytes
  import opened Errors
  import opened FileSystem

  /**
   * An open writer: the target file, the bytes written since it was opened,
   * and whether a write has failed; gzip keeps that error and every later
   * `Write` and the `Close` report it again.
   */
  datatype LineWriter = LineWriter(path: Path, pending: seq<byte>, failed: bool)

  /** A writer with nothing written yet. */
  function Fresh(path: Path): (w: LineWriter)
    ensures w.path == path && w.pending == [] && !w.failed
  {
    LineWriter(path, [], false)
  }

  /** Whether the next write of `w` fails: it failed before, or the file refuses writes. */
  predicate Fails(w: LineWriter, env: Env)
  {
    w.failed || (Write, w.path) in env.faults
  }

  /** The payload a sequence of `WriteLine` calls produces. */
  function Encode(lines: seq<seq<byte>>): (p: seq<byte>)
    ensures |p| == |Flatten(lines)| + |lines|
    ensures Count(p, NL) == Count(Flatten(lines), NL) + |lines|
  {
    if |lines| == 0 then []
    else
      var rest := Encode(lines[1..]);
      CountAppend(lines[0] + [NL], rest, NL);
      CountAppend(lines[0], [NL], NL);
      CountAppend(lines[0], Flatten(lines[1..]), NL);
      assert Count([NL], NL) == 1 by { assert [NL][1..] == []; }
      lines[0] + [NL] + rest
  }

  /** With no newline inside any value, the stream holds exactly one newline per line. */
  lemma {:induction false} EncodeNewlines(lines: seq<seq<byte>>)
    requires forall i :: 0 <= i < |lines| ==> NL !in lines[i]
    ensures Count(Encode(lines), NL) == |lines|
  {
    FlattenNoNewline(lines);
  }

  lemma {:induction false} FlattenNoNewline(lines: seq<seq<byte>>)
    requires forall i :: 0 <= i < |lines| ==> NL !in lines[i]
    ensures Count(Flatten(lines), NL) == 0
  {
    if |lines| > 0 {
      FlattenNoNewline(lines[1..]);
      CountAbsent(lines[0], NL);
      CountAppend(lines[0], Flatten(lines[1..]), NL);
    }
  }

  lemma {:induction false} EncodeAppend(a: seq<seq<byte>>, b: seq<seq<byte>>)
    ensures Encode(a + b) == Encode(a) + Encode(b)
  {
    if |a| == 0 {
      assert a + b == b;
    } else {
      assert (a + b)[1..] == a[1..] + b;
      EncodeAppend(a[1..], b);
    }
  }

  /**
   * `NewLineWriter`: opens the file for appending (creating it if missing);
   * if the compressor cannot be made the file is closed again and no writer
   * is returned. An existing file is never truncated.
   */
  function NewLineWriter(fs: Fs, path: Path, env: Env): (out: (Fs, Result<LineWriter, Error>))
    ensures out.1.Ok? <==> OpenForAppend(fs, path, env).Ok? && (NewCompressor, path) !in env.faults
    ensures out.1.Ok? ==> out.1.value == Fresh(path)
    ensures OpenForAppend(fs, path, env).Err? ==> out.0 == fs && out.1 == Err(IoError(OpenAppend, path))
    ensures OpenForAppend(fs, path, env).Ok? && (NewCompressor, path) in env.faults ==>
              out.1 == Err(IoError(NewCompressor, path))
    ensures forall q :: q in fs.files ==> q in out.0.files && out.0.files[q] == fs.files[q]
    ensures forall q :: q in out.0.files && q !in fs.files ==> q == path && out.0.files[q] == EmptyFile
    ensures out.1.Ok? ==> path in out.0.files
    ensures out.0.dirs.Keys == fs.dirs.Keys
    ensures out.1.Ok? ==> out.0.handles == fs.handles + multiset{path}
    ensures out.1.Err? ==> out.0.handles == fs.handles
  {
    match OpenForAppend(fs, path, env)
    case Err(e) => (fs, Err(e))
    case Ok(fs1) =>
      if (NewCompressor, path) in env.faults then
        assert Release(fs1, path).handles == fs.handles;
        (Release(fs1, path), Err(IoError(NewCompressor, path)))
      else (fs1, Ok(Fresh(path)))
  }

  /**
   * `WriteLine`: frames the line with a trailing newline. A failed write
   * adds nothing and marks the writer failed, and so does any write after it.
   */
  function WriteLine(w: LineWriter, line: seq<byte>, env: Env): (out: (LineWriter, Option<Error>))
    ensures out.1.None? <==> !Fails(w, env)
    ensures out.1.Some? ==> out.1.value == IoError(Write, w.path)
    ensures out.0.path == w.path
    ensures out.1.None? ==> out.0 == w.(pending := w.pending + line + [NL])
    ensures out.1.None? ==> |out.0.pending| == |w.pending| + |line| + 1
    ensures out.1.Some? ==> out.0 == w.(failed := true)
  {
    if w.failed || (Write, w.path) in env.faults then (w.(failed := true), Some(IoError(Write, w.path)))
    else (w.(pending := w.pending + line + [NL]), None)
  }

  /** Repeated `WriteLine` calls, stopping at the first error. */
  function WriteLines(w: LineWriter, lines: seq<seq<byte>>, env: Env): (out: (LineWriter, Option<Error>))
    decreases |lines|
    ensures out.0.path == w.path
  {
    if |lines| == 0 then (w, None)
    else
      var (w1, e) := WriteLine(w, lines[0], env);
      if e.Some? then (w1, e) else WriteLines(w1, lines[1..], env)
  }

  /** A writer that never fails appends exactly the encoding of its lines. */
  lemma {:induction false} WriteLinesEncode(w: LineWriter, lines: seq<seq<byte>>, env: Env)
    requires !Fails(w, env)
    ensures WriteLines(w, lines, env).1.None?
    ensures WriteLines(w, lines, env).0.pending == w.pending + Encode(lines)
    decreases |lines|
  {
    if |lines| > 0 {
      var (w1, e) := WriteLine(w, lines[0], env);
      WriteLinesEncode(w1, lines[1..], env);
    }
  }

  /** A writer that never fails is never marked failed. */
  lemma {:induction false} WriteLinesNeverFail(w: LineWriter, lines: seq<seq<byte>>, env: Env)
    requires !Fails(w, env)
    ensures !WriteLines(w, lines, env).0.failed
    decreases |lines|
  {
    if |lines| > 0 {
      var w1 := WriteLine(w, lines[0], env).0;
      assert !Fails(w1, env);
      WriteLinesNeverFail(w1, lines[1..], env);
    }
  }

  /**
   * What `gzip.Writer.Close` reports: the error kept from a failed write
   * (it then writes nothing more), else a failure to flush the last block
   * and the trailer.
   */
  function StreamError(w: LineWriter, env: Env): (err: Option<Error>)
    ensures err.None? <==> !w.failed && (CloseStream, w.path) !in env.faults
    ensures w.failed ==> err == Some(IoError(Write, w.path))
  {
    if w.failed then Some(IoError(Write, w.path)) else Fault(env, CloseStream, w.path)
  }

  /**
   * What `Close` reports: it closes the compressor and then the file,
   * attempts both, and keeps the last error.
   */
  function CloseError(w: LineWriter, env: Env): (err: Option<Error>)
    ensures err.None? <==> StreamError(w, env).None? && (CloseFile, w.path) !in env.faults
    ensures (CloseFile, w.path) in env.faults ==> err == Some(IoError(CloseFile, w.path))
    ensures (CloseFile, w.path) !in env.faults ==> err == StreamError(w, env)
  {
    var errs := [StreamError(w, env), Fault(env, CloseFile, w.path)];
    assert errs[1..] == [errs[1]] && errs[1..][1..] == [];
    LastError(errs)
  }

  /**
   * `Close`: closes the compressor and then the file. The pending lines
   * become one whole gzip member exactly when the compressor closes cleanly;
   * otherwise the file keeps a truncated member and is no longer intact.
   */
  function Close(fs: Fs, w: LineWriter, env: Env): (out: (Fs, Option<Error>))
    ensures out.1 == CloseError(w, env)
    ensures out.0.dirs == fs.dirs && out.0.handles == fs.handles - multiset{w.path}
    ensures w.path in out.0.files && out.0.files.Keys == fs.files.Keys + {w.path}
    ensures out.0.files[w.path].payload ==
              (if w.path in fs.files then fs.files[w.path].payload else [])
              + (if StreamError(w, env).None? then w.pending else [])
    ensures out.0.files[w.path].intact <==> StreamError(w, env).None? && (w.path !in fs.files || fs.files[w.path].intact)
    ensures StreamError(w, env).None? ==> out.0.files[w.path].csize >= GzipFraming
    ensures forall q :: q in fs.files && q != w.path ==> out.0.files[q] == fs.files[q]
  {
    var fs1 := if StreamError(w, env).None? then AppendMember(fs, w.path, w.pending, env)
               else AppendTruncated(fs, w.path, w.pending, env);
    (Release(fs1, w.path), CloseError(w, env))
  }

  /**
   * Append mode: reopening a column file, writing lines and closing leaves the
   * old payload followed by the new lines, in a file as intact as before,
   * exactly when the compressor closes cleanly; otherwise the old payload
   * alone, in a file that is no longer intact.
   */
  lemma ReopenAppends(fs: Fs, path: Path, lines: seq<seq<byte>>, env: Env)
    requires OpenForAppend(fs, path, env).Ok?
    requires (NewCompressor, path) !in env.faults && (Write, path) !in env.faults
    ensures var (fs1, r) := NewLineWriter(fs, path, env);
            var (w, _) := WriteLines(r.value, lines, env);
            var (fs2, _) := Close(fs1, w, env);
            var old_ := if path in fs.files then fs.files[path] else EmptyFile;
            && fs2.files[path].payload == old_.payload + (if (CloseStream, path) !in env.faults then Encode(lines) else [])
            && (fs2.files[path].intact <==> old_.intact && (CloseStream, path) !in env.faults)
  {
    var (fs1, r) := NewLineWriter(fs, path, env);
    WriteLinesEncode(r.value, lines, env);
    WriteLinesNeverFail(r.value, lines, env);
    assert [] + Encode(lines) == Encode(lines);
    CloseAfterReopen(fs1, LineWriter(path, Encode(lines), false), if path in fs.files then fs.files[path] else EmptyFile, env);
  }

  /** The closing step of `ReopenAppends`, for a writer with no failed write over a file that held `before`. */
  lemma CloseAfterReopen(fs1: Fs, w: LineWriter, before: File, env: Env)
    requires !w.failed && w.path in fs1.files && fs1.files[w.path] == before
    ensures var f := Close(fs1, w, env).0.files[w.path];
            && f.payload == before.payload + (if (CloseStream, w.path) !in env.faults then w.pending else [])
            && (f.intact <==> before.intact && (CloseStream, w.path) !in env.faults)
  {
  }

  /**
   * A failed write is not lost: `Close` reports it again (unless closing the
   * file fails too, whose error comes last) and the file is left truncated.
   */
  lemma FailedWriteReportedAtClose(fs: Fs, w: LineWriter, line: seq<byte>, env: Env)
    requires Fails(w, env)
    ensures var (w1, e) := WriteLine(w, line, env);
            var (fs1, e2) := Close(fs, w1, env);
            && e == Some(IoError(Write, w.path)) && e2.Some?
            && ((CloseFile, w.path) !in env.faults ==> e2 == e)
            && !fs1.files[w.path].intact
  {
  }
}

=== FILE: shard.dfy ===
/**
 * The shard router: a row's key is reduced to a slug (the registrable name
 * of its host), the slug is hashed with FNV-1 64 onto one of 2^n slots, and
 * each slot holds a lazily opened batch under `dir/<slot>`.
 */
module Shards {
  import opened Wrappers
  import opened Bytes
  import opened Strconv
  import opened Errors
  import opened FileSystem
  import opened Fnv
  import FnvVectors
  import ColumnWriters
  import Batches

  type Row = ColumnWriters.Row
  type Batch = Batches.Batch

  /**
   * The two parsers the router relies on, left uninterpreted: the host of
   * `url.Parse` (absent when it fails) and the registrable label of
   * `publicsuffix.Parse` (absent when it fails).
   */
  datatype Parsers = Parsers(urlHost: seq<byte> -> Option<seq<byte>>, domain: seq<byte> -> Option<seq<byte>>)

  // ----------------------------------------------------------- host regexp

  /** The bytes of the class `[a-zA-Z0-9.]`. */
  predicate InClass(b: byte)
  {
    IsAlnum(b) || b == DOT
  }

  /** The maximal leading run of class bytes. */
  function LeadingRun(s: seq<byte>): (r: seq<byte>)
    ensures r <= s && forall i :: 0 <= i < |r| ==> InClass(r[i])
    ensures |r| < |s| ==> !InClass(s[|r|])
  {
    if |s| == 0 || !InClass(s[0]) then []
    else
      var t := LeadingRun(s[1..]);
      assert [s[0]] + t <= s;
      [s[0]] + t
  }

  /**
   * The capture of `^([a-zA-Z0-9][a-zA-Z0-9.]*[a-zA-Z0-9]).*`: the leading
   * run with its trailing dots dropped, if that starts with an alphanumeric
   * and has at least two bytes.
   */
  function RegexHost(key: seq<byte>): (r: Option<seq<byte>>)
    ensures r.Some? ==> |r.value| >= 2 && IsAlnum(r.value[0]) && IsAlnum(r.value[|r.value| - 1])
  {
    var cap := TrimRightDots(LeadingRun(key));
    if |cap| >= 2 && IsAlnum(cap[0]) then Some(cap) else None
  }

  /** A prefix of `key` the capture group can match: alphanumeric at both ends, class bytes between. */
  predicate Capturable(key: seq<byte>, m: nat)
  {
    && 2 <= m <= |key|
    && IsAlnum(key[0]) && IsAlnum(key[m - 1])
    && forall i :: 0 <= i < m ==> InClass(key[i])
  }

  /**
   * The regexp's leftmost-greedy semantics: the capture is the longest
   * capturable prefix, and there is none exactly when the match fails.
   */
  lemma RegexHostIsLongestMatch(key: seq<byte>)
    ensures RegexHost(key).Some? <==> exists m: nat :: Capturable(key, m)
    ensures RegexHost(key).Some? ==>
              var c := RegexHost(key).value;
              c == key[..|c|] && Capturable(key, |c|) && forall m: nat :: Capturable(key, m) ==> m <= |c|
  {
    var run := LeadingRun(key);
    var cap := TrimRightDots(run);
    assert cap == key[..|cap|];
    forall m: nat | Capturable(key, m)
      ensures m <= |cap| && |cap| >= 2 && IsAlnum(cap[0])
    {
      assert key[m - 1] == run[m - 1];
    }
    if RegexHost(key).Some? {
      assert Capturable(key, |cap|);
    }
  }

  // ------------------------------------------------------------------ slug

  /**
   * The host handed to the public-suffix parser: the parsed URL's host with
   * its trailing dots trimmed, or, when parsing fails or yields no host, the
   * regexp capture; absent when neither finds one.
   */
  function Host(key: seq<byte>, ps: Parsers): (h: Option<seq<byte>>)
    ensures h.Some? && |h.value| > 0 ==> h.value[|h.value| - 1] != DOT
    ensures ps.urlHost(key).Some? && |ps.urlHost(key).value| > 0 ==> h == Some(TrimRightDots(ps.urlHost(key).value))
    ensures ps.urlHost(key).None? || |ps.urlHost(key).value| == 0 ==> h == RegexHost(key)
  {
    var parsed := ps.urlHost(key);
    if parsed.None? || |parsed.value| == 0 then RegexHost(key) else Some(TrimRightDots(parsed.value))
  }

  /**
   * `Slug`: the registrable label of the host; when the suffix parser fails
   * the host itself is returned, together with the parser's error.
   */
  function Slug(key: seq<byte>, ps: Parsers): (out: (seq<byte>, Option<Error>))
    ensures Host(key, ps).None? ==> out == ([], Some(NoHost(key)))
    ensures Host(key, ps).Some? && ps.domain(Host(key, ps).value).None? ==>
              out == (Host(key, ps).value, Some(SuffixError(Host(key, ps).value)))
    ensures out.1.None? <==> Host(key, ps).Some? && ps.domain(Host(key, ps).value).Some?
    ensures out.1.None? ==> out.0 == ps.domain(Host(key, ps).value).value
  {
    match Host(key, ps)
    case None => ([], Some(NoHost(key)))
    case Some(host) =>
      match ps.domain(host)
      case None => (host, Some(SuffixError(host)))
      case Some(sld) => (sld, None)
  }

  // -------------------------------------------------------------- shard id

  function Pow2(n: nat): (p: nat)
    ensures p >= 1
  {
    if n == 0 then 1 else 2 * Pow2(n - 1)
  }

  /** `ShardId`: FNV-1 64 of the slug modulo 2^n; any slug error is returned instead. */
  function ShardId(key: seq<byte>, n: nat, ps: Parsers): (r: Result<nat, Error>)
    requires n < 64
    ensures r.Ok? <==> Slug(key, ps).1.None?
    ensures r.Ok? ==> r.value < Pow2(n) && r.value == Fnv64(Slug(key, ps).0) % Pow2(n)
    ensures r.Err? ==> r.error == Slug(key, ps).1.value
  {
    var (slug, err) := Slug(key, ps);
    if err.Some? then Err(err.value) else Ok(Fnv64(slug) % Pow2(n))
  }

  /** With 2^8 shards the id is the hash's low byte, which the 8-bit recurrence computes. */
  lemma ShardIdLowByte(key: seq<byte>, ps: Parsers)
    requires Slug(key, ps).1.None?
    ensures ShardId(key, 8, ps) == Ok(LowByteFrom(0x25, Slug(key, ps).0))
  {
    assert Pow2(8) == 256;
  }

  /** Any key whose slug is "reddit" goes to shard 249 of 256. */
  lemma RedditShard(key: seq<byte>, ps: Parsers)
    requires Slug(key, ps) == (Ascii("reddit"), None)
    ensures ShardId(key, 8, ps) == Ok(249)
  {
    ShardIdLowByte(key, ps);
    FnvVectors.RedditLowByte();
  }

  /** Any key whose slug is "tulas-handy-charts" goes to shard 179 of 256. */
  lemma TulasShard(key: seq<byte>, ps: Parsers)
    requires Slug(key, ps) == (Ascii("tulas-handy-charts"), None)
    ensures ShardId(key, 8, ps) == Ok(179)
  {
    ShardIdLowByte(key, ps);
    FnvVectors.TulasLowByte();
  }

  /** Without a scheme the host comes from the regexp, which drops the trailing dot. */
  lemma RegexHostTrailingDot()
    ensures RegexHost(Ascii("www.reddit.com.")) == Some(Ascii("www.reddit.com"))
  {
    AsciiRedditHost();
    AsciiRedditHostDot();
    RegexHostBeforeTail(Ascii("www.reddit.com"), [DOT]);
  }

  /** The regexp stops at the slash, and the dot before it is dropped. */
  lemma RegexHostSlashDot()
    ensures RegexHost(Ascii("www.reddit.com/.")) == Some(Ascii("www.reddit.com"))
  {
    AsciiRedditHost();
    AsciiRedditHostSlashDot();
    RegexHostBeforeTail(Ascii("www.reddit.com"), [47, DOT]);
  }

  lemma AsciiRedditHost()
    ensures Ascii("www.reddit.com") == [119, 119, 119, 46, 114, 101, 100, 100, 105, 116, 46, 99, 111, 109]
  {
  }

  lemma AsciiRedditHostDot()
    ensures Ascii("www.reddit.com.") == [119, 119, 119, 46, 114, 101, 100, 100, 105, 116, 46, 99, 111, 109] + [DOT]
  {
  }

  lemma AsciiRedditHostSlashDot()
    ensures Ascii("www.reddit.com/.") == [119, 119, 119, 46, 114, 101, 100, 100, 105, 116, 46, 99, 111, 109] + [47, DOT]
  {
  }

  lemma RegexHostBeforeTail(h: seq<byte>, tail: seq<byte>)
    requires h == [119, 119, 119, 46, 114, 101, 100, 100, 105, 116, 46, 99, 111, 109]
    requires tail == [DOT] || tail == [47, DOT]
    ensures RegexHost(h + tail) == Some(h)
  {
    if tail == [DOT] {
      RunStops(h + tail, 15);
      assert (h + tail)[..15] == h + [DOT];
      assert TrimRightDots(h + [DOT]) == h;
    } else {
      RunStops(h + tail, 14);
      assert (h + tail)[..14] == h;
    }
  }

  /**
   * The regexp class has no hyphen, so the fallback stops a hyphenated host
   * at its first hyphen: "tulas-handy-charts.de/..." is captured as "tulas".
   */
  lemma RegexHostStopsAtHyphen(rest: seq<byte>)
    ensures RegexHost(Ascii("tulas") + [45] + rest) == Some(Ascii("tulas"))
  {
    var key := Ascii("tulas") + [45] + rest;
    assert key[5] == 45;
    assert key[..5] == Ascii("tulas");
    RunStops(key, 5);
  }

  /** The leading run ends at the first byte outside the class. */
  lemma {:induction false} RunStops(s: seq<byte>, k: nat)
    requires k <= |s| && forall i :: 0 <= i < k ==> InClass(s[i])
    requires k < |s| ==> !InClass(s[k])
    ensures LeadingRun(s) == s[..k]
    decreases k
  {
    if k > 0 {
      RunStops(s[1..], k - 1);
      assert s[..k] == [s[0]] + s[1..][..k - 1];
    }
  }

  // ------------------------------------------------------------------ shard

  datatype Shard = Shard(dir: Path, n: nat, size: int, key: string, cols: seq<string>, batches: seq<Option<Batch>>)

  /** `shardDir`: the slot's directory, named by the unpadded decimal slot number. */
  function ShardDir(s: Shard, id: nat): (p: Path)
    ensures |p| == |s.dir| + 1 && p[..|s.dir|] == s.dir && p[|s.dir|] == FormatInt(id)
  {
    s.dir + [FormatInt(id)]
  }

  /** `NewShard`: 2^n slots, all empty. For n of 63 or more Go's `make` panics or the divisor vanishes. */
  function NewShard(dir: Path, n: nat, size: int, key: string, cols: seq<string>): (s: Shard)
    requires n < 63
    ensures |s.batches| == Pow2(n) && forall i :: 0 <= i < |s.batches| ==> s.batches[i].None?
    ensures s.dir == dir && s.n == n && s.size == size && s.key == key && s.cols == cols
  {
    Shard(dir, n, size, key, cols, seq(Pow2(n), _ => None))
  }

  /** What the router keeps true: one slot per id, each open batch valid and in its own directory. */
  predicate Valid(s: Shard)
  {
    && s.n < 64 && |s.batches| == Pow2(s.n)
    && forall i :: 0 <= i < |s.batches| && s.batches[i].Some? ==>
         var b := s.batches[i].value;
         Batches.Valid(b) && b.dir == ShardDir(s, i) && b.size == s.size && b.cols == s.cols
  }

  /** `openShard`: makes the slot's directory and a batch in it. */
  function OpenShard(fs: Fs, s: Shard, id: nat, env: Env): (out: (Fs, Option<Batch>, Option<Error>))
    ensures out.2.None? ==> out.1.Some?
    ensures out.2.None? ==> out.1.value.dir == ShardDir(s, id) && out.1.value.size == s.size
    ensures out.2.None? ==> out.1.value.cols == s.cols && Batches.Valid(out.1.value)
    ensures MkdirAll(fs, ShardDir(s, id), env).Err? ==> out == (fs, None, MkdirAll(fs, ShardDir(s, id), env).ErrorOf())
  {
    match MkdirAll(fs, ShardDir(s, id), env)
    case Err(e) => (fs, None, Some(e))
    case Ok(fs1) => Batches.NewBatch(fs1, ShardDir(s, id), s.size, s.cols, env)
  }

  /** The batch of slot `id`: the open one, or a new one opened on first use. */
  function Slot(fs: Fs, s: Shard, id: nat, env: Env): (out: (Fs, Option<Batch>, Option<Error>))
    requires Valid(s) && id < |s.batches|
    ensures out.2.None? ==> out.1.Some?
    ensures out.2.None? ==> var b := out.1.value;
              Batches.Valid(b) && b.dir == ShardDir(s, id) && b.size == s.size && b.cols == s.cols
    ensures s.batches[id].Some? ==> out == (fs, s.batches[id], None)
    ensures s.batches[id].None? ==> out == OpenShard(fs, s, id, env)
  {
    if s.batches[id].Some? then (fs, s.batches[id], None) else OpenShard(fs, s, id, env)
  }

  /**
   * `WriteRow`: routes the row by its key column (the empty key when
   * absent), opens the slot's batch on first use and writes the row there.
   */
  ghost function WriteRow(fs: Fs, s: Shard, row: Row, ps: Parsers, env: Env): (out: (Fs, Shard, Option<Error>))
    requires Valid(s)
    ensures Valid(out.1)
    ensures out.1.dir == s.dir && out.1.n == s.n && out.1.size == s.size && out.1.key == s.key && out.1.cols == s.cols
    ensures ShardId(ColumnWriters.Value(row, s.key), s.n, ps).Err? ==>
              out == (fs, s, Some(ShardId(ColumnWriters.Value(row, s.key), s.n, ps).error))
    ensures ShardId(ColumnWriters.Value(row, s.key), s.n, ps).Ok? ==>
              var id := ShardId(ColumnWriters.Value(row, s.key), s.n, ps).value;
              (forall j :: 0 <= j < |s.batches| && j != id ==> out.1.batches[j] == s.batches[j])
              && (s.batches[id].Some? ==> out.1.batches[id].Some?)
  {
    match ShardId(ColumnWriters.Value(row, s.key), s.n, ps)
    case Err(e) => (fs, s, Some(e))
    case Ok(id) => WriteToSlot(fs, s, id, row, env)
  }

  /**
   * The second half of `WriteRow`: writes the row to slot `id`, opening its
   * batch first if needed; a slot that cannot be opened stays empty.
   */
  ghost function WriteToSlot(fs: Fs, s: Shard, id: nat, row: Row, env: Env): (out: (Fs, Shard, Option<Error>))
    requires Valid(s) && id < |s.batches|
    ensures Valid(out.1)
    ensures out.1.dir == s.dir && out.1.n == s.n && out.1.size == s.size && out.1.key == s.key && out.1.cols == s.cols
    ensures |out.1.batches| == |s.batches|
    ensures forall j :: 0 <= j < |s.batches| && j != id ==> out.1.batches[j] == s.batches[j]
    ensures s.batches[id].Some? ==> out.1.batches[id] == Some(Batches.WriteRow(fs, s.batches[id].value, row, env).1)
    ensures s.batches[id].None? && OpenShard(fs, s, id, env).2.Some? ==> out.1 == s && out.2 == OpenShard(fs, s, id, env).2
  {
    var (fs1, slot, e) := Slot(fs, s, id, env);
    if e.Some? then (fs1, s, e)
    else
      var (fs2, b, e') := Batches.WriteRow(fs1, slot.value, row, env);
      ValidSet(s, id, b);
      (fs2, s.(batches := s.batches[id := Some(b)]), e')
  }

  /** Putting a batch that belongs to slot `id` there keeps the shard valid. */
  lemma ValidSet(s: Shard, id: nat, b: Batch)
    requires Valid(s) && id < |s.batches|
    requires Batches.Valid(b) && b.dir == ShardDir(s, id) && b.size == s.size && b.cols == s.cols
    ensures Valid(s.(batches := s.batches[id := Some(b)]))
  {
    var s' := s.(batches := s.batches[id := Some(b)]);
    assert forall i :: 0 <= i < |s.batches| ==> ShardDir(s', i) == ShardDir(s, i);
  }

  /**
   * The three ways a write to slot `id` goes: an open batch takes the row;
   * an empty slot is opened and the new batch takes the row; an empty slot
   * that cannot be opened stays empty and the opening error is returned. In
   * the first two the batch's file system and error are returned and the
   * slot holds the batch after the write.
   */
  lemma WriteToSlotOutcome(fs: Fs, s: Shard, id: nat, row: Row, env: Env)
    requires Valid(s) && id < |s.batches|
    ensures s.batches[id].Some? ==>
              var w := Batches.WriteRow(fs, s.batches[id].value, row, env);
              WriteToSlot(fs, s, id, row, env) == (w.0, s.(batches := s.batches[id := Some(w.1)]), w.2)
    ensures s.batches[id].None? && OpenShard(fs, s, id, env).2.None? ==>
              var o := OpenShard(fs, s, id, env);
              var w := Batches.WriteRow(o.0, o.1.value, row, env);
              WriteToSlot(fs, s, id, row, env) == (w.0, s.(batches := s.batches[id := Some(w.1)]), w.2)
    ensures s.batches[id].None? && OpenShard(fs, s, id, env).2.Some? ==>
              var o := OpenShard(fs, s, id, env);
              WriteToSlot(fs, s, id, row, env) == (o.0, s, o.2)
  {
  }

  /** `WriteRow` with a routable key is the write to the key's slot, in the three ways of `WriteToSlotOutcome`. */
  lemma WriteRowSlot(fs: Fs, s: Shard, row: Row, ps: Parsers, env: Env)
    requires Valid(s)
    requires ShardId(ColumnWriters.Value(row, s.key), s.n, ps).Ok?
    ensures var id := ShardId(ColumnWriters.Value(row, s.key), s.n, ps).value;
            var o := OpenShard(fs, s, id, env);
            var out := WriteRow(fs, s, row, ps, env);
            && (s.batches[id].Some? ==>
                  var w := Batches.WriteRow(fs, s.batches[id].value, row, env);
                  out == (w.0, s.(batches := s.batches[id := Some(w.1)]), w.2))
            && (s.batches[id].None? && o.2.None? ==>
                  var w := Batches.WriteRow(o.0, o.1.value, row, env);
                  out == (w.0, s.(batches := s.batches[id := Some(w.1)]), w.2))
            && (s.batches[id].None? && o.2.Some? ==> out == (o.0, s, o.2))
  {
    WriteToSlotOutcome(fs, s, ShardId(ColumnWriters.Value(row, s.key), s.n, ps).value, row, env);
  }

  /** What closing slot `slot` reports: nothing for an empty slot, otherwise its batch's close error. */
  function SlotCloseError(slot: Option<Batch>, env: Env): (err: Option<Error>)
    ensures slot.None? ==> err.None?
    ensures slot.Some? ==> err == Batches.CloseError(slot.value, env)
  {
    if slot.None? then None else Batches.CloseError(slot.value, env)
  }

  /** The descriptors the open batches among `bs` hold, one per column writer. */
  function OpenPaths(bs: seq<Option<Batch>>): (m: multiset<Path>)
    decreases |bs|
  {
    if |bs| == 0 then multiset{}
    else (if bs[0].Some? && bs[0].value.writer.Some? then ColumnWriters.Paths(bs[0].value.writer.value.writers) else multiset{})
         + OpenPaths(bs[1..])
  }

  /** Releasing two sets of descriptors one after the other releases their union. */
  lemma ReleaseTwice(h: multiset<Path>, a: multiset<Path>, b: multiset<Path>)
    ensures (h - a) - b == h - (a + b)
  {
    assert forall q :: ((h - a) - b)[q] == (h - (a + b))[q];
  }

  /** The errors of closing each open batch, threading the file system through. */
  function CloseFrom(fs: Fs, bs: seq<Option<Batch>>, env: Env): (out: (Fs, seq<Option<Error>>))
    ensures |out.1| == |bs|
    ensures forall i :: 0 <= i < |bs| ==> out.1[i] == SlotCloseError(bs[i], env)
    decreases |bs|
  {
    if |bs| == 0 then (fs, [])
    else
      var (fs1, e) := if bs[0].Some? then Batches.Close(fs, bs[0].value, env) else (fs, None);
      var (fs2, rest) := CloseFrom(fs1, bs[1..], env);
      assert e == SlotCloseError(bs[0], env);
      forall i | 1 <= i < |bs|
        ensures ([e] + rest)[i] == SlotCloseError(bs[i], env)
      {
        assert bs[1..][i - 1] == bs[i];
      }
      (fs2, [e] + rest)
  }

  /** Closing the slots releases every open batch's descriptors and leaves the directories alone. */
  lemma {:induction false} CloseFromReleases(fs: Fs, bs: seq<Option<Batch>>, env: Env)
    ensures CloseFrom(fs, bs, env).0.dirs == fs.dirs
    ensures CloseFrom(fs, bs, env).0.handles == fs.handles - OpenPaths(bs)
    decreases |bs|
  {
    if |bs| == 0 {
      assert fs.handles - multiset{} == fs.handles;
    } else {
      var fs1 := if bs[0].Some? then Batches.Close(fs, bs[0].value, env).0 else fs;
      CloseFromReleases(fs1, bs[1..], env);
      var first := if bs[0].Some? && bs[0].value.writer.Some? then ColumnWriters.Paths(bs[0].value.writer.value.writers) else multiset{};
      assert fs1.handles == fs.handles - first;
      ReleaseTwice(fs.handles, first, OpenPaths(bs[1..]));
    }
  }

  /**
   * `Close`: closes every open batch, whatever the others report, and
   * returns the last error: no error iff no batch's close fails, otherwise
   * the error of the last slot whose batch failed to close. Every open
   * batch's descriptors are released.
   */
  function Close(fs: Fs, s: Shard, env: Env): (out: (Fs, Option<Error>))
    ensures out.1.None? <==> forall i :: 0 <= i < |s.batches| ==> SlotCloseError(s.batches[i], env).None?
    ensures out.1.Some? ==> exists i :: 0 <= i < |s.batches| && s.batches[i].Some? && out.1 == SlotCloseError(s.batches[i], env)
                                   && forall j :: i < j < |s.batches| ==> SlotCloseError(s.batches[j], env).None?
    ensures out.0.dirs == fs.dirs
    ensures out.0.handles == fs.handles - OpenPaths(s.batches)
  {
    var closed := CloseFrom(fs, s.batches, env);
    CloseFromReleases(fs, s.batches, env);
    (closed.0, LastError(closed.1))
  }
}

=== FILE: stat.dfy ===
/**
 * Per-shard statistics: the size and record count of each column file,
 * and for the native and English text the lines per file, a histogram of
 * lines per document (in buckets of five) and a histogram of
 * space-separated tokens per line. Documents are base64 text whose decoded
 * bytes are split on '\n'.
 */
module Stats {
  import opened Wrappers
  import opened Bytes
  import opened Errors
  import opened FileSystem
  import Base64
  import LineReaders

  datatype LangStats = LangStats(lines: map<string, int>, linesPerDoc: map<int, int>, tokensPerLine: map<int, int>)

  datatype ShardStats = ShardStats(shard: Path, bytes: map<string, int>, records: map<string, int>,
                                   native: LangStats, english: LangStats)

  /** A map lookup that yields Go's zero value for a missing key. */
  function Get<K>(m: map<K, int>, k: K): int
  {
    if k in m then m[k] else 0
  }

  /** `m[k] += delta` on a Go map. */
  function Bump<K>(m: map<K, int>, k: K, delta: int): (m': map<K, int>)
    ensures m'.Keys == m.Keys + {k}
    ensures Get(m', k) == Get(m, k) + delta
    ensures forall j :: j in m && j != k ==> m'[j] == m[j]
  {
    m[k := Get(m, k) + delta]
  }

  function EmptyLang(): (ls: LangStats)
    ensures ls.lines == map[] && ls.linesPerDoc == map[] && ls.tokensPerLine == map[]
  {
    LangStats(map[], map[], map[])
  }

  /** `NewStats`: every counter map starts empty. */
  function NewStats(shard: Path): (s: ShardStats)
    ensures s.shard == shard && s.bytes == map[] && s.records == map[]
    ensures s.native == EmptyLang() && s.english == EmptyLang()
  {
    ShardStats(shard, map[], map[], EmptyLang(), EmptyLang())
  }

  // --------------------------------------------------------------- openfile

  /** What opening and draining one column file yields. */
  datatype FileCount = FileCount(size: int, records: int, docs: Result<seq<seq<byte>>, Error>)

  /**
   * The counters of the file at `p`: the sentinel -1 for both until the
   * stat succeeds, then the compressed size; the record count starts at -1
   * and gains one per line the reader delivers.
   */
  function CountFile(fs: Fs, p: Path, env: Env): (c: FileCount)
    ensures c.size == -1 <==> StatFile(fs, p, env).Err?
    ensures StatFile(fs, p, env).Ok? ==> c.size == fs.files[p].csize
    ensures c.docs.Ok? <==> StatFile(fs, p, env).Ok? && LineReaders.NewLineReader(fs, p, env).1.Ok?
    ensures c.docs.Ok? ==> c.docs.value == LineReaders.SplitLines(fs.files[p].payload) && c.records == |c.docs.value| - 1
    ensures c.docs.Err? ==> c.records == -1
  {
    match StatFile(fs, p, env)
    case Err(e) => FileCount(-1, -1, Err(e))
    case Ok(size) =>
      match LineReaders.NewLineReader(fs, p, env).1
      case Err(e) => FileCount(size, -1, Err(e))
      case Ok(reader) =>
        var docs := LineReaders.ReadAll(reader).0;
        FileCount(size, -1 + |docs|, Ok(docs))
  }

  /** Reading a column file to its end and closing it leaves the file system as it was. */
  function OpenReadClose(fs: Fs, p: Path, env: Env): (fs': Fs)
    ensures fs' == fs
  {
    var (fs1, r) := LineReaders.NewLineReader(fs, p, env);
    if r.Err? then fs1 else LineReaders.Close(fs1, r.value, env).0
  }

  /**
   * `openfile` followed by draining its channel: `fname`'s two counters are
   * set, every other counter is untouched.
   */
  function OpenFile(fs: Fs, s: ShardStats, fname: string, env: Env): (out: (Fs, ShardStats, Result<seq<seq<byte>>, Error>))
    ensures var c := CountFile(fs, s.shard + [fname], env);
            out.1 == s.(bytes := s.bytes[fname := c.size], records := s.records[fname := c.records]) && out.2 == c.docs
    ensures out.0 == fs
  {
    var p := s.shard + [fname];
    var c := CountFile(fs, p, env);
    var fs' := if StatFile(fs, p, env).Ok? then OpenReadClose(fs, p, env) else fs;
    (fs', s.(bytes := s.bytes[fname := c.size], records := s.records[fname := c.records]), c.docs)
  }

  // ----------------------------------------------------------- documents

  /** `getLines`: the decoded document split on '\n'; absent when the base64 is corrupt. */
  function GetLines(doc: seq<byte>): (r: Option<seq<seq<byte>>>)
    ensures r.Some? <==> Base64.Decode(doc).Some?
    ensures r.Some? ==> |r.value| >= 1 && Join(r.value, NL) == Base64.Decode(doc).value
    ensures r.Some? ==> forall i :: 0 <= i < |r.value| ==> NL !in r.value[i]
  {
    match Base64.Decode(doc)
    case None => None
    case Some(buf) => Some(Split(buf, NL))
  }

  /** A document made by encoding joined lines yields exactly those lines. */
  lemma GetLinesOfEncode(lines: seq<seq<byte>>)
    requires |lines| > 0 && forall i :: 0 <= i < |lines| ==> NL !in lines[i]
    ensures GetLines(Base64.Encode(Join(lines, NL))) == Some(lines)
  {
    Base64.DecodeEncode(Join(lines, NL));
    SplitJoin(lines, NL);
  }

  /** `5 * int(n / 5)`: the multiple of five at or below `n`. */
  function Bucket(n: nat): (b: nat)
    ensures b % 5 == 0 && b <= n < b + 5
  {
    5 * (n / 5)
  }

  /**
   * `countLines`: adds the document's line count to `fname`'s total and one
   * to its bucket; a corrupt document changes nothing.
   */
  function CountLines(ls: LangStats, fname: string, doc: seq<byte>): (out: (LangStats, Option<seq<seq<byte>>>))
    ensures out.1 == GetLines(doc)
    ensures out.1.None? ==> out.0 == ls
    ensures out.1.Some? ==>
              && out.0.lines == Bump(ls.lines, fname, |out.1.value|)
              && out.0.linesPerDoc == Bump(ls.linesPerDoc, Bucket(|out.1.value|), 1)
              && out.0.tokensPerLine == ls.tokensPerLine
  {
    match GetLines(doc)
    case None => (ls, None)
    case Some(lines) =>
      (ls.(lines := Bump(ls.lines, fname, |lines|),
           linesPerDoc := Bump(ls.linesPerDoc, Bucket(|lines|), 1)), Some(lines))
  }

  /** `len(bytes.Split(line, " "))`: one more field than there are spaces. */
  function Fields(line: seq<byte>): (n: nat)
    ensures n == Count(line, SPACE) + 1
  {
    |Split(line, SPACE)|
  }

  /** The field count of every line, in order. */
  function FieldCounts(lines: seq<seq<byte>>): (cs: seq<int>)
    ensures |cs| == |lines| && forall i :: 0 <= i < |lines| ==> cs[i] == Fields(lines[i])
  {
    seq(|lines|, i requires 0 <= i < |lines| => Fields(lines[i]))
  }

  /** One histogram increment per value, in order. */
  function Tally(m: map<int, int>, values: seq<int>): map<int, int>
    decreases |values|
  {
    if |values| == 0 then m else Tally(Bump(m, values[0], 1), values[1..])
  }

  /** The histogram gains exactly the multiset of tallied values. */
  lemma {:induction false} TallyAdds(m: map<int, int>, values: seq<int>)
    ensures forall k :: Get(Tally(m, values), k) == Get(m, k) + multiset(values)[k]
    ensures Tally(m, values).Keys == m.Keys + set i | 0 <= i < |values| :: values[i]
    decreases |values|
  {
    if |values| > 0 {
      var m' := Bump(m, values[0], 1);
      TallyAdds(m', values[1..]);
      assert values == [values[0]] + values[1..];
      assert multiset(values) == multiset{values[0]} + multiset(values[1..]);
      assert (set i | 0 <= i < |values| :: values[i]) == {values[0]} + set i | 0 <= i < |values[1..]| :: values[1..][i];
    }
  }

  /**
   * `countTokens`: adds the document's line count to `fname`'s total and
   * one to the token histogram per line; a corrupt document changes nothing.
   */
  function CountTokens(ls: LangStats, fname: string, doc: seq<byte>): (out: (LangStats, Option<seq<seq<byte>>>))
    ensures out.1 == GetLines(doc)
    ensures out.1.None? ==> out.0 == ls
    ensures out.1.Some? ==>
              && out.0.lines == Bump(ls.lines, fname, |out.1.value|)
              && out.0.linesPerDoc == ls.linesPerDoc
  {
    match GetLines(doc)
    case None => (ls, None)
    case Some(lines) =>
      (ls.(lines := Bump(ls.lines, fname, |lines|),
           tokensPerLine := Tally(ls.tokensPerLine, FieldCounts(lines))), Some(lines))
  }

  /** Each line of the document lands in the bucket of its field count, so the increments sum to the line count. */
  lemma CountTokensHistogram(ls: LangStats, fname: string, doc: seq<byte>)
    requires GetLines(doc).Some?
    ensures var lines := GetLines(doc).value;
            var h := CountTokens(ls, fname, doc).0.tokensPerLine;
            && (forall k :: Get(h, k) == Get(ls.tokensPerLine, k) + multiset(FieldCounts(lines))[k])
            && |multiset(FieldCounts(lines))| == |lines|
            && h.Keys == ls.tokensPerLine.Keys + set i | 0 <= i < |lines| :: Fields(lines[i])
  {
    var lines := GetLines(doc).value;
    TallyAdds(ls.tokensPerLine, FieldCounts(lines));
    assert (set i | 0 <= i < |FieldCounts(lines)| :: FieldCounts(lines)[i]) == set i | 0 <= i < |lines| :: Fields(lines[i]);
  }

  // ------------------------------------------------------------------- calc

  /** Counts the lines of every document; documents that fail to decode are skipped. */
  function CountLinesAll(ls: LangStats, fname: string, docs: seq<seq<byte>>): (ls': LangStats)
    ensures ls'.lines.Keys <= ls.lines.Keys + {fname}
    ensures ls'.tokensPerLine == ls.tokensPerLine
    decreases |docs|
  {
    if |docs| == 0 then ls else CountLinesAll(CountLines(ls, fname, docs[0]).0, fname, docs[1..])
  }

  /** Counts the tokens of every document; documents that fail to decode are skipped. */
  function CountTokensAll(ls: LangStats, fname: string, docs: seq<seq<byte>>): (ls': LangStats)
    ensures ls'.lines.Keys <= ls.lines.Keys + {fname}
    ensures ls'.linesPerDoc == ls.linesPerDoc
    decreases |docs|
  {
    if |docs| == 0 then ls else CountTokensAll(CountTokens(ls, fname, docs[0]).0, fname, docs[1..])
  }

  /** The column files `Calc` only counts records of. */
  const Plain: seq<string> := ["mime.gz", "source.gz", "url.gz", "plain_text.gz"]

  /** `openfile` of each name in turn, draining each channel. */
  function OpenAll(fs: Fs, s: ShardStats, names: seq<string>, env: Env): (s': ShardStats)
    ensures s'.shard == s.shard && s'.native == s.native && s'.english == s.english
    ensures forall f :: f in s'.records <==> f in s.records || f in names
    ensures forall f :: f in names ==> s'.records[f] == CountFile(fs, s.shard + [f], env).records
    ensures forall f :: f in s.records && f !in names ==> s'.records[f] == s.records[f]
    decreases |names|
  {
    if |names| == 0 then s
    else OpenAll(fs, OpenFile(fs, s, names[0], env).1, names[1..], env)
  }

  /** The documents of a file, none when it cannot be opened. */
  function Docs(r: Result<seq<seq<byte>>, Error>): seq<seq<byte>>
  {
    if r.Ok? then r.value else []
  }

  /** The native half of `Calc`'s line counting: "sentences.gz", then "tokenised.gz". */
  function CountNative(fs: Fs, s: ShardStats, env: Env): (s': ShardStats)
    ensures s'.shard == s.shard && s'.english == s.english
    ensures s'.native.lines.Keys <= s.native.lines.Keys + {"sentences.gz", "tokenised.gz"}
  {
    var o1 := OpenFile(fs, s, "sentences.gz", env);
    var s2 := o1.1.(native := CountLinesAll(o1.1.native, "sentences.gz", Docs(o1.2)));
    var o3 := OpenFile(fs, s2, "tokenised.gz", env);
    o3.1.(native := CountTokensAll(o3.1.native, "tokenised.gz", Docs(o3.2)))
  }

  /** The English half of `Calc`'s line counting: "sentences_en.gz", then "tokenised_en.gz". */
  function CountEnglish(fs: Fs, s: ShardStats, env: Env): (s': ShardStats)
    ensures s'.shard == s.shard && s'.native == s.native
    ensures s'.english.lines.Keys <= s.english.lines.Keys + {"sentences_en.gz", "tokenised_en.gz"}
  {
    var o5 := OpenFile(fs, s, "sentences_en.gz", env);
    var s6 := o5.1.(english := CountLinesAll(o5.1.english, "sentences_en.gz", Docs(o5.2)));
    var o7 := OpenFile(fs, s6, "tokenised_en.gz", env);
    o7.1.(english := CountTokensAll(o7.1.english, "tokenised_en.gz", Docs(o7.2)))
  }

  /**
   * `Calc`: record counts for every column; line counts for "sentences.gz"
   * and "tokenised.gz" into the native statistics and for
   * "sentences_en.gz" and "tokenised_en.gz" into the English ones.
   */
  function Calc(fs: Fs, s: ShardStats, env: Env): (s': ShardStats)
    ensures s'.shard == s.shard
    ensures s'.native.lines.Keys <= s.native.lines.Keys + {"sentences.gz", "tokenised.gz"}
    ensures s'.english.lines.Keys <= s.english.lines.Keys + {"sentences_en.gz", "tokenised_en.gz"}
  {
    CountEnglish(fs, CountNative(fs, OpenAll(fs, s, Plain, env), env), env)
  }

  /** The column files `Calc` counts lines of, in the order it opens them. */
  const Texts: seq<string> := ["sentences.gz", "tokenised.gz", "sentences_en.gz", "tokenised_en.gz"]

  /** The eight column files `Calc` opens. */
  const Columns: seq<string> := Plain + Texts

  /** `openfile` of a concatenation of names is `openfile` of the first part, then of the second. */
  lemma {:induction false} OpenAllAppend(fs: Fs, s: ShardStats, a: seq<string>, b: seq<string>, env: Env)
    ensures OpenAll(fs, s, a + b, env) == OpenAll(fs, OpenAll(fs, s, a, env), b, env)
    decreases |a|
  {
    if |a| == 0 {
      assert a + b == b;
    } else {
      var s1 := OpenFile(fs, s, a[0], env).1;
      assert (a + b)[0] == a[0] && (a + b)[1..] == a[1..] + b;
      assert OpenAll(fs, s, a + b, env) == OpenAll(fs, s1, a[1..] + b, env);
      OpenAllAppend(fs, s1, a[1..], b, env);
    }
  }

  /** Opening one name, then the rest. */
  lemma OpenAllCons(fs: Fs, s: ShardStats, name: string, rest: seq<string>, env: Env)
    ensures OpenAll(fs, s, [name] + rest, env) == OpenAll(fs, OpenFile(fs, s, name, env).1, rest, env)
  {
    assert ([name] + rest)[1..] == rest;
  }

  /**
   * The size and record counters after `Calc` are those of opening all
   * eight column files in turn: counting lines touches neither.
   */
  lemma CalcCountersAreOpenAll(fs: Fs, s: ShardStats, env: Env)
    ensures Calc(fs, s, env).records == OpenAll(fs, s, Columns, env).records
    ensures Calc(fs, s, env).bytes == OpenAll(fs, s, Columns, env).bytes
  {
    OpenAllAppend(fs, s, Plain, Texts, env);
    var s0 := OpenAll(fs, s, Plain, env);
    var s1 := OpenFile(fs, s0, "sentences.gz", env).1;
    var s2 := OpenFile(fs, s1, "tokenised.gz", env).1;
    var s3 := OpenFile(fs, s2, "sentences_en.gz", env).1;
    OpenAllCons(fs, s0, "sentences.gz", ["tokenised.gz", "sentences_en.gz", "tokenised_en.gz"], env);
    OpenAllCons(fs, s1, "tokenised.gz", ["sentences_en.gz", "tokenised_en.gz"], env);
    OpenAllCons(fs, s2, "sentences_en.gz", ["tokenised_en.gz"], env);
    OpenAllCons(fs, s3, "tokenised_en.gz", [], env);
  }

  /** `openfile` of each name sets that name's size counter and leaves the others. */
  lemma {:induction false} OpenAllBytes(fs: Fs, s: ShardStats, names: seq<string>, env: Env, f: string)
    ensures f in OpenAll(fs, s, names, env).bytes <==> f in s.bytes || f in names
    ensures f in names ==> OpenAll(fs, s, names, env).bytes[f] == CountFile(fs, s.shard + [f], env).size
    ensures f in s.bytes && f !in names ==> OpenAll(fs, s, names, env).bytes[f] == s.bytes[f]
    decreases |names|
  {
    if |names| > 0 {
      var s1 := OpenFile(fs, s, names[0], env).1;
      assert f in names <==> f == names[0] || f in names[1..];
      OpenAllBytes(fs, s1, names[1..], env, f);
    }
  }

  /**
   * After `Calc` every opened file has its record count, -1 when it could
   * not be read and one less than its lines otherwise; other entries stay.
   */
  lemma CalcRecords(fs: Fs, s: ShardStats, env: Env, f: string)
    ensures f in Calc(fs, s, env).records <==> f in s.records || f in Columns
    ensures f in Columns ==> Calc(fs, s, env).records[f] == CountFile(fs, s.shard + [f], env).records
    ensures f in s.records && f !in Columns ==> Calc(fs, s, env).records[f] == s.records[f]
  {
    CalcCountersAreOpenAll(fs, s, env);
  }

  /**
   * After `Calc` every opened file has its compressed size, -1 when it
   * could not be found; other entries stay.
   */
  lemma CalcBytes(fs: Fs, s: ShardStats, env: Env, f: string)
    ensures f in Calc(fs, s, env).bytes <==> f in s.bytes || f in Columns
    ensures f in Columns ==> Calc(fs, s, env).bytes[f] == CountFile(fs, s.shard + [f], env).size
    ensures f in s.bytes && f !in Columns ==> Calc(fs, s, env).bytes[f] == s.bytes[f]
  {
    CalcCountersAreOpenAll(fs, s, env);
    OpenAllBytes(fs, s, Columns, env, f);
  }
}

=== FILE: strconv.dfy ===
/**
 * The two `strconv` conversions the core relies on: `FormatInt(n, 10)` names
 * shard and batch directories, `Atoi` recognises numeric batch directories.
 * Go's `int` is 64 bits wide; `Atoi` rejects values outside that range.
 */
module Strconv {
  import opened Wrappers

  const MinInt64: int := -0x8000_0000_0000_0000
  const MaxInt64: int := 0x7FFF_FFFF_FFFF_FFFF

  predicate IsDigit(c: char) {
    '0' <= c <= '9'
  }

  predicate AllDigits(s: string) {
    forall i :: 0 <= i < |s| ==> IsDigit(s[i])
  }

  function DigitChar(d: nat): (c: char)
    requires d < 10
    ensures IsDigit(c)
  {
    ('0' as int + d) as char
  }

  /** Unpadded decimal digits of a natural number. */
  function Digits(n: nat): (s: string)
    ensures |s| > 0 && AllDigits(s)
  {
    if n < 10 then [DigitChar(n)] else Digits(n / 10) + [DigitChar(n % 10)]
  }

  /** Decimal rendering, a leading '-' for negative values: Go's `strconv.FormatInt(n, 10)`. */
  function FormatInt(n: int): (s: string)
    ensures |s| > 0
    ensures n >= 0 <==> IsDigit(s[0])
    ensures n < 0 ==> s[0] == '-'
    ensures forall i :: 1 <= i < |s| ==> IsDigit(s[i])
  {
    if n < 0 then "-" + Digits(-n) else Digits(n)
  }

  /** Value of a run of decimal digits, leading zeros allowed. */
  function DigitsValue(s: string): nat
    requires AllDigits(s)
  {
    if |s| == 0 then 0
    else 10 * DigitsValue(s[..|s| - 1]) + (s[|s| - 1] as int - '0' as int)
  }

  /**
   * Go's `strconv.Atoi`: an optional sign, then at least one decimal digit,
   * the value within the 64-bit range; anything else is an error (None).
   */
  function Atoi(s: string): (r: Option<int>)
    ensures r.Some? ==> MinInt64 <= r.value <= MaxInt64
    ensures |s| == 0 ==> r.None?
    ensures r.Some? ==> forall i :: 1 <= i < |s| ==> IsDigit(s[i])
    ensures r.Some? ==> IsDigit(s[0]) || ((s[0] == '+' || s[0] == '-') && |s| >= 2)
  {
    if |s| == 0 then None
    else
      var body := if s[0] == '+' || s[0] == '-' then s[1..] else s;
      if |body| == 0 || !AllDigits(body) then None
      else
        var v: int := DigitsValue(body);
        var n := if s[0] == '-' then -v else v;
        if MinInt64 <= n <= MaxInt64 then Some(n) else None
  }

  lemma {:induction false} DigitsValueOfDigits(n: nat)
    ensures DigitsValue(Digits(n)) == n
  {
    var s := Digits(n);
    if n >= 10 {
      DigitsValueOfDigits(n / 10);
      assert s[..|s| - 1] == Digits(n / 10);
    }
  }

  /** `Atoi` inverts `FormatInt` on every 64-bit value. */
  lemma AtoiFormatInt(n: int)
    requires MinInt64 <= n <= MaxInt64
    ensures Atoi(FormatInt(n)) == Some(n)
  {
    if n < 0 {
      DigitsValueOfDigits(-n);
      AtoiNegative(Digits(-n));
    } else {
      DigitsValueOfDigits(n);
      AtoiUnsigned(Digits(n));
    }
  }

  lemma AtoiUnsigned(d: string)
    requires |d| > 0 && AllDigits(d) && DigitsValue(d) <= MaxInt64
    ensures Atoi(d) == Some(DigitsValue(d))
  {
  }

  lemma AtoiNegative(d: string)
    requires |d| > 0 && AllDigits(d) && DigitsValue(d) <= -MinInt64
    ensures Atoi("-" + d) == Some(-(DigitsValue(d) as int))
  {
    assert ("-" + d)[1..] == d;
  }

  /** Distinct numbers get distinct directory names, whatever their size. */
  lemma FormatIntInjective(a: int, b: int)
    requires FormatInt(a) == FormatInt(b)
    ensures a == b
  {
    if a < 0 {
      DigitsValueOfDigits(-a);
      DigitsValueOfDigits(-b);
      assert Digits(-a) == FormatInt(a)[1..];
      assert Digits(-b) == FormatInt(b)[1..];
    } else {
      DigitsValueOfDigits(a);
      DigitsValueOfDigits(b);
    }
  }
}

=== FILE: wrappers.dfy ===
/** Failure-compatible Option and Result datatypes used throughout the model. */
module Wrappers {

  datatype Option<+T> = None | Some(value: T) {

    predicate IsFailure() {
      None?
    }

    function PropagateFailure<U>(): Option<U>
      requires None?
    {
      None
    }

    function Extract(): T
      requires Some?
    {
      value
    }

    function GetOr(default: T): T {
      match this
      case Some(v) => v
      case None => default
    }
  }

  /** Go's `(value, err)` pair when the value is meaningless on error. */
  datatype Result<+T, +E> = Ok(value: T) | Err(error: E) {

    predicate IsFailure() {
      Err?
    }

    function PropagateFailure<U>(): Result<U, E>
      requires Err?
    {
      Err(error)
    }

    function Extract(): T
      requires Ok?
    {
      value
    }

    /** The error as Go reports it: nil on success. */
    function ErrorOf(): Option<E> {
      match this
      case Ok(_) => None
      case Err(e) => Some(e)
    }
  }
}
